=== FILE: README.md ===
# spokify streaming and progress core, in Dafny

This project models the core of spokify, a language-practice web application, and proves
properties of that model. The core has four parts:

- **The stream relay** (`StreamRelay`, relay.dfy). This is the backend route pair that accepts a
  prompt and then streams the AI response to the browser as Server-Sent Events. Discovery polls
  for the prompt until it is linked to a response, at most 20 times. A polling tick every 500 ms
  forwards only the tokens not yet sent. It sends the completion event only after every token.
  Two timeouts apply: 5 s with the response record absent, and 60 s without new tokens. The
  events are values of the `Event` datatype (events.dfy), not text. A session is a value
  (`Session`) with a step function (`Step`). The class `PollingLoop` holds the same state in
  fields, and its `Tick` is proved against `Step`.
- **The stream client and the speech bridge** (`StreamClient`, client.dfy; `SpeechBridge`,
  speech.dfy; `Recognition`, recognition.dfy). This is the chat component's side of one response:
  - the text it reassembles from the events;
  - its token counters and its completion latch;
  - when its promise resolves or rejects;
  - the sentence buffer that feeds text-to-speech, and the FIFO queue of utterances;
  - the guarded start and stop of speech recognition, and how recognition errors are classified.

  Each of these is a pure transition on a record. The classes `StreamTurn`, `SpeechQueue` and
  `RecognitionControl` update fields in place and are proved against those transitions.
- **Progress bookkeeping** (`ProgressController`, progress.dfy; `LessonController`,
  lesson_controller.dfy). This is the backend's weekly-goal reset, the streak, the weekly
  practice counter, the achievements, the stage and progress percentage of a lesson, and the
  weighted fluency score. The classes `ProgressDocument` and `UserLessonDocument` model the
  records that the handlers change field by field.
- **Front-end lesson derivations** (`LessonsContext`, `LessonsTab`, `DateUtils`). These are the
  recent and recommended lesson lists, the state updates after starting or completing a lesson,
  the weekly-goal guard, the lessons tab filter and its labels and colours, and the relative-time
  formatter.

The handlers and components are modelled as the code is written, including the three defects
listed under "## Findings". Each defect's corrected rule is given beside it, with its intended
property proved.

The shared modules are `Wrappers` (an `Option` type) and `Clock`. Times are integer milliseconds
since the epoch. A calendar day is `t / 86400000`. The ISO weekday (Monday 1 … Sunday 7) is
computed from the day number; 1970-01-01 was a Thursday.

## Model

| member | source | states |
|---|---|---|
| StreamRelay.SubmitPrompt | backend/src/routes/api/ai.ts:32-71 | A falsy message gets 400 and nothing else happens. Exactly one reconnect is tried, and only when the database handle is missing; a failed reconnect gives 503. A record is inserted exactly when the reply is 201; it is unprocessed, not processing, and its user defaults to `anonymous`. The 201 reply carries the new id. |
| StreamRelay.OpenStream | backend/src/routes/api/ai.ts:74-101 | A malformed prompt id gets a JSON 400 before any event-stream header. The event stream opens exactly when the id is well formed and a database handle exists or is reconnected. |
| StreamRelay.DiscoveryOutcome | backend/src/routes/api/ai.ts:104-153 | Discovery polls at most 20 times. It finds the response id of the first prompt linked with a well-formed id. A malformed link fails at once with "Invalid response ID format". After 20 unlinked polls it gives up with the message of the last poll. |
| StreamRelay.NeverLinkedTimesOut | backend/src/routes/api/ai.ts:105-153 | A prompt that is never linked ends discovery after exactly 20 polls, with the message matching the last poll. |
| StreamRelay.Discover | backend/src/routes/api/ai.ts:104-153 | The `while` loop computes the discovery outcome. It writes exactly one error event when discovery fails and nothing when it succeeds. |
| StreamRelay.TickForwardsSuffix | backend/src/routes/api/ai.ts:199-210 | A tick that reads more tokens than `previousLength` sends exactly `tokens[previousLength..]`, with `partial = !complete` and `totalTokens` the length read, and then sets `previousLength` to that length. Otherwise `previousLength` is unchanged. |
| StreamRelay.CompletionOnlyAfterAllTokens | backend/src/routes/api/ai.ts:214-231 | A tick delivers a completion exactly when the record is complete and has a token array. By then `previousLength` has reached the array's length, so the completion never precedes a token. |
| StreamRelay.AbsenceTimeout | backend/src/routes/api/ai.ts:175-195 | The first tick with the record missing stamps `startTime`, and the stamp is never reset. A missing record yields "Response not found after waiting" exactly when more than 5000 ms have passed since the stamp. Otherwise the tick changes nothing else. |
| StreamRelay.InactivityTimeoutRule | backend/src/routes/api/ai.ts:199-242 | A tick that sends tokens refreshes `lastUpdate` and never times out. A tick that sends none, more than 60000 ms after `lastUpdate`, ends the stream with "Stream timed out due to inactivity". |
| StreamRelay.StepValid | backend/src/routes/api/ai.ts:167-253 | Every tick keeps the session invariant. At most one terminal event reaches the client and nothing follows it. A completion never announces more tokens than were forwarded. `previousLength` counts exactly the forwarded tokens. |
| StreamRelay.RunValid | backend/src/routes/api/ai.ts:167-253 | The invariant holds after any sequence of ticks. |
| StreamRelay.AtMostOneTerminal | backend/src/routes/api/ai.ts:167-253 | From the start of streaming, the client never receives two terminal events. |
| StreamRelay.RunMonotone | backend/src/routes/api/ai.ts:199-210 | `previousLength` never decreases over any sequence of ticks. |
| StreamRelay.NothingAfterDisconnect | backend/src/routes/api/ai.ts:256-258 | After the client disconnects, no later tick changes anything. |
| StreamRelay.StepForwards | backend/src/routes/api/ai.ts:199-210 | One tick over an append-only token array keeps what has been forwarded a prefix of what was read. While polling, the two are equal. |
| StreamRelay.RunDeliversInOrder | backend/src/routes/api/ai.ts:199-210 | Over any append-only sequence of reads, the forwarded tokens are, in order, a prefix of the last array read. While polling, they are the whole array. |
| StreamRelay.ResponseNeverAppears | backend/src/routes/api/ai.ts:175-195 | Example: a record absent at 0.5 s, 5 s and 5.6 s ends with the single not-found error. |
| StreamRelay.TwoBatchesThenCompletion | backend/src/routes/api/ai.ts:199-231 | Example: two reads deliver two batches and then the completion with the final total. |
| StreamRelay.SecondTerminalWriteAfterEnd | backend/src/routes/api/ai.ts:214-242 | The completion branch does not return before the inactivity check. So a completion on a tick more than 60 s after the last tokens is followed by an inactivity error written after the end of the response. |
| StreamRelay.PollingLoop.Tick | backend/src/routes/api/ai.ts:169-253 | The interval body updates the loop's fields exactly as `Step` does. It keeps the invariant and never lowers `previousLength`. |
| StreamRelay.PollingLoop.Disconnect | backend/src/routes/api/ai.ts:256-258 | Disconnect clears the interval, so polling stops. The session invariant is kept. |
| Events.JoinAppend | frontend/src/components/AIChat.tsx:1101-1104 | Joining two token lists equals joining each and concatenating. |
| SpeechBridge.RunsMaximal | frontend/src/components/AIChat.tsx:932 | The plain run and the terminator run of the sentence pattern `[^.!?;]+[.!?;]+` are maximal. |
| SpeechBridge.SentencesShape | frontend/src/components/AIChat.tsx:932 | Every match is one or more non-terminators followed by one or more terminators. |
| SpeechBridge.SentencesCover | frontend/src/components/AIChat.tsx:932-941 | The buffer is its leading terminators, followed by the matches in order, followed by the rest. |
| SpeechBridge.NoSentenceInRest | frontend/src/components/AIChat.tsx:932-941 | The rest after the last match holds no further sentence. |
| SpeechBridge.ProcessTextAsWritten | frontend/src/components/AIChat.tsx:911-953 | The buffer update the component runs. With call mode off or a blank increment, nothing is spoken and the buffer is kept. Otherwise, for `b` the buffer plus the increment: with at least one match, the matches joined with spaces are spoken and the buffer becomes `b` minus as many leading characters as the joined text has. With no match and a forced call or more than 100 characters, all of `b` is spoken and the buffer empties. With no match otherwise, nothing is spoken and the buffer is `b`. |
| SpeechBridge.ProcessText | frontend/src/components/AIChat.tsx:911-953 | The corrected update: the same flush rule, except that after a match the buffer is the text after the last match. It speaks exactly what the as-written update speaks. When nothing is spoken, the buffer is kept or extended. |
| SpeechBridge.ProcessTextKeepsTail | frontend/src/components/AIChat.tsx:932-949 | After a flush the buffer is a suffix of the old buffer plus the increment, and it holds no sentence. When sentences were found, the text is exactly the leading terminators, then the spoken sentences, then the new buffer. |
| SpeechBridge.JoinSpaceLength | frontend/src/components/AIChat.tsx:938 | Joining with spaces adds one character per gap. |
| SpeechBridge.OneSentenceAgrees | frontend/src/components/AIChat.tsx:932-941 | With exactly one match starting at index 0, the as-written update equals the corrected one. |
| SpeechBridge.AsWrittenDropsText | frontend/src/components/AIChat.tsx:938-941 | On "A.B.C" the as-written update empties the buffer, losing "C". The corrected update keeps "C". |
| SpeechBridge.StartNext | frontend/src/components/AIChat.tsx:788-805 | `startSpeaking` does nothing when the queue is empty or a unit is processing. Otherwise it marks processing and speaks `queue[0]`, leaving the queue as it is. |
| SpeechBridge.Enqueue | frontend/src/components/AIChat.tsx:669-706 | A blank text is ignored. So is the call-mode prompt text while the user has not interacted. Any other text is appended to the end of the queue and speaking is on. The interaction flag and the prompt text never change. |
| SpeechBridge.Interacted | frontend/src/components/AIChat.tsx:679-682 | A user interaction sets the interaction flag and leaves the queue and the shifted units alone. |
| SpeechBridge.PromptWaitsForInteraction | frontend/src/components/AIChat.tsx:679-682 | Before any interaction, speaking the prompt text changes nothing. After an interaction the same text is queued at the end. |
| SpeechBridge.FinishUnit | frontend/src/components/AIChat.tsx:807-875 | The end or error of an utterance shifts exactly one unit and clears processing. It starts the next unit if there is one, and otherwise speaking is off. |
| SpeechBridge.Cleared | frontend/src/components/AIChat.tsx:908 | Clearing empties the queue and leaves processing untouched. |
| SpeechBridge.ApplyValid | frontend/src/components/AIChat.tsx:669-875 | Each queue operation keeps the queue invariant: at most one unit processing, and it is the head. Each operation adds the new text at the end of shifted-plus-queued. |
| SpeechBridge.SpeechFifo | frontend/src/components/AIChat.tsx:669-875 | After any sequence of `speakText` calls, utterance ends and interactions, the shifted units followed by the queue are exactly the spoken texts in call order: the non-blank ones, less the prompt text while there had been no interaction. The interaction flag records whether any interaction happened. |
| SpeechBridge.ClearWhileSpeakingSkipsUnit | frontend/src/components/AIChat.tsx:807-908 | Example: clearing the queue while one unit plays makes that unit's end shift the next unit, which is then never spoken. |
| SpeechBridge.SpeechQueue.SpeakText | frontend/src/components/AIChat.tsx:669-786 | The queue object's `speakText`, including the skip of the prompt text before any interaction, is exactly `Enqueue`. |
| SpeechBridge.SpeechQueue.Interact | frontend/src/components/AIChat.tsx:679-682 | Recording an interaction on the queue object is exactly `Interacted`. |
| SpeechBridge.SpeechQueue.StartSpeaking | frontend/src/components/AIChat.tsx:788-805 | The queue object's `startSpeaking` is exactly `StartNext`. |
| SpeechBridge.SpeechQueue.UtteranceDone | frontend/src/components/AIChat.tsx:807-875 | The utterance end handler is exactly `FinishUnit`. |
| StreamClient.Begin | frontend/src/components/AIChat.tsx:878-908 | A new turn is pending, with the source open, the latch clear and the speech queue empty. It captures whether speech was playing. |
| StreamClient.Speak | frontend/src/components/AIChat.tsx:911-953 | `processTextForSpeech` runs the as-written buffer update: the buffer becomes that update's buffer, and the spoken text, if any, is queued by `Enqueue`. With call mode off or a blank increment the turn is unchanged. It never changes the counters, the flags, the messages or the outcome. |
| StreamClient.ForcedFlush | frontend/src/components/AIChat.tsx:911-913 | A forced call passes an empty increment and so changes nothing. |
| StreamClient.CompletionCheck | frontend/src/components/AIChat.tsx:991-1013 | The check resolves only when the latch is set, speech was not playing at the start and the queue is empty. Then it resolves, and it does so at most once. |
| StreamClient.TrackTotal | frontend/src/components/AIChat.tsx:1046-1048 | `expectedTotalTokens` becomes the maximum of itself and the event's total. |
| StreamClient.Latch | frontend/src/components/AIChat.tsx:1051-1085 | A complete event sets the latch and may only resolve through the completion check. |
| StreamClient.TakeBatch | frontend/src/components/AIChat.tsx:1101-1119 | A batch appends its joined tokens to the response and adds its length to the received count. |
| StreamClient.LatchIfDone | frontend/src/components/AIChat.tsx:1132-1143 | The latch is set when the event is not partial and the received count has reached a positive expected total. |
| StreamClient.ErrorAlwaysResolves | frontend/src/components/AIChat.tsx:1036-1043 | An error event appends its text as a message, closes the source and resolves, whatever came before. |
| StreamClient.OnEventAdvances | frontend/src/components/AIChat.tsx:1031-1143 | Non-error events only advance the flags, and a change of outcome is only to resolved, by the completion check. |
| StreamClient.RejectsOnlyOn | frontend/src/components/AIChat.tsx:1144-1169 | A pending turn rejects if and only if a message fails to parse, or the transport fails before the latch is set. |
| StreamClient.ResolvesOnlyWhenDone | frontend/src/components/AIChat.tsx:991-1043 | A turn resolves only on an error event or when the latch is set, speech was not playing and the queue is empty. |
| StreamClient.StepMonotone | frontend/src/components/AIChat.tsx:1031-1169 | A settled outcome, the latch, a closed source and the completed-speech flag never revert. |
| StreamClient.SettledStaysSettled | frontend/src/components/AIChat.tsx:1031-1169 | Over any sequence of inputs, the outcome, the latch and a closed source never revert. |
| StreamClient.StaleSpeakingBlocksCompletion | frontend/src/components/AIChat.tsx:993 | If speech was playing when the turn started, the completion check never resolves, because it reads that captured value. Only an error event resolves such a turn. In the program such a turn ends, if no error event comes, only by the 5-minute failsafe, which this model leaves out. |
| StreamClient.OneEventReassembles | frontend/src/components/AIChat.tsx:1046-1105 | One event appends its tokens' text, adds their count, and raises the expected total to at least its own. |
| StreamClient.Reassembly | frontend/src/components/AIChat.tsx:1101-1105 | While the source is open, the response is the in-order concatenation of all token batches. The received count is their total length, and the expected total is the running maximum. |
| StreamClient.StreamedTextIsPrefix | frontend/src/components/AIChat.tsx:1101-1105 | Fed by the relay over an append-only response, the client's text is a prefix of the last token array the relay read. |
| StreamClient.StreamTurn.ProcessTextForSpeech | frontend/src/components/AIChat.tsx:911-953 | The closure variables and the queue change exactly as `Speak` says, with the buffer cut by `substring` of the joined text's length. |
| StreamClient.StreamTurn.CheckForCompletion | frontend/src/components/AIChat.tsx:991-1013 | The fields change exactly as `CompletionCheck` says. |
| StreamClient.StreamTurn.OnMessage | frontend/src/components/AIChat.tsx:1031-1150 | The message handler updates the fields exactly as `Step` does for the message, speaking through the as-written buffer update. |
| StreamClient.StreamTurn.OnTransportError | frontend/src/components/AIChat.tsx:1152-1169 | The transport-error handler updates the fields exactly as `Step` does for a failure. |
| StreamClient.StreamTurn.OnTimer | frontend/src/components/AIChat.tsx:1016-1024 | The 300 ms check updates the fields exactly as `Step` does for a tick. |
| Recognition.GuardedStart | frontend/src/components/AIChat.tsx:1383-1402 | `safeStartRecognition` does nothing, and returns false, when there is no engine or it is already running. It returns true exactly when it started the engine, and running means it had been running or it just started. |
| Recognition.GuardedStop | frontend/src/components/AIChat.tsx:1405-1423 | Stopping is a no-op without an engine or when it is not running. Otherwise the engine ends up not running, even if `stop` throws. |
| Recognition.StartTwiceIsStartOnce | frontend/src/components/AIChat.tsx:1383-1402 | A second start after a successful one changes nothing and returns false. |
| Recognition.StopTwiceIsStopOnce | frontend/src/components/AIChat.tsx:1405-1423 | Stopping twice has the same effect as stopping once. |
| Recognition.StopAfterStart | frontend/src/components/AIChat.tsx:1383-1423 | Start followed by stop leaves the engine not running. |
| Recognition.OnRecognitionError | frontend/src/components/AIChat.tsx:214-262 | Fatal errors turn call mode off. `aborted` and `no-speech` keep listening and schedule a restart only while listening in call mode. Any other error sets listening off. Recognition is never left running. |
| Recognition.FatalErrorsEndCall | frontend/src/components/AIChat.tsx:221-232 | In call mode, an error ends the call if and only if it is one of the four fatal errors. |
| Recognition.ErrorNeverListensOutsideCall | frontend/src/components/AIChat.tsx:221-261 | After an error, listening implies call mode and a scheduled restart. |
| Recognition.TextsPartition | frontend/src/components/AIChat.tsx:145-152 | The final text is the transcripts of the final results in their order, and the interim text those of the other results in their order. The two selections split the results as a multiset, and the two lengths add up to the total. |
| Recognition.Select | frontend/src/components/AIChat.tsx:145-152 | Selecting by `isFinal` keeps only results of the selected kind. |
| Recognition.CollectTranscripts | frontend/src/components/AIChat.tsx:142-152 | The loop from `resultIndex` computes the final and the interim text of the remaining results. |
| Recognition.ShowResult | frontend/src/components/AIChat.tsx:154-176 | Final text is appended to the detected speech and clears the interim text. The visible text is the detected speech plus the interim text. With neither, nothing changes. |
| Recognition.DetectedGrows | frontend/src/components/AIChat.tsx:168-176 | The detected speech only grows, as a prefix, over any sequence of results. |
| Recognition.CallStatusMessage | frontend/src/components/AIChat.tsx:1433-1445 | Each of the five messages is shown if and only if its condition holds, in priority order: listening, speaking, pending restart, processing. |
| Recognition.RecognitionControl.SafeStart | frontend/src/components/AIChat.tsx:1383-1402 | The engine fields change exactly as `GuardedStart` says, and the transcript does not change. |
| Recognition.RecognitionControl.SafeStop | frontend/src/components/AIChat.tsx:1405-1423 | The engine fields change exactly as `GuardedStop` says. |
| Recognition.RecognitionControl.OnError | frontend/src/components/AIChat.tsx:214-262 | The listening fields change exactly as `OnRecognitionError` says. |
| Recognition.RecognitionControl.OnResult | frontend/src/components/AIChat.tsx:141-177 | The transcript fields change exactly as `ShowResult` says for the collected texts. |
| Clock.DayInWeek | backend/src/controllers/progressController.ts:6-17 | A day number is seven times its week plus its ISO weekday, less four, so weeks start on Monday. |
| ProgressController.WeekStart | backend/src/controllers/progressController.ts:6-17 | The start of a timestamp's week is at or before it and less than seven days before it. |
| ProgressController.ResetDueIffBeforeWeekStart | backend/src/controllers/progressController.ts:6-17 | The corrected reset is due if and only if the last reset was before the start of the current week. |
| ProgressController.ShouldResetImpliesDue | backend/src/controllers/progressController.ts:6-17 | Whenever the as-written rule resets, a new week has begun. |
| ProgressController.ShouldResetMissesOnlySameWeekday | backend/src/controllers/progressController.ts:6-17 | The as-written rule misses a new week exactly when the two times are on the same weekday, seven calendar days apart, and less than 7×24 h apart. |
| ProgressController.ShouldResetMissesMonday | backend/src/controllers/progressController.ts:6-17 | Example: Monday 23:00 to the next Monday 01:00 is a new week that the as-written rule does not reset. |
| ProgressController.NextStreakAsWritten | backend/src/controllers/progressController.ts:180-211 | As written: on the next calendar day the streak increments and `longest` becomes the larger of itself and the new streak. On a gap the streak becomes 1 and `longest` is untouched. The practice date becomes today. |
| ProgressController.GapStreakExceedsLongest | backend/src/controllers/progressController.ts:208-211 | From a fresh record (0/0), a gap day gives current 1 and longest 0. |
| ProgressController.NextStreak | backend/src/controllers/progressController.ts:180-211 | Corrected: on a consecutive day the streak increments, on a gap it becomes 1. `longest` is the maximum of itself and the new current. The practice date becomes today. |
| ProgressController.NextStreakKeepsValid | backend/src/controllers/progressController.ts:180-211 | The corrected rule keeps `0 <= current <= longest`. When `longest >= 1` it equals the as-written rule. |
| ProgressController.CountPracticeDay | backend/src/controllers/progressController.ts:214-235 | As written: the weekly counter becomes 1, stamping the reset date, when there is no reset date or `shouldResetWeeklyGoal` holds. Otherwise it increments, capped at 7. The target never changes. |
| ProgressController.CountRestartsOnlyInNewWeek | backend/src/controllers/progressController.ts:214-235 | A practice that restarts a stamped counter comes after the start of the current week, and the last reset was before it. |
| ProgressController.WeeklyCounterBounded | backend/src/controllers/progressController.ts:214-235 | Over any sequence of practice days the counter stays within 0..7. |
| ProgressController.UnlockStreak | backend/src/controllers/progressController.ts:194-207 | Streak achievements '1', '2' and '3' unlock at a current streak of 3, 7 and 30. An achievement ends up unlocked if and only if it was unlocked or qualifies. Unlocked ones are never modified, and ids and kinds stay. A qualifying locked achievement is unlocked and stamped with the current time. |
| ProgressController.LongStreakUnlocksAll | backend/src/controllers/progressController.ts:194-207 | A streak of 30 or more unlocks all three streak achievements. |
| ProgressController.SameDayOnlyAddsMinutes | backend/src/controllers/progressController.ts:164-175 | A practice on the same calendar day only adds the minutes. |
| ProgressController.NewDayUpdate | backend/src/controllers/progressController.ts:176-235 | On a new day the minutes are added and the streak becomes `NextStreakAsWritten` of the old streak: one more on the next calendar day, otherwise 1 with `longest` kept, and the practice date becomes today. The weekly counter counts the day, and lessons and fluency are untouched. |
| ProgressController.PracticeKeepsAchievements | backend/src/controllers/progressController.ts:194-207 | Unlocked achievements are never modified. Only a consecutive day can unlock any. |
| ProgressController.PracticeKeepsValid | backend/src/controllers/progressController.ts:164-238 | A practice keeps the streak bounded (current at most longest, or the 1 of a restart) and the weekly counter within 0..7. Once `longest` is at least 1, it keeps current at most longest. |
| ProgressController.Refreshed | backend/src/controllers/progressController.ts:49-63 | Reading an existing record only touches the weekly counter and its reset date, by the as-written reset rule. A missing reset date is stamped with the current time. Lessons, minutes, fluency, streak and achievements never change. |
| ProgressController.GetUserProgress | backend/src/controllers/progressController.ts:22-70 | Reading always replies 200 with a record. It creates the defaults (counters 0, weekly 0 of 5) when there is no record, and otherwise applies `Refreshed`. |
| ProgressController.ReadResetsOnNewWeek | backend/src/controllers/progressController.ts:52-60 | The read sets the counter to 0 and stamps the reset exactly when `shouldResetWeeklyGoal` holds, and then a new week has indeed begun. Otherwise the record is read unchanged. |
| ProgressController.ReadMissesMonday | backend/src/controllers/progressController.ts:49-63 | Example: a reset stamped Monday 23:00 is read the next Monday at 01:00 unchanged, although a new week has begun. |
| ProgressController.ReadIsIdempotent | backend/src/controllers/progressController.ts:22-70 | Reading twice at the same time gives the same as reading once. |
| ProgressController.UpdateWeeklyGoal | backend/src/controllers/progressController.ts:82-124 | A missing target or one outside 1..7 gets 400 and no change. Otherwise only `weeklyGoal.target` changes. A missing record is created with zero counters, weekly 0 of the target stamped now, streak 0 and the default achievements. |
| ProgressController.RecordDailyPractice | backend/src/controllers/progressController.ts:129-250 | Missing minutes or fewer than 1 get 400 and no change. Otherwise the reply is 200. An existing record becomes `PracticeUpdate` of it (minutes added, streak, weekly counter and achievements as written). A missing record is created with the minutes, weekly 1 of 5 and streak 1 of 1. |
| ProgressController.RecordKeepsValid | backend/src/controllers/progressController.ts:129-250 | The handler keeps the record's invariants (bounded streak, weekly counter 0..7). A record it creates has current at most longest. |
| ProgressController.DefaultRecordThenGapDay | backend/src/controllers/progressController.ts:22-250 | Example: the record that reading creates, followed by a practice two days later, has streak 1 and longest 0, so the current streak exceeds the longest. |
| ProgressController.ProgressDocument.UnlockStreakAchievements | backend/src/controllers/progressController.ts:194-207 | The `for` loop over the achievements sets exactly what `UnlockStreak` says. |
| ProgressController.ProgressDocument.RecordPractice | backend/src/controllers/progressController.ts:164-238 | The in-place update of the record is exactly `PracticeUpdate`, the as-written practice rules. |
| ProgressController.ProgressDocument.Refresh | backend/src/controllers/progressController.ts:49-63 | The in-place read refresh is exactly `Refreshed`. |
| LessonController.StagePercent | backend/src/controllers/lessonController.ts:269-271 | The percentage is within 0..90 and is the floor of `(stage+1)*90/total`. |
| LessonController.StagePercentMonotone | backend/src/controllers/lessonController.ts:269-271 | The percentage grows with the stage. |
| LessonController.RecordResponse | backend/src/controllers/lessonController.ts:261-279 | The response is appended. The stage advances by one only while it is before the last stage. The progress stays within 0..90, and score, completion and start are untouched. |
| LessonController.NextPrompt | backend/src/controllers/lessonController.ts:294-300 | The next prompt is that of the current stage, or the completion text past the last stage. |
| LessonController.SubmitResponse | backend/src/controllers/lessonController.ts:225-311 | A falsy response gets 400 and an unknown lesson 404. The reply carries the stored stage and progress and the next prompt. `isLastStage` holds if and only if the stage is at or past the number of stages. A first answer stores a new record with progress 5, stage 0 and that answer. A later answer stores `RecordResponse` of the existing record. |
| LessonController.FirstResponseCreates | backend/src/controllers/lessonController.ts:250-259 | A first response creates the record with progress 5, stage 0 and that one response. |
| LessonController.LaterResponseNeverLast | backend/src/controllers/lessonController.ts:261-309 | On a record within the lesson, the response is appended, the progress is at most 90, and `isLastStage` is never reported. |
| LessonController.ProgressCanDrop | backend/src/controllers/lessonController.ts:254-274 | Progress is not monotone. With 100 stages the first response gives 5 and the second 1. A response on a completed lesson brings its progress from 100 back to 90. |
| LessonController.RoundDivNearest | backend/src/controllers/lessonController.ts:399 | The rounding is to the nearest integer, with halves going up, as `Math.round` does. |
| LessonController.FluencyBetween | backend/src/controllers/lessonController.ts:397-400 | The new fluency score lies between the old score and the lesson's score. |
| LessonController.FindFirst | backend/src/controllers/lessonController.ts:464 | `find` returns the first achievement with the id, or none when no achievement has it. |
| LessonController.UnlockFirst | backend/src/controllers/lessonController.ts:463-469 | Only the first achievement with the id can change. It is unlocked, stamped and reported if it was locked. Unlocked ones are never modified. |
| LessonController.CountLesson | backend/src/controllers/lessonController.ts:394-400 | One more lesson and its minutes are counted, and nothing else but the fluency score changes. |
| LessonController.PracticeDay | backend/src/controllers/lessonController.ts:403-457 | Lessons on the same calendar day leave the streak and weekly counter alone. On a new day they move by the as-written streak and weekly rules. |
| LessonController.CompletionCounters | backend/src/controllers/lessonController.ts:393-457 | The lesson count grows by one and the minutes by the lesson's time. The fluency score is the rounded average with the new score. On a new day only, the streak and the weekly counter move by the as-written rules (`NextStreakAsWritten`, `CountPracticeDay`). |
| LessonController.UnlockFirstKeeps | backend/src/controllers/lessonController.ts:459-509 | Each unlocking step keeps the invariant that only locked completion achievements change and that everything reported is unlocked and stamped. |
| LessonController.CompletionAchievements | backend/src/controllers/lessonController.ts:459-509 | Unlocked achievements are never modified. Only '4', '5', '6' and '8' can change, each then unlocked and stamped. At most three are reported, all unlocked by this call. |
| LessonController.PerfectScoreUnlocks | backend/src/controllers/lessonController.ts:463-470 | A score of 95 or more unlocks the first achievement '4'. |
| LessonController.CompleteLesson | backend/src/controllers/lessonController.ts:331-520 | A missing score or one outside 0..100 gets 400, and an unknown or unstarted lesson gets 404, each with no change. Otherwise the user lesson gets progress 100, the score and the completion time. A reply is sent if and only if a progress record already existed. An existing progress record becomes the `CompletionUpdate` of it (counters, fluency, streak, weekly counter and unlocks), and the reply lists exactly that update's unlocked achievements. The replies are 404 "Lesson not found", 404 "User has not started this lesson", or 200 when a progress record exists. |
| LessonController.FirstCompletionCreates | backend/src/controllers/lessonController.ts:374-391 | With no progress record, one is created with 1 lesson, the lesson's minutes, the score as fluency, weekly 1 and streak 1, and no reply is sent. |
| LessonController.FluencyStaysInRange | backend/src/controllers/lessonController.ts:397-400 | With a valid old fluency and a valid score, the new fluency stays within 0..100. |
| LessonController.UserLessonDocument.AddResponse | backend/src/controllers/lessonController.ts:261-279 | The in-place update of the user lesson is exactly `RecordResponse`. |
| LessonController.UserLessonDocument.MarkCompleted | backend/src/controllers/lessonController.ts:365-369 | Progress becomes 100, with the score, the completion time and the access time. |
| LessonController.UnlockOn | backend/src/controllers/lessonController.ts:463-469 | The in-place unlock on the record is exactly `UnlockFirst`. |
| LessonController.ApplyCompletion | backend/src/controllers/lessonController.ts:393-509 | The in-place update of the progress record, and the list of unlocked achievements, are exactly `CompletionUpdate`. |
| LessonsContext.Where | frontend/src/context/LessonsContext.tsx:206-207 | Filtering keeps exactly the matching lessons, each as often as in the list. It is the identity when all lessons match. |
| LessonsContext.CompareAntisymmetric | frontend/src/context/LessonsContext.tsx:208-219 | The recent-lessons comparator is consistent: swapping its arguments negates it. |
| LessonsContext.BeforeTotal | frontend/src/context/LessonsContext.tsx:208-219 | Any two lessons are ordered one way or the other. |
| LessonsContext.BeforeTransitive | frontend/src/context/LessonsContext.tsx:208-219 | The order is transitive. |
| LessonsContext.Insert | frontend/src/context/LessonsContext.tsx:208-219 | Insertion adds exactly the one lesson. |
| LessonsContext.InsertSorted | frontend/src/context/LessonsContext.tsx:208-219 | Insertion into a sorted list keeps it sorted. |
| LessonsContext.Sort | frontend/src/context/LessonsContext.tsx:208-219 | The sort result is ordered and a permutation of its input. |
| LessonsContext.SortStable | frontend/src/context/LessonsContext.tsx:208-219 | The sort is stable: the lessons that compare equal to any given lesson keep their relative order. |
| LessonsContext.RecentLessonsSpec | frontend/src/context/LessonsContext.tsx:206-220 | Recent lessons are started lessons of the list, at most five and fewer only when fewer are started. Completed lessons come first, the latest completion first; the others come by progress, highest first. A started lesson left out sorts after every one shown. |
| LessonsContext.RecommendedLessons | frontend/src/context/LessonsContext.tsx:223-226 | Recommended lessons are unstarted lessons of the list, as many as three when there are. |
| LessonsContext.StartedIn | frontend/src/context/LessonsContext.tsx:240-244 | Only the lessons with the id change, and only their progress changes. |
| LessonsContext.CompletedIn | frontend/src/context/LessonsContext.tsx:294-304 | Only the lessons with the id change. They get progress 100, the score and the completion time. |
| LessonsContext.CompleteOverridesStart | frontend/src/context/LessonsContext.tsx:237-304 | Completing after starting is the same as completing alone. |
| LessonsContext.CompletedLeavesRecommended | frontend/src/context/LessonsContext.tsx:206-226 | A completed lesson is no longer recommendable, and it sorts strictly before every uncompleted lesson. |
| LessonsContext.LessonsStore.StartLesson | frontend/src/context/LessonsContext.tsx:231-262 | On success the lessons become `StartedIn`. On failure nothing changes, and the progress never does. |
| LessonsContext.LessonsStore.CompleteLesson | frontend/src/context/LessonsContext.tsx:286-330 | On success the lessons become `CompletedIn` and the progress becomes the server's. On failure nothing changes. |
| LessonsContext.LessonsStore.UpdateWeeklyGoal | frontend/src/context/LessonsContext.tsx:333-372 | A target outside 1..7 is rejected with nothing changed. Otherwise only the target changes. A refused server update replaces the progress with the reloaded one. |
| LessonsTab.FilterLessons | frontend/src/components/dashboard/LessonsTab.tsx:22-34 | With both selections 'all' the list is unchanged. Every kept lesson matches the selected category and level. Every matching lesson is kept as often as it occurs. |
| LessonsTab.WhereIsSubsequence | frontend/src/components/dashboard/LessonsTab.tsx:22-34 | One filter keeps the order of the list. |
| LessonsTab.WhereTwice | frontend/src/components/dashboard/LessonsTab.tsx:25-31 | Two filters in a row equal one filter by both conditions. |
| LessonsTab.FilterKeepsOrder | frontend/src/components/dashboard/LessonsTab.tsx:23-31 | The filtered list is a subsequence of all lessons. |
| LessonsTab.LessonProgress | frontend/src/components/dashboard/LessonsTab.tsx:14 | A missing progress counts as 0. |
| LessonsTab.Label | frontend/src/components/dashboard/LessonsTab.tsx:39-45 | 'all' maps to the fixed label. Any other option has its first character upper-cased and keeps the rest and the length. |
| LessonsTab.LabelInjective | frontend/src/components/dashboard/LessonsTab.tsx:39-45 | Options starting with a lower-case letter get distinct labels. |
| LessonsTab.OptionLabelsDistinct | frontend/src/components/dashboard/LessonsTab.tsx:36-45 | The offered categories and levels have pairwise distinct labels. |
| LessonsTab.ProgressColor | frontend/src/components/dashboard/LessonsTab.tsx:47-51 | Red exactly below 33, yellow exactly from 33 below 66, and green exactly from 66. |
| LessonsTab.ProgressColorMonotone | frontend/src/components/dashboard/LessonsTab.tsx:47-51 | More progress never shows a lower colour. |
| LessonsTab.MissingProgressIsRed | frontend/src/components/dashboard/LessonsTab.tsx:14-51 | A lesson without progress shows the red bar. |
| DateUtils.NatToStringRoundTrip | frontend/src/utils/dateUtils.ts:16-18 | The decimal text of a count reads back as the count. |
| DateUtils.IntToStringRoundTrip | frontend/src/utils/dateUtils.ts:16 | The text of a possibly negative day count, with its minus sign, reads back as the count. |
| DateUtils.DaysAgo | frontend/src/utils/dateUtils.ts:11-12 | The day difference is the floor of the elapsed milliseconds over 86400000. |
| DateUtils.FormatRelativeTime | frontend/src/utils/dateUtils.ts:2-19 | A date that does not parse gives 'unknown date'. 0 days gives 'today' and 1 gives 'yesterday'. |
| DateUtils.RelativeTimeReadsBack | frontend/src/utils/dateUtils.ts:14-18 | Any other text is a count and a unit, and the count locates the difference. In days it is exact and below 7, negatives included. In weeks it is 1 to 4 with the difference from 7 to 29. In months it is at least 1, counted in 30-day months. |
| DateUtils.FixedWordsDistinct | frontend/src/utils/dateUtils.ts:6-18 | No count-and-unit text equals 'unknown date', 'today' or 'yesterday'. |
| DateUtils.FutureDateIsNegative | frontend/src/utils/dateUtils.ts:11-16 | A date in the future shows a negative number of days. |

## Left out

- The AI server itself (token generation, threads, the database polling on its side) is the environment. It creates the response record, appends tokens and sets `complete`, and the model takes each read of that record as an input.
- Timers and real time are left out. Every tick, event and handler call is one atomic step with `now` as a parameter. Not modelled are AIChat's emergency and monitor effects, the speech-restart timeouts, the staggered achievement toasts and the 5-minute failsafe (AIChat.tsx:1173-1208).
- Overlapping interval ticks and other concurrency are left out. Ticks are sequential.
- The database, `ObjectId.isValid` and the reconnect are inputs (validity flags, lookups and outcomes). The category lesson count that unlocks achievements '5' and '6' is also an input.
- Randomness is a parameter or left out. The recommendations shuffle is the `shuffled` argument. The AI response selection (lessonController.ts:281-291) is not part of this model, nor are turn scores.
- The Web Speech API, `EventSource`, toasts, localStorage and the DOM are abstract. Utterances are their texts, and the event source is its sequence of inputs. Resuming a paused synthesiser and the tracked `lastSpokenIndex` and `lastSpeechTime` are not part of this model.
- JSON and the event-stream text framing (`data: …` lines, section 9.2 of the WHATWG HTML Living Standard) are replaced by the `Event` datatype.
- The server-error catch branch "Failed to set up stream" and the unreachable "Failed to get response ID" branch are not part of this model. A database call that throws inside a tick is modelled (`Lookup.Threw`).
- SpeechBridge.ProcessTextAsWritten: the 100-character threshold and the `substring` cut count Unicode characters here. JavaScript counts UTF-16 code units, so the two differ on text outside the Basic Multilingual Plane.
- SpeechBridge.FinishUnit: the `setPendingRestart(true)` made when the queue empties in call mode after the response completed (AIChat.tsx:822-827) is not modelled. Within a turn `checkForCompletion` (AIChat.tsx:1001-1004) requests the same restart first, and `StreamClient.CompletionCheck` models that.
- SpeechBridge.Interacted: the interaction flag is only ever set. The reset of `hasUserInteractedRef` when speech synthesis reports `not-allowed` (AIChat.tsx:765-767) is not modelled.
- Calendar dates are UTC days of 86400000 ms. The source compares local-time `getFullYear`/`getMonth`/`getDate` and `getDay`, so time zones and daylight-saving days are not modelled.
- LessonController.StagePercent: the floor of `(stage+1)*90/total` is exact here. The source computes `(stage+1)/total*90` in floating point, which can be one lower (for example 7/10*90 is 62.99999999999999 in JavaScript).
- LessonController.Fluency: the rounding of `(old*(n-1)+score)/n` is exact here. Floating-point division could differ for very large totals.
- LessonController.CompleteLesson: the score is an optional integer. A `null` or non-numeric score, which the source's `=== undefined` test lets through, is not modelled.
- ProgressController.UpdateWeeklyGoal: targets and minutes are integers. Non-integer or non-numeric request values are not modelled.
- LessonsTab.Upper: upper-casing covers ASCII letters only. JavaScript's full Unicode case mapping is not modelled.
- DateUtils.FormatRelativeTime: dates are integers. JavaScript's limit of ±8.64e15 ms on valid dates is not modelled, and an unparseable date is `None`.
- The `mockAchievements` defaults that a new progress record receives are a parameter (`defaults`).
- `resumeLesson`, `recordDailyPractice` and `loadUserProgress` in the lessons context, and the UI pages and wrappers around these components, are not part of this model.

## Findings

| source | as written | input that shows it | evidently intended | confidence | as-written member | corrected member |
|---|---|---|---|---|---|---|
| frontend/src/components/AIChat.tsx:938-941 | The buffer keeps `speechBuffer.substring(completeText.length)`, where `completeText` is the matches joined with `' '`. | The buffer "A.B.C" has matches "A." and "B.", so the joined text "A. B." has length 5. `substring(5)` is "", so "C" is lost. Leading terminators also shift the cut. | Keep the text after the last match ("C"). | high (not executed) | SpeechBridge.ProcessTextAsWritten, SpeechBridge.AsWrittenDropsText | SpeechBridge.ProcessText, SpeechBridge.ProcessTextKeepsTail |
| backend/src/controllers/progressController.ts:6-17 (and the same text at backend/src/controllers/lessonController.ts:9-20) | A reset happens when at least 7×24 h have passed, or today's ISO weekday is lower than that of the last reset. | Last reset Monday 23:00, now the next Monday 01:00. That is 26 h short of 7 days, and the weekdays are equal, so no reset happens although a new week has begun. | Reset when the current ISO week differs from the week of the last reset. | high (not executed) | ProgressController.ShouldResetWeeklyGoal, ProgressController.ShouldResetMissesMonday | ProgressController.WeeklyResetDue, ProgressController.ResetDueIffBeforeWeekStart |
| backend/src/controllers/progressController.ts:208-211 (and backend/src/controllers/lessonController.ts:434-437) | On a gap day the streak becomes 1 and `longest` is left untouched. | A fresh record has streak 0 and longest 0. A first practice on a later day gives current 1 and longest 0, so the current streak exceeds the longest. | `longest` is at least the current streak. | medium (not executed) | ProgressController.NextStreakAsWritten, ProgressController.GapStreakExceedsLongest | ProgressController.NextStreak, ProgressController.NextStreakKeepsValid |

=== FILE: client.dfy ===
/**
 * One turn of the chat component's stream reader (`streamResponseFromBackend`): the closure
 * variables and refs its `EventSource` callbacks and its 300 ms check timer update, and the
 * promise it settles.
 */
module StreamClient {
  import opened Wrappers
  import opened Events
  import opened SpeechBridge
  import StreamRelay

  /** One chat bubble. */
  datatype ChatMessage = ChatMessage(text: string, isUser: bool)

  /** The turn's promise; the first settlement wins. */
  datatype Outcome = Pending | Resolved | Rejected

  /** A message as it arrives: a relay event, or data `JSON.parse` throws on. */
  datatype Incoming = Parsed(event: Event) | Unparseable

  /** What can happen during a turn. */
  datatype Input =
      /** `eventSource.onmessage` */
    | Arrived(msg: Incoming)
      /** `eventSource.onerror` */
    | Failed
      /** one run of the 300 ms `speechCheckInterval` callback */
    | Tick
      /** the speech engine reports the end of the unit it is speaking */
    | UtteranceEnd

  const ConnectionError := "Error connecting to AI service. Please try again."

  /**
   * The turn's state. `speakingAtStart` is the `isSpeaking` value the callbacks' closure
   * captured when the turn began: `checkForCompletion` reads that stale value, never a later one.
   */
  datatype Turn = Turn(callMode: bool, speakingAtStart: bool,
                       response: string, received: nat, expected: nat, addedInitial: bool,
                       buffer: string, latched: bool, allSpeechComplete: bool,
                       sourceOpen: bool, timerActive: bool, restartRequested: bool,
                       outcome: Outcome, messages: seq<ChatMessage>, speech: Speech)

  /**
   * The start of a turn: counters and buffer empty, completion latch down, source open and
   * timer running. The speech queue is emptied but its processing flag is left as it was.
   */
  function Begin(callMode: bool, messages: seq<ChatMessage>, speech: Speech): (t: Turn)
    ensures t.outcome == Pending && t.sourceOpen && !t.latched && t.speech.queue == []
    ensures t.speakingAtStart == speech.isSpeaking && t.speech.processing == speech.processing
  {
    Turn(callMode, speech.isSpeaking, "", 0, 0, false, "", false, false, true, true, false,
         Pending, messages, Cleared(speech))
  }

  function SettleOnce(o: Outcome, n: Outcome): Outcome {
    if o.Pending? then n else o
  }

  /** Nothing that decides the promise changes. */
  predicate Quiet(t: Turn, r: Turn) {
    r.callMode == t.callMode && r.speakingAtStart == t.speakingAtStart &&
    r.latched == t.latched && r.allSpeechComplete == t.allSpeechComplete &&
    r.sourceOpen == t.sourceOpen && r.timerActive == t.timerActive && r.outcome == t.outcome
  }

  /** The reassembly counters do not change. */
  predicate SameCounts(t: Turn, r: Turn) {
    r.response == t.response && r.received == t.received && r.expected == t.expected
  }

  /**
   * What the completion path may do: the latch, the completion flag and a closed source stay
   * as they are once set, a settled promise stays settled, and the promise settles only by
   * resolving, once, with the latch set, the captured `isSpeaking` false and the queue empty.
   */
  predicate Advances(t: Turn, r: Turn) {
    r.callMode == t.callMode && r.speakingAtStart == t.speakingAtStart &&
    (t.latched ==> r.latched) && (t.allSpeechComplete ==> r.allSpeechComplete) &&
    (!t.sourceOpen ==> !r.sourceOpen) && (!t.outcome.Pending? ==> r.outcome == t.outcome) &&
    (r.outcome != t.outcome ==>
       r.outcome.Resolved? && r.latched && !r.speakingAtStart && r.speech.queue == [] &&
       r.allSpeechComplete && !t.allSpeechComplete)
  }

  /** `processTextForSpeech(text, force)` with what it hands to `speakText`. */
  function Speak(t: Turn, text: string, force: bool): (r: Turn)
    ensures Quiet(t, r) && SameCounts(t, r) && r.messages == t.messages
    ensures !t.callMode || IsBlank(text) ==> r == t
    ensures var f := ProcessTextAsWritten(t.callMode, t.buffer, text, force);
            r.buffer == f.buffer &&
            r.speech == (if f.spoken.Some? then Enqueue(t.speech, f.spoken.value) else t.speech)
  {
    var f := ProcessTextAsWritten(t.callMode, t.buffer, text, force);
    t.(buffer := f.buffer, speech := if f.spoken.Some? then Enqueue(t.speech, f.spoken.value) else t.speech)
  }

  /**
   * `if (speechBuffer.trim()) processTextForSpeech('', true)`: the increment handed over is
   * empty, and `processTextForSpeech` returns at once on a blank increment, so the forced
   * flush never speaks what the buffer holds.
   */
  function ForcedFlush(t: Turn): (r: Turn)
    ensures r == t
  {
    if !IsBlank(t.buffer) then Speak(t, "", true) else t
  }

  /**
   * `checkForCompletion()`: once the latch is set, the captured `isSpeaking` is false and the
   * queue is empty, it marks all speech complete, clears the timer, closes the source, asks
   * for a listening restart in call mode and resolves; it does this at most once.
   */
  function CompletionCheck(t: Turn): (r: Turn)
    ensures Advances(t, r) && SameCounts(t, r) && r.latched == t.latched
    ensures (t.latched && !t.speakingAtStart && t.speech.queue == [] && !t.allSpeechComplete &&
             t.outcome.Pending?) ==> r.outcome.Resolved?
    ensures t.allSpeechComplete ==> r == t
  {
    if t.latched && !t.speakingAtStart && |t.speech.queue| == 0 && !t.allSpeechComplete then
      t.(allSpeechComplete := true, timerActive := false, sourceOpen := false,
         restartRequested := t.restartRequested || t.callMode, outcome := SettleOnce(t.outcome, Resolved))
    else t
  }

  /** `setMessages`: add an empty assistant bubble unless the last one already is one. */
  function AddInitial(msgs: seq<ChatMessage>): seq<ChatMessage> {
    if |msgs| > 0 && !msgs[|msgs| - 1].isUser then msgs else msgs + [ChatMessage("", false)]
  }

  /** `setMessages`: show the response in the last assistant bubble, or push one. */
  function ShowResponse(msgs: seq<ChatMessage>, text: string, added: bool): seq<ChatMessage> {
    if |msgs| > 0 && !msgs[|msgs| - 1].isUser then msgs[..|msgs| - 1] + [ChatMessage(text, false)]
    else if added then msgs + [ChatMessage(text, false)]
    else msgs
  }

  function Max(a: nat, b: nat): nat {
    if a >= b then a else b
  }

  /** `if (data.totalTokens > expectedTotalTokens) expectedTotalTokens = data.totalTokens`. */
  function TrackTotal(t: Turn, total: nat): (r: Turn)
    ensures Quiet(t, r) && r.response == t.response && r.received == t.received
    ensures r.expected == Max(t.expected, total)
  {
    if total > t.expected then t.(expected := total) else t
  }

  /** The `onmessage` handler for one parsed event. */
  function OnEvent(t: Turn, e: Event): Turn {
    match e
    case Error(message) =>
      t.(messages := t.messages + [ChatMessage(message, false)], sourceOpen := false,
         timerActive := false, outcome := SettleOnce(t.outcome, Resolved))
    case Complete(total) =>
      Latch(TrackTotal(t, total))
    case Tokens(tokens, partial, total) =>
      LatchIfDone(TakeBatch(OpenBubble(TrackTotal(t, total), tokens), tokens), partial)
  }

  /** Set the completion latch, flush what speech holds back, and check for completion. */
  function Latch(t: Turn): (r: Turn)
    ensures Advances(t, r) && SameCounts(t, r) && r.latched
  {
    CompletionCheck(ForcedFlush(t.(latched := true)))
  }

  /** The first non-empty batch opens the assistant bubble. */
  function OpenBubble(t: Turn, tokens: seq<string>): (r: Turn)
    ensures Quiet(t, r) && SameCounts(t, r)
  {
    if !t.addedInitial && |tokens| > 0 then t.(messages := AddInitial(t.messages), addedInitial := true) else t
  }

  /** A batch: append its text to the response and the bubble, count it, and feed it to speech. */
  function TakeBatch(t: Turn, tokens: seq<string>): (r: Turn)
    ensures Quiet(t, r) && r.expected == t.expected
    ensures r.response == t.response + Join(tokens) && r.received == t.received + |tokens|
  {
    if |tokens| > 0 then
      var text := Join(tokens);
      var t1 := t.(response := t.response + text, received := t.received + |tokens|);
      Speak(t1.(messages := ShowResponse(t1.messages, t1.response, t1.addedInitial)), text, false)
    else t
  }

  /** A final batch that brings the count up to a known, non-zero total sets the latch. */
  function LatchIfDone(t: Turn, partial: bool): (r: Turn)
    ensures Advances(t, r) && SameCounts(t, r)
  {
    if !partial && t.received >= t.expected && t.expected > 0 then Latch(t) else t
  }

  /** One input. A closed source delivers nothing and a cleared timer never fires. */
  function Step(t: Turn, input: Input): Turn {
    match input
    case Arrived(msg) =>
      if !t.sourceOpen then t
      else (match msg
            case Parsed(e) => OnEvent(t, e)
            case Unparseable =>
              t.(sourceOpen := false, timerActive := false, outcome := SettleOnce(t.outcome, Rejected)))
    case Failed =>
      if !t.sourceOpen then t
      else if t.latched then t.(sourceOpen := false, timerActive := false)
      else t.(sourceOpen := false, timerActive := false,
              messages := t.messages + [ChatMessage(ConnectionError, false)],
              outcome := SettleOnce(t.outcome, Rejected))
    case Tick =>
      if !t.timerActive then t else ForcedFlush(CompletionCheck(t))
    case UtteranceEnd =>
      t.(speech := Apply(t.speech, Ended))
  }

  function Run(t: Turn, inputs: seq<Input>): Turn
    decreases |inputs|
  {
    if inputs == [] then t else Step(Run(t, inputs[..|inputs| - 1]), inputs[|inputs| - 1])
  }

  /** Relay events delivered one after another as `onmessage` calls. */
  function Deliver(events: seq<Event>): seq<Input> {
    if events == [] then [] else Deliver(events[..|events| - 1]) + [Arrived(Parsed(events[|events| - 1]))]
  }

  // ---------------------------------------------------------------------------------
  // Properties
  // ---------------------------------------------------------------------------------

  predicate IsErrorEvent(input: Input) {
    input.Arrived? && input.msg.Parsed? && input.msg.event.Error?
  }

  /**
   * An event with `error: true` always resolves a pending turn, whatever came before: its
   * text is appended as an assistant bubble, the source is closed and the timer cleared.
   */
  lemma ErrorAlwaysResolves(t: Turn, message: string)
    requires t.sourceOpen && t.outcome.Pending?
    ensures var r := Step(t, Arrived(Parsed(Error(message))));
            r.outcome == Resolved && !r.sourceOpen && !r.timerActive &&
            r.messages == t.messages + [ChatMessage(message, false)]
  {
  }

  /** A token batch or a completion message only moves the turn along the completion path. */
  lemma OnEventAdvances(t: Turn, e: Event)
    requires !e.Error?
    ensures Advances(t, OnEvent(t, e))
  {
    if e.Tokens? {
      var t1 := TrackTotal(t, e.totalTokens);
      var t2 := OpenBubble(t1, e.tokens);
      var t3 := TakeBatch(t2, e.tokens);
      assert Quiet(t, t3);
      assert Advances(t3, LatchIfDone(t3, e.partial));
    }
  }

  /**
   * The promise is rejected only by a message that does not parse, or by a transport error
   * before the completion latch is set; and each of those does reject a pending turn.
   */
  lemma RejectsOnlyOn(t: Turn, input: Input)
    requires t.outcome.Pending?
    ensures Step(t, input).outcome.Rejected? <==>
              t.sourceOpen && (input == Arrived(Unparseable) || (input == Failed && !t.latched))
  {
    if input.Arrived? && t.sourceOpen && input.msg.Parsed? && !input.msg.event.Error? {
      OnEventAdvances(t, input.msg.event);
    }
  }

  /**
   * The turn resolves only on an error event, or when the latch is set, the captured
   * `isSpeaking` is false and the speech queue is empty, and then exactly once.
   */
  lemma ResolvesOnlyWhenDone(t: Turn, input: Input)
    requires t.outcome.Pending?
    ensures var r := Step(t, input);
            r.outcome.Resolved? ==>
              IsErrorEvent(input) ||
              (r.latched && !t.speakingAtStart && r.speech.queue == [] &&
               r.allSpeechComplete && !t.allSpeechComplete)
  {
    if input.Arrived? && t.sourceOpen && input.msg.Parsed? && !input.msg.event.Error? {
      OnEventAdvances(t, input.msg.event);
    }
  }

  /** One input never unsets the latch or the completion flag, reopens the source or resettles. */
  lemma StepMonotone(t: Turn, input: Input)
    ensures var r := Step(t, input);
            r.speakingAtStart == t.speakingAtStart &&
            (!t.outcome.Pending? ==> r.outcome == t.outcome) &&
            (t.latched ==> r.latched) &&
            (!t.sourceOpen ==> !r.sourceOpen) &&
            (t.allSpeechComplete ==> r.allSpeechComplete)
  {
    if input.Arrived? && t.sourceOpen && input.msg.Parsed? && !input.msg.event.Error? {
      OnEventAdvances(t, input.msg.event);
    }
  }

  /** A settled promise stays settled, the latch stays set, and a closed source stays closed. */
  lemma {:induction false} SettledStaysSettled(t: Turn, inputs: seq<Input>)
    ensures var r := Run(t, inputs);
            (!t.outcome.Pending? ==> r.outcome == t.outcome) &&
            (t.latched ==> r.latched) &&
            (!t.sourceOpen ==> !r.sourceOpen)
    decreases |inputs|
  {
    if inputs != [] {
      var init := inputs[..|inputs| - 1];
      SettledStaysSettled(t, init);
      StepMonotone(Run(t, init), inputs[|inputs| - 1]);
    }
  }

  /**
   * Because `checkForCompletion` reads the `isSpeaking` captured at the start of the turn, a
   * turn that began while speech was playing can only resolve on an error event.
   */
  lemma {:induction false} StaleSpeakingBlocksCompletion(t: Turn, inputs: seq<Input>)
    requires t.speakingAtStart && t.outcome.Pending?
    requires forall i :: 0 <= i < |inputs| ==> !IsErrorEvent(inputs[i])
    ensures Run(t, inputs).outcome != Resolved
    ensures Run(t, inputs).speakingAtStart
    decreases |inputs|
  {
    if inputs != [] {
      var init := inputs[..|inputs| - 1];
      StaleSpeakingBlocksCompletion(t, init);
      var last := inputs[|inputs| - 1];
      var prev := Run(t, init);
      StepMonotone(prev, last);
      if prev.outcome.Pending? {
        ResolvesOnlyWhenDone(prev, last);
      }
    }
  }

  /** The largest `totalTokens` of a sequence of events (0 when there is none). */
  function MaxTotal(events: seq<Event>): nat {
    if events == [] then 0
    else
      var e := events[|events| - 1];
      var m := MaxTotal(events[..|events| - 1]);
      if (e.Tokens? || e.Complete?) && e.totalTokens > m then e.totalTokens else m
  }

  /** One event on an open source: the reassembly counters move by exactly that event. */
  lemma OneEventReassembles(t: Turn, e: Event)
    requires t.sourceOpen
    ensures var r := Step(t, Arrived(Parsed(e)));
            r.response == t.response + Join(if e.Tokens? then e.tokens else []) &&
            r.received == t.received + |if e.Tokens? then e.tokens else []| &&
            r.expected == (if e.Error? then t.expected else Max(t.expected, e.totalTokens))
  {
    assert Join([]) == "";
    if e.Tokens? {
      var t1 := TrackTotal(t, e.totalTokens);
      var t2 := OpenBubble(t1, e.tokens);
      var t3 := TakeBatch(t2, e.tokens);
      assert SameCounts(t3, LatchIfDone(t3, e.partial));
    }
  }

  /**
   * Reassembly: while the source stays open, the response text is the in-order
   * concatenation of all token batches received, the token count grows by each batch's
   * length, and `expectedTotalTokens` is the running maximum of the announced totals.
   */
  lemma {:induction false} Reassembly(t: Turn, events: seq<Event>)
    requires t.sourceOpen
    ensures var r := Run(t, Deliver(events));
            r.sourceOpen ==>
              r.response == t.response + Join(Forwarded(events)) &&
              r.received == t.received + |Forwarded(events)| &&
              r.expected == Max(t.expected, MaxTotal(events))
    decreases |events|
  {
    if events != [] {
      var init := events[..|events| - 1];
      var e := events[|events| - 1];
      assert Deliver(events)[..|Deliver(events)| - 1] == Deliver(init);
      var prev := Run(t, Deliver(init));
      Reassembly(t, init);
      StepMonotone(prev, Arrived(Parsed(e)));
      if prev.sourceOpen {
        OneEventReassembles(prev, e);
        JoinAppend(Forwarded(init), if e.Tokens? then e.tokens else []);
      }
    }
  }

  /**
   * End to end: when the relay reads a record whose token array only grows, and the turn
   * receives the events the relay delivered, the text the turn has assembled while its source
   * is open is a prefix of the record's text.
   */
  lemma StreamedTextIsPrefix(start: Turn, now: int, ticks: seq<StreamRelay.Tick>)
    requires start.sourceOpen && start.response == [] && start.received == 0
    requires StreamRelay.AppendOnly([], ticks)
    ensures var r := Run(start, Deliver(StreamRelay.Run(StreamRelay.Start(now), ticks).delivered));
            r.sourceOpen ==> r.response <= Join(StreamRelay.LastSeen([], ticks))
  {
    var s := StreamRelay.Run(StreamRelay.Start(now), ticks);
    assert StreamRelay.Valid(StreamRelay.Start(now));
    StreamRelay.RunDeliversInOrder(StreamRelay.Start(now), [], ticks);
    Reassembly(start, s.delivered);
    var sent := Forwarded(s.delivered);
    var all := StreamRelay.LastSeen([], ticks);
    assert all == sent + all[|sent|..];
    JoinAppend(sent, all[|sent|..]);
  }

  // ---------------------------------------------------------------------------------
  // The turn as an object
  // ---------------------------------------------------------------------------------

  /** The closure variables and refs of one `streamResponseFromBackend` call. */
  class StreamTurn {
    const callMode: bool
    const speakingAtStart: bool
    var response: string
    var received: nat
    var expected: nat
    var addedInitial: bool
    var buffer: string
    var latched: bool
    var allSpeechComplete: bool
    var sourceOpen: bool
    var timerActive: bool
    var restartRequested: bool
    var outcome: Outcome
    var messages: seq<ChatMessage>
    const speech: SpeechQueue

    function State(): Turn
      reads this, speech
    {
      Turn(callMode, speakingAtStart, response, received, expected, addedInitial, buffer,
           latched, allSpeechComplete, sourceOpen, timerActive, restartRequested, outcome,
           messages, speech.State())
    }

    constructor (callMode: bool, messages: seq<ChatMessage>, speech: SpeechQueue)
      modifies speech
      ensures this.speech == speech
      ensures State() == Begin(callMode, messages, old(speech.State()))
    {
      this.callMode := callMode;
      this.speakingAtStart := speech.isSpeaking;
      this.speech := speech;
      response := "";
      received := 0;
      expected := 0;
      addedInitial := false;
      buffer := "";
      latched := false;
      allSpeechComplete := false;
      sourceOpen := true;
      timerActive := true;
      restartRequested := false;
      outcome := Pending;
      this.messages := messages;
      new;
      speech.ClearQueue();
    }

    method Settle(o: Outcome)
      modifies this
      ensures State() == old(State()).(outcome := SettleOnce(old(outcome), o))
    {
      if outcome == Pending {
        outcome := o;
      }
    }

    method ProcessTextForSpeech(text: string, force: bool)
      modifies this, speech
      ensures State() == Speak(old(State()), text, force)
    {
      if !callMode || IsBlank(text) {
        return;
      }
      buffer := buffer + text;
      var sentences := Sentences(buffer);
      if sentences != [] {
        var completeText := JoinSpace(sentences);
        buffer := Substring(buffer, |completeText|);
        speech.SpeakText(completeText);
      } else if force || |buffer| > 100 {
        speech.SpeakText(buffer);
        buffer := "";
      }
    }

    method CheckForCompletion()
      modifies this
      ensures State() == CompletionCheck(old(State()))
    {
      if latched && !speakingAtStart && |speech.queue| == 0 {
        if !allSpeechComplete {
          allSpeechComplete := true;
          timerActive := false;
          sourceOpen := false;
          if callMode {
            restartRequested := true;
          }
          Settle(Resolved);
        }
      }
    }

    method ForceFlush()
      modifies this, speech
      ensures State() == ForcedFlush(old(State()))
    {
      if !IsBlank(buffer) {
        ProcessTextForSpeech("", true);
      }
    }

    /** `if (data.totalTokens > expectedTotalTokens) ...` */
    method NoteTotal(total: nat)
      modifies this
      ensures State() == TrackTotal(old(State()), total)
    {
      if total > expected {
        expected := total;
      }
    }

    /** Set `isCompleteResponseReceivedRef`, flush, and call `checkForCompletion`. */
    method MarkComplete()
      modifies this, speech
      ensures State() == Latch(old(State()))
    {
      latched := true;
      ForceFlush();
      CheckForCompletion();
    }

    method AppendTokens(tokens: seq<string>)
      modifies this, speech
      ensures State() == TakeBatch(old(State()), tokens)
    {
      if |tokens| > 0 {
        var text := Join(tokens);
        response := response + text;
        received := received + |tokens|;
        messages := ShowResponse(messages, response, addedInitial);
        ProcessTextForSpeech(text, false);
      }
    }

    /** `eventSource.onmessage`. */
    method OnMessage(msg: Incoming)
      modifies this, speech
      ensures State() == Step(old(State()), Arrived(msg))
    {
      if !sourceOpen {
        return;
      }
      if msg.Unparseable? {
        sourceOpen := false;
        timerActive := false;
        Settle(Rejected);
        return;
      }
      match msg.event {
        case Error(message) =>
          messages := messages + [ChatMessage(message, false)];
          sourceOpen := false;
          timerActive := false;
          Settle(Resolved);
        case Complete(total) =>
          NoteTotal(total);
          MarkComplete();
        case Tokens(tokens, partial, total) =>
          ghost var s0 := State();
          NoteTotal(total);
          ghost var s1 := State();
          if !addedInitial && |tokens| > 0 {
            messages := AddInitial(messages);
            addedInitial := true;
          }
          assert State() == OpenBubble(s1, tokens);
          ghost var s2 := State();
          AppendTokens(tokens);
          assert State() == TakeBatch(s2, tokens);
          ghost var s3 := State();
          if !partial && received >= expected && expected > 0 {
            MarkComplete();
          }
          assert State() == LatchIfDone(s3, partial);
          assert OnEvent(s0, msg.event) == LatchIfDone(TakeBatch(OpenBubble(TrackTotal(s0, total), tokens), tokens), partial);
      }
    }

    /** `eventSource.onerror`. */
    method OnTransportError()
      modifies this
      ensures State() == Step(old(State()), Failed)
    {
      if !sourceOpen {
        return;
      }
      if latched {
        sourceOpen := false;
        timerActive := false;
        return;
      }
      sourceOpen := false;
      timerActive := false;
      messages := messages + [ChatMessage(ConnectionError, false)];
      Settle(Rejected);
    }

    /** The `speechCheckInterval` callback. */
    method OnTimer()
      modifies this, speech
      ensures State() == Step(old(State()), Tick)
    {
      if !timerActive {
        return;
      }
      CheckForCompletion();
      ForceFlush();
    }
  }
}

=== FILE: clock.dfy ===
/**
 * Time as the source's `Date.getTime()`: integer milliseconds since the Unix epoch.
 * Calendar questions (`getDay`, `getFullYear`/`getMonth`/`getDate`, `setDate(d - 1)`)
 * are answered on UTC day numbers; 1970-01-01 was a Thursday.
 */
module Clock {

  /** Milliseconds in a day (1000 * 60 * 60 * 24). */
  const DayMs: int := 86400000

  /** The calendar day a timestamp falls on (floor division; days before 1970 are negative). */
  function DayNumber(t: int): int {
    t / DayMs
  }

  /** ISO weekday of a timestamp: Monday = 1 ... Sunday = 7 (the source's `getDay() || 7`). */
  function IsoWeekday(t: int): (w: int)
    ensures 1 <= w <= 7
  {
    (DayNumber(t) + 3) % 7 + 1
  }

  /** Index of the Monday-to-Sunday week a timestamp falls in. */
  function WeekNumber(t: int): int {
    (DayNumber(t) + 3) / 7
  }

  /** Day number, week and weekday fit together: a week is seven consecutive days from Monday. */
  lemma DayInWeek(t: int)
    ensures DayNumber(t) == 7 * WeekNumber(t) + IsoWeekday(t) - 4
  {
  }

  /** Same calendar day: the source compares year, month and date of the two dates. */
  predicate SameDay(a: int, b: int) {
    DayNumber(a) == DayNumber(b)
  }

  /** `last` lies on the calendar day before `today` (the source's `yesterday` comparison). */
  predicate DayBefore(last: int, today: int) {
    DayNumber(last) == DayNumber(today) - 1
  }
}

=== FILE: date_utils.dfy ===
/**
 * `formatRelativeTime`: how long ago a date was, in days, weeks or months, counted in whole
 * elapsed days of 86400000 ms. Dates are milliseconds since the epoch; a date that does not
 * parse is `None`.
 */
module DateUtils {
  import opened Wrappers
  import opened Clock

  // ---------------------------------------------------------------------------------
  // Decimal text of a number, as a template literal renders an integer
  // ---------------------------------------------------------------------------------

  predicate IsDigit(c: char) { '0' <= c <= '9' }

  predicate AllDigits(s: string) { forall i :: 0 <= i < |s| ==> IsDigit(s[i]) }

  function DigitChar(d: nat): (c: char)
    requires d < 10
    ensures IsDigit(c) && c as int - '0' as int == d
  {
    (d + '0' as int) as char
  }

  /** The decimal digits of `n`, without leading zeros. */
  function NatToString(n: nat): (s: string)
    ensures |s| >= 1 && AllDigits(s)
    ensures |s| > 1 ==> s[0] != '0'
  {
    if n < 10 then [DigitChar(n)] else NatToString(n / 10) + [DigitChar(n % 10)]
  }

  /** The value of a string of decimal digits. */
  function DigitsValue(s: string): nat
    requires AllDigits(s)
  {
    if s == [] then 0 else DigitsValue(s[..|s| - 1]) * 10 + (s[|s| - 1] as int - '0' as int)
  }

  /** Reading the digits back gives the number. */
  lemma {:induction false} NatToStringRoundTrip(n: nat)
    ensures DigitsValue(NatToString(n)) == n
  {
    if n >= 10 {
      var s := NatToString(n);
      NatToStringRoundTrip(n / 10);
      assert s[..|s| - 1] == NatToString(n / 10);
    }
  }

  /** `${i}` for an integer: a minus sign before a negative number's digits. */
  function IntToString(i: int): (s: string)
    ensures |s| >= 1
    ensures i < 0 <==> s[0] == '-'
  {
    if i < 0 then "-" + NatToString(-i) else NatToString(i)
  }

  /** The integer a decimal text with an optional minus sign denotes. */
  function ParseInt(s: string): int
    requires |s| >= 1 && (s[0] == '-' ==> AllDigits(s[1..])) && (s[0] != '-' ==> AllDigits(s))
  {
    if s[0] == '-' then 0 - DigitsValue(s[1..]) as int else DigitsValue(s)
  }

  lemma IntToStringRoundTrip(i: int)
    ensures var s := IntToString(i);
            (s[0] == '-' ==> AllDigits(s[1..])) && (s[0] != '-' ==> AllDigits(s)) && ParseInt(s) == i
  {
    if i < 0 {
      NatToStringRoundTrip(-i);
      assert IntToString(i)[1..] == NatToString(-i);
    } else {
      NatToStringRoundTrip(i);
    }
  }

  // ---------------------------------------------------------------------------------
  // formatRelativeTime
  // ---------------------------------------------------------------------------------

  /** `Math.floor((now - date) / 86400000)`: the whole days elapsed, negative in the future. */
  function DaysAgo(date: int, now: int): (d: int)
    ensures d * DayMs <= now - date < (d + 1) * DayMs
  {
    (now - date) / DayMs
  }

  const UnknownDate := "unknown date"

  /** The time unit a day count is shown in. */
  datatype Unit = Days | Weeks | Months

  function UnitWord(u: Unit): string {
    match u
    case Days => " days ago"
    case Weeks => " weeks ago"
    case Months => " months ago"
  }

  /**
   * `formatRelativeTime`: `'unknown date'` for a date that does not parse; `'today'` and
   * `'yesterday'` for 0 and 1 elapsed days; any other count below 7, negative ones
   * included, in days; then whole weeks below 30 days, and whole months of 30 days.
   */
  function FormatRelativeTime(date: Option<int>, now: int): (r: string)
    ensures date.None? ==> r == UnknownDate
    ensures date.Some? && DaysAgo(date.value, now) == 0 ==> r == "today"
    ensures date.Some? && DaysAgo(date.value, now) == 1 ==> r == "yesterday"
  {
    if date.None? then UnknownDate
    else
      var d := DaysAgo(date.value, now);
      if d == 0 then "today"
      else if d == 1 then "yesterday"
      else if d < 7 then IntToString(d) + UnitWord(Days)
      else if d < 30 then IntToString(d / 7) + UnitWord(Weeks)
      else IntToString(d / 30) + UnitWord(Months)
  }

  /**
   * Every other text is a count and a unit, and the count read back locates the elapsed
   * days: exactly, in days; within the week, 1 to 4 weeks; within the 30-day month, at
   * least 1 month. A future date reads as a negative number of days.
   */
  lemma RelativeTimeReadsBack(date: int, now: int)
    ensures var d := DaysAgo(date, now);
            var r := FormatRelativeTime(Some(date), now);
            d != 0 && d != 1 ==>
              exists n: int, u: Unit ::
                r == IntToString(n) + UnitWord(u) &&
                (u == Days ==> n == d && d < 7) &&
                (u == Weeks ==> 1 <= n <= 4 && 7 * n <= d < 7 * n + 7 && 7 <= d < 30) &&
                (u == Months ==> n >= 1 && 30 * n <= d < 30 * n + 30)
  {
    var d := DaysAgo(date, now);
    var r := FormatRelativeTime(Some(date), now);
    if d != 0 && d != 1 {
      if d < 7 {
        assert r == IntToString(d) + UnitWord(Days);
      } else if d < 30 {
        assert r == IntToString(d / 7) + UnitWord(Weeks);
      } else {
        assert r == IntToString(d / 30) + UnitWord(Months);
      }
    }
  }

  /** The texts are told apart: the fixed words differ from every count-and-unit text. */
  lemma FixedWordsDistinct(n: int, u: Unit)
    ensures IntToString(n) + UnitWord(u) !in {UnknownDate, "today", "yesterday"}
  {
    var s := IntToString(n) + UnitWord(u);
    assert s[|s| - 1] == 'o';
  }

  /** A date in the future shows a minus sign before its count of days. */
  lemma FutureDateIsNegative(date: int, now: int)
    requires now < date
    ensures FormatRelativeTime(Some(date), now)[0] == '-'
  {
  }
}

=== FILE: events.dfy ===
/**
 * The payloads of the AI response stream. On the wire each one is a Server-Sent Events
 * message `data: <json>\n\n` (section 9.2 of the WHATWG HTML Living Standard) whose JSON
 * object has the shape `{tokens, partial, totalTokens?, complete?, error?}`; the model keeps
 * the three shapes the relay writes and leaves the text encoding out.
 */
module Events {

  datatype Event =
      /** `{tokens, partial, totalTokens}`: a batch of newly generated tokens. */
    | Tokens(tokens: seq<string>, partial: bool, totalTokens: nat)
      /** `{tokens: [], partial: false, complete: true, totalTokens}`: the completion event. */
    | Complete(totalTokens: nat)
      /** `{tokens: [message], partial: false, error: true}`: a terminal error. */
    | Error(message: string)

  /** Completion and error events end a stream. */
  predicate IsTerminal(e: Event) {
    e.Complete? || e.Error?
  }

  /** The tokens carried by a sequence of events, in order. */
  function Forwarded(events: seq<Event>): seq<string> {
    if events == [] then []
    else Forwarded(events[..|events| - 1]) + (match events[|events| - 1]
                                                case Tokens(ts, _, _) => ts
                                                case _ => [])
  }

  /** Text of a token batch: JavaScript's `tokens.join('')`. */
  function Join(tokens: seq<string>): string {
    if tokens == [] then "" else Join(tokens[..|tokens| - 1]) + tokens[|tokens| - 1]
  }

  lemma {:induction false} JoinAppend(a: seq<string>, b: seq<string>)
    ensures Join(a + b) == Join(a) + Join(b)
    decreases |b|
  {
    if b == [] {
      assert a + b == a;
    } else {
      assert (a + b)[..|a + b| - 1] == a + b[..|b| - 1];
      JoinAppend(a, b[..|b| - 1]);
    }
  }
}

=== FILE: lesson_controller.dfy ===
/**
 * The lesson controller's two writing handlers: `submitResponse`, which records an answer and
 * moves the lesson along its stages, and `completeLesson`, which closes the lesson and
 * updates the user's overall progress (fluency, streak, weekly goal, achievements).
 * The weekly-reset rule (lessonController.ts:9-20) is the same text as the progress
 * controller's and is taken from there, as are the streak and weekly-counter rules.
 */
module LessonController {
  import opened Wrappers
  import opened Clock
  import opened ProgressController

  datatype Stage = Stage(prompt: string, aiResponses: seq<string>)

  datatype Lesson = Lesson(category: string, estimatedTime: int, stages: seq<Stage>)

  /** A user's record of one lesson. */
  datatype UserLesson = UserLesson(progress: int, score: Option<int>, completedAt: Option<int>,
                                   currentStage: nat, userResponses: seq<string>,
                                   startedAt: int, lastAccessedAt: int)

  // ---------------------------------------------------------------------------------
  // submitResponse
  // ---------------------------------------------------------------------------------

  const CompletionPrompt := "Great job! You've completed this conversation practice. Let's see how you did."

  /** `Math.min(Math.floor(((stage + 1) / total) * 90), 90)`, in exact arithmetic. */
  function StagePercent(stage: nat, total: nat): (p: int)
    requires total > 0
    ensures 0 <= p <= 90
    ensures stage + 1 <= total ==> p * total <= (stage + 1) * 90 < (p + 1) * total
  {
    var q := (stage + 1) * 90 / total;
    if q < 90 then q else 90
  }

  /** The percentage grows with the stage. */
  lemma StagePercentMonotone(a: nat, b: nat, total: nat)
    requires total > 0 && a <= b
    ensures StagePercent(a, total) <= StagePercent(b, total)
  {
    assert (a + 1) * 90 <= (b + 1) * 90;
    DivMonotone((a + 1) * 90, (b + 1) * 90, total);
  }

  lemma DivMonotone(x: nat, y: nat, d: nat)
    requires x <= y && d > 0
    ensures x / d <= y / d
  {
    var qx, qy := x / d, y / d;
    assert x == d * qx + x % d && y == d * qy + y % d;
    if qx > qy {
      MulMonotone(qy + 1, qx, d);
      assert false;
    }
  }

  /**
   * An answer on an existing record: it is appended; the stage advances while it is before
   * the last one, and the progress becomes the stage's percentage; at the last stage the
   * progress becomes 90.
   */
  function RecordResponse(ul: UserLesson, response: string, stageCount: nat, now: int): (r: UserLesson)
    ensures r.userResponses == ul.userResponses + [response]
    ensures 0 <= r.progress <= 90
    ensures r.currentStage == (if ul.currentStage + 1 < stageCount then ul.currentStage + 1 else ul.currentStage)
    ensures r.score == ul.score && r.completedAt == ul.completedAt && r.startedAt == ul.startedAt
  {
    var ul1 := ul.(userResponses := ul.userResponses + [response], lastAccessedAt := now);
    if ul.currentStage < stageCount - 1 then
      var stage := ul.currentStage + 1;
      ul1.(currentStage := stage, progress := StagePercent(stage, stageCount))
    else ul1.(progress := 90)
  }

  /** The next prompt: that of the current stage, or the completion text past the last one. */
  function NextPrompt(stages: seq<Stage>, currentStage: nat): (p: string)
    ensures currentStage < |stages| ==> p == stages[currentStage].prompt
    ensures currentStage >= |stages| ==> p == CompletionPrompt
  {
    if currentStage < |stages| then stages[currentStage].prompt else CompletionPrompt
  }

  /** What `submitResponse` sends back. */
  datatype StageReply = StageReply(currentStage: nat, progress: int, nextPrompt: string, isLastStage: bool)

  datatype Submitted = Refused(reply: Reply) | Answered(answer: StageReply, record: UserLesson)

  /**
   * `submitResponse`: refuse a falsy response with 400 and an unknown lesson with 404; a first
   * answer creates the record at stage 0 with progress 5; a later one is recorded on it.
   */
  function SubmitResponse(response: Option<string>, lesson: Option<Lesson>, record: Option<UserLesson>,
                          now: int): (r: Submitted)
    ensures response.None? || response.value == "" ==> r == Refused(Reply(400, "Response is required"))
    ensures response.Some? && response.value != "" && lesson.None? ==> r == Refused(Reply(404, "Lesson not found"))
    ensures r.Answered? ==> r.answer.currentStage == r.record.currentStage && r.answer.progress == r.record.progress
    ensures r.Answered? ==> r.answer.nextPrompt == NextPrompt(lesson.value.stages, r.record.currentStage)
    ensures r.Answered? ==> (r.answer.isLastStage <==> r.record.currentStage >= |lesson.value.stages|)
    ensures r.Answered? && record.Some? ==>
              r.record == RecordResponse(record.value, response.value, |lesson.value.stages|, now)
    ensures r.Answered? && record.None? ==> r.record == UserLesson(5, None, None, 0, [response.value], now, now)
  {
    if response.None? || response.value == "" then Refused(Reply(400, "Response is required"))
    else if lesson.None? then Refused(Reply(404, "Lesson not found"))
    else
      var stages := lesson.value.stages;
      var ul := match record
                case None => UserLesson(5, None, None, 0, [response.value], now, now)
                case Some(old_) => RecordResponse(old_, response.value, |stages|, now);
      Answered(StageReply(ul.currentStage, ul.progress, NextPrompt(stages, ul.currentStage),
                          ul.currentStage >= |stages|), ul)
  }

  /** A first answer creates the record with progress 5, stage 0 and that one answer. */
  lemma FirstResponseCreates(response: string, lesson: Lesson, now: int)
    requires response != ""
    ensures var r := SubmitResponse(Some(response), Some(lesson), None, now);
            r.Answered? && r.record.progress == 5 && r.record.currentStage == 0 &&
            r.record.userResponses == [response] &&
            (r.answer.isLastStage <==> lesson.stages == [])
  {
  }

  /**
   * On an existing record whose stage is within the lesson, the answer is appended, the
   * progress stays within 0..90, and `isLastStage` is never reported.
   */
  lemma LaterResponseNeverLast(response: string, lesson: Lesson, ul: UserLesson, now: int)
    requires response != "" && ul.currentStage < |lesson.stages|
    ensures var r := SubmitResponse(Some(response), Some(lesson), Some(ul), now);
            r.Answered? && r.record.userResponses == ul.userResponses + [response] &&
            0 <= r.answer.progress <= 90 && !r.answer.isLastStage &&
            r.answer.nextPrompt == lesson.stages[r.record.currentStage].prompt
  {
  }

  /**
   * Progress is not monotone: with 100 stages the first answer gives 5 and the second 1, and
   * an answer on a completed lesson brings its progress from 100 back to 90.
   */
  lemma ProgressCanDrop(lesson: Lesson, now: int)
    requires |lesson.stages| == 100
    ensures var first := SubmitResponse(Some("a"), Some(lesson), None, now);
            var second := SubmitResponse(Some("b"), Some(lesson), Some(first.record), now);
            first.record.progress == 5 && second.record.progress == 1
    ensures var done := UserLesson(100, Some(80), Some(now), 99, ["a"], now, now);
            SubmitResponse(Some("c"), Some(lesson), Some(done), now).record.progress == 90
  {
  }

  // ---------------------------------------------------------------------------------
  // completeLesson
  // ---------------------------------------------------------------------------------

  /** `Math.round(a / n)` for a positive `n`: halves round up. */
  function RoundDiv(a: int, n: int): int
    requires n > 0
  {
    (2 * a + n) / (2 * n)
  }

  /** The result is the nearest integer to `a / n`, a half going up. */
  lemma RoundDivNearest(a: int, n: int)
    requires n > 0
    ensures var r := RoundDiv(a, n); n * (2 * r - 1) <= 2 * a < n * (2 * r + 1)
  {
    var r := RoundDiv(a, n);
    assert 2 * n * r <= 2 * a + n < 2 * n * r + 2 * n;
  }

  /** The new fluency score: the average of `n - 1` lessons at `old` and one at `score`, rounded. */
  function Fluency(old_: int, score: int, n: nat): int
    requires n > 0
  {
    RoundDiv(old_ * (n - 1) + score, n)
  }

  /** The weighted average lies between the old score and the new one. */
  lemma FluencyBetween(old_: int, score: int, n: nat)
    requires n > 0
    ensures var f := Fluency(old_, score, n);
            (old_ <= score ==> old_ <= f <= score) && (score <= old_ ==> score <= f <= old_)
  {
    var a := old_ * (n - 1) + score;
    RoundDivNearest(a, n);
    var f := Fluency(old_, score, n);
    var lo := if old_ <= score then old_ else score;
    var hi := if old_ <= score then score else old_;
    assert lo * (n - 1) <= old_ * (n - 1) <= hi * (n - 1) by {
      MulMonotone(lo, old_, n - 1);
      MulMonotone(old_, hi, n - 1);
    }
    assert lo * n <= a <= hi * n;
    if f < lo {
      MulMonotone(2 * f + 1, 2 * lo, n);
      assert false;
    }
    if f > hi {
      MulMonotone(2 * hi + 1, 2 * f - 1, n);
      assert false;
    }
  }

  lemma MulMonotone(x: int, y: int, k: nat)
    requires x <= y
    ensures x * k <= y * k
  {
  }

  /** The category achievements: 5 completed conversation lessons for `'5'`, grammar for `'6'`. */
  function CategoryAchievement(category: string): Option<string> {
    if category == "conversation" then Some("5")
    else if category == "grammar" then Some("6")
    else None
  }

  /** The index of the first achievement with that id (`achievements.find`). */
  function FindFirst(achs: seq<Achievement>, id: string): (r: Option<nat>)
    ensures r.Some? ==> r.value < |achs| && achs[r.value].id == id &&
                        forall j :: 0 <= j < r.value ==> achs[j].id != id
    ensures r.None? ==> forall j :: 0 <= j < |achs| ==> achs[j].id != id
    decreases |achs|
  {
    if achs == [] then None
    else if achs[0].id == id then Some(0)
    else
      var rest := FindFirst(achs[1..], id);
      if rest.Some? then Some(rest.value + 1) else None
  }

  /** The achievements and the list of those this call unlocked. */
  datatype Unlocking = Unlocking(achievements: seq<Achievement>, unlocked: seq<Achievement>)

  /**
   * Unlock the first achievement with `id` if it is locked, stamp it, and report it; an
   * unlocked one, or a missing one, changes nothing.
   */
  function UnlockFirst(u: Unlocking, id: string, now: int): (r: Unlocking)
    ensures |r.achievements| == |u.achievements|
    ensures forall i :: 0 <= i < |u.achievements| && u.achievements[i].unlocked ==> r.achievements[i] == u.achievements[i]
    ensures forall i :: 0 <= i < |u.achievements| ==> r.achievements[i].id == u.achievements[i].id
    ensures forall i :: 0 <= i < |u.achievements| && u.achievements[i].id != id ==> r.achievements[i] == u.achievements[i]
    ensures r.unlocked == u.unlocked ||
            exists i :: 0 <= i < |u.achievements| && !u.achievements[i].unlocked && FindFirst(u.achievements, id) == Some(i) &&
                        r.unlocked == u.unlocked + [r.achievements[i]] &&
                        r.achievements[i] == u.achievements[i].(unlocked := true, unlockedAt := Some(now))
  {
    match FindFirst(u.achievements, id)
    case None => u
    case Some(i) =>
      if u.achievements[i].unlocked then u
      else
        var a := u.achievements[i].(unlocked := true, unlockedAt := Some(now));
        Unlocking(u.achievements[i := a], u.unlocked + [a])
  }

  /** The progress record after a completion, and the achievements it unlocked. */
  datatype Completion = Completion(progress: Progress, unlocked: seq<Achievement>)

  /** The counting part of a completion: one more lesson, its minutes, the new fluency score. */
  function CountLesson(p: Progress, lesson: Lesson, score: int): (r: Progress)
    ensures r.weeklyGoal == p.weeklyGoal && r.streak == p.streak && r.achievements == p.achievements
    ensures r.lessonsCompleted == p.lessonsCompleted + 1
    ensures r.practiceMinutes == p.practiceMinutes + lesson.estimatedTime
  {
    var n := p.lessonsCompleted + 1;
    p.(lessonsCompleted := n, practiceMinutes := p.practiceMinutes + lesson.estimatedTime,
       fluencyScore := Fluency(p.fluencyScore, score, n))
  }

  /** On a day after the last practice, the streak and the weekly counter move. */
  function PracticeDay(p: Progress, now: int): (r: Progress)
    ensures r.lessonsCompleted == p.lessonsCompleted && r.practiceMinutes == p.practiceMinutes
    ensures r.fluencyScore == p.fluencyScore && r.achievements == p.achievements
    ensures SameDay(p.streak.lastPracticeDate, now) ==> r == p
  {
    if SameDay(p.streak.lastPracticeDate, now) then p
    else p.(streak := NextStreakAsWritten(p.streak, now), weeklyGoal := CountPracticeDay(p.weeklyGoal, now))
  }

  /** The achievement ids a completion can unlock. */
  const CompletionIds := ["4", "5", "6", "8"]

  /** The achievements of the completion: `'4'`, the category's one, then `'8'`. */
  function Achieve(achs: seq<Achievement>, lesson: Lesson, score: int, practiceMinutes: int, now: int,
                   categoryCount: nat): Unlocking
  {
    var u0 := Unlocking(achs, []);
    var u1 := if score >= 95 then UnlockFirst(u0, "4", now) else u0;
    var cat := CategoryAchievement(lesson.category);
    var u2 := if cat.Some? && categoryCount >= 5 then UnlockFirst(u1, cat.value, now) else u1;
    if practiceMinutes >= 600 then UnlockFirst(u2, "8", now) else u2
  }

  /**
   * `completeLesson` on an existing progress record: count the lesson and its minutes,
   * average the fluency score, move the streak and the weekly counter on a new day, and
   * unlock `'4'` for a score of 95 or more, the category achievement after five lessons of
   * its category (`categoryCount`), and `'8'` at 600 practice minutes.
   */
  function CompletionUpdate(p: Progress, lesson: Lesson, score: int, now: int, categoryCount: nat): Completion {
    var p2 := PracticeDay(CountLesson(p, lesson, score), now);
    var u := Achieve(p2.achievements, lesson, score, p2.practiceMinutes, now, categoryCount);
    Completion(p2.(achievements := u.achievements), u.unlocked)
  }

  /**
   * The counters: one more lesson, its minutes added, the fluency score the rounded average
   * with the new score counted once; lessons from one day move the streak at most once.
   */
  lemma CompletionCounters(p: Progress, lesson: Lesson, score: int, now: int, categoryCount: nat)
    ensures var r := CompletionUpdate(p, lesson, score, now, categoryCount).progress;
            r.lessonsCompleted == p.lessonsCompleted + 1 &&
            r.practiceMinutes == p.practiceMinutes + lesson.estimatedTime &&
            r.fluencyScore == RoundDiv(p.fluencyScore * p.lessonsCompleted + score, p.lessonsCompleted + 1) &&
            (SameDay(p.streak.lastPracticeDate, now) ==> r.streak == p.streak && r.weeklyGoal == p.weeklyGoal) &&
            (!SameDay(p.streak.lastPracticeDate, now) ==>
               r.streak == NextStreakAsWritten(p.streak, now) && r.weeklyGoal == CountPracticeDay(p.weeklyGoal, now))
  {
  }

  /**
   * What an unlocking has done so far to `orig`: an unlocked achievement is untouched, a
   * changed one is one of the completion ids, now unlocked and stamped, and every reported
   * achievement is unlocked and stamped.
   */
  predicate OnlyUnlocks(orig: seq<Achievement>, u: Unlocking, now: int) {
    && |u.achievements| == |orig|
    && (forall i :: 0 <= i < |orig| && orig[i].unlocked ==> u.achievements[i] == orig[i])
    && (forall i :: 0 <= i < |orig| && u.achievements[i] != orig[i] ==>
          u.achievements[i].id in CompletionIds && u.achievements[i].unlocked && u.achievements[i].unlockedAt == Some(now))
    && (forall k :: 0 <= k < |u.unlocked| ==> u.unlocked[k].unlocked && u.unlocked[k].unlockedAt == Some(now))
  }

  lemma UnlockFirstKeeps(orig: seq<Achievement>, u: Unlocking, id: string, now: int)
    requires OnlyUnlocks(orig, u, now) && id in CompletionIds
    ensures OnlyUnlocks(orig, UnlockFirst(u, id, now), now)
    ensures |UnlockFirst(u, id, now).unlocked| <= |u.unlocked| + 1
  {
    var r := UnlockFirst(u, id, now);
    forall i | 0 <= i < |orig| && r.achievements[i] != orig[i]
      ensures r.achievements[i].id in CompletionIds && r.achievements[i].unlocked && r.achievements[i].unlockedAt == Some(now)
    {
      if u.achievements[i] != orig[i] {
        assert u.achievements[i].unlocked;
      }
    }
  }

  /**
   * Achievements: an unlocked one is never modified, nothing but `'4'`, the category's
   * achievement and `'8'` changes, and everything reported was unlocked by this call.
   */
  lemma CompletionAchievements(p: Progress, lesson: Lesson, score: int, now: int, categoryCount: nat)
    ensures var c := CompletionUpdate(p, lesson, score, now, categoryCount);
            OnlyUnlocks(p.achievements, Unlocking(c.progress.achievements, c.unlocked), now) &&
            |c.unlocked| <= 3
  {
    var achs := p.achievements;
    var p2 := PracticeDay(CountLesson(p, lesson, score), now);
    assert p2.achievements == achs;
    var u0 := Unlocking(achs, []);
    var u1 := if score >= 95 then UnlockFirst(u0, "4", now) else u0;
    if score >= 95 { UnlockFirstKeeps(achs, u0, "4", now); }
    var cat := CategoryAchievement(lesson.category);
    var u2 := if cat.Some? && categoryCount >= 5 then UnlockFirst(u1, cat.value, now) else u1;
    if cat.Some? && categoryCount >= 5 { UnlockFirstKeeps(achs, u1, cat.value, now); }
    var u3 := if p2.practiceMinutes >= 600 then UnlockFirst(u2, "8", now) else u2;
    if p2.practiceMinutes >= 600 { UnlockFirstKeeps(achs, u2, "8", now); }
    assert u3 == Achieve(achs, lesson, score, p2.practiceMinutes, now, categoryCount);
  }

  /** A perfect-score completion unlocks `'4'` when the record has it and it was locked. */
  lemma PerfectScoreUnlocks(p: Progress, lesson: Lesson, score: int, now: int, categoryCount: nat, i: nat)
    requires score >= 95 && i < |p.achievements| && FindFirst(p.achievements, "4") == Some(i)
    ensures CompletionUpdate(p, lesson, score, now, categoryCount).progress.achievements[i].unlocked
  {
  }

  const ScoreMessage := "Valid score is required (0-100)"

  /** The outcome of `completeLesson`: the reply (`None`: none is sent) and the two records. */
  datatype Completed = Completed(reply: Option<Reply>, record: Option<UserLesson>, store: Option<Progress>,
                                 unlocked: seq<Achievement>)

  /**
   * `completeLesson`: refuse a missing score or one outside 0..100 with 400, an unknown
   * lesson or one the user never started with 404, changing nothing. Otherwise mark the user
   * lesson complete (progress 100, score, completion time) and update the progress record;
   * when there is none, create one for this first lesson and send no reply.
   */
  function CompleteLesson(score: Option<int>, lesson: Option<Lesson>, record: Option<UserLesson>,
                          store: Option<Progress>, now: int, categoryCount: nat): (r: Completed)
    ensures score.None? || score.value < 0 || score.value > 100 ==>
              r == Completed(Some(Reply(400, ScoreMessage)), record, store, [])
    ensures score.Some? && 0 <= score.value <= 100 && (lesson.None? || record.None?) ==>
              r.reply.Some? && r.reply.value.status == 404 && r.record == record && r.store == store
    ensures score.Some? && 0 <= score.value <= 100 && lesson.Some? && record.Some? ==>
              r.record == Some(record.value.(progress := 100, score := Some(score.value),
                                             completedAt := Some(now), lastAccessedAt := now)) &&
              r.store.Some? && (r.reply.None? <==> store.None?)
    ensures score.Some? && 0 <= score.value <= 100 && lesson.Some? && record.Some? && store.Some? ==>
              var c := CompletionUpdate(store.value, lesson.value, score.value, now, categoryCount);
              r.store == Some(c.progress) && r.unlocked == c.unlocked
    ensures score.Some? && 0 <= score.value <= 100 && lesson.None? ==> r.reply == Some(Reply(404, "Lesson not found"))
    ensures score.Some? && 0 <= score.value <= 100 && lesson.Some? && record.None? ==>
              r.reply == Some(Reply(404, "User has not started this lesson"))
    ensures score.Some? && 0 <= score.value <= 100 && lesson.Some? && record.Some? && store.Some? ==>
              r.reply == Some(Ok)
  {
    if score.None? || score.value < 0 || score.value > 100 then
      Completed(Some(Reply(400, ScoreMessage)), record, store, [])
    else if lesson.None? then Completed(Some(Reply(404, "Lesson not found")), record, store, [])
    else if record.None? then Completed(Some(Reply(404, "User has not started this lesson")), record, store, [])
    else
      var s := score.value;
      var ul := record.value.(progress := 100, score := Some(s), completedAt := Some(now), lastAccessedAt := now);
      match store
      case None =>
        Completed(None, Some(ul),
                  Some(Progress(1, lesson.value.estimatedTime, s, WeeklyGoal(1, 5, Some(now)), Streak(1, 1, now), [])), [])
      case Some(p) =>
        var c := CompletionUpdate(p, lesson.value, s, now, categoryCount);
        Completed(Some(Ok), Some(ul), Some(c.progress), c.unlocked)
  }

  /** The first completion without a progress record creates it from that lesson alone. */
  lemma FirstCompletionCreates(score: int, lesson: Lesson, ul: UserLesson, now: int, categoryCount: nat)
    requires 0 <= score <= 100
    ensures var r := CompleteLesson(Some(score), Some(lesson), Some(ul), None, now, categoryCount);
            r.reply.None? && r.store.value.lessonsCompleted == 1 && r.store.value.fluencyScore == score &&
            r.store.value.practiceMinutes == lesson.estimatedTime &&
            r.store.value.weeklyGoal.current == 1 && r.store.value.streak.current == 1
  {
  }

  /** With valid inputs the fluency score stays within 0..100. */
  lemma FluencyStaysInRange(p: Progress, lesson: Lesson, score: int, now: int, categoryCount: nat)
    requires 0 <= p.fluencyScore <= 100 && 0 <= score <= 100
    ensures 0 <= CompletionUpdate(p, lesson, score, now, categoryCount).progress.fluencyScore <= 100
  {
    FluencyBetween(p.fluencyScore, score, p.lessonsCompleted + 1);
    CompletionCounters(p, lesson, score, now, categoryCount);
  }

  // ---------------------------------------------------------------------------------
  // The records as documents updated in place
  // ---------------------------------------------------------------------------------

  /** A loaded `UserLesson` document. */
  class UserLessonDocument {
    var progress: int
    var score: Option<int>
    var completedAt: Option<int>
    var currentStage: nat
    var userResponses: seq<string>
    var startedAt: int
    var lastAccessedAt: int

    function State(): UserLesson
      reads this
    {
      UserLesson(progress, score, completedAt, currentStage, userResponses, startedAt, lastAccessedAt)
    }

    constructor (ul: UserLesson)
      ensures State() == ul
    {
      progress := ul.progress;
      score := ul.score;
      completedAt := ul.completedAt;
      currentStage := ul.currentStage;
      userResponses := ul.userResponses;
      startedAt := ul.startedAt;
      lastAccessedAt := ul.lastAccessedAt;
    }

    /** The `else` branch of `submitResponse`. */
    method AddResponse(response: string, stageCount: nat, now: int)
      modifies this
      ensures State() == RecordResponse(old(State()), response, stageCount, now)
    {
      userResponses := userResponses + [response];
      if currentStage < stageCount - 1 {
        currentStage := currentStage + 1;
        var percent := (currentStage + 1) * 90 / stageCount;
        progress := if percent < 90 then percent else 90;
      } else {
        progress := 90;
      }
      lastAccessedAt := now;
    }

    /** The user-lesson update of `completeLesson`. */
    method MarkCompleted(s: int, now: int)
      modifies this
      ensures State() == old(State()).(progress := 100, score := Some(s), completedAt := Some(now), lastAccessedAt := now)
    {
      progress := 100;
      score := Some(s);
      completedAt := Some(now);
      lastAccessedAt := now;
    }
  }

  /** Unlock the first achievement with `id` on the document if it is locked. */
  method UnlockOn(doc: ProgressDocument, id: string, now: int, unlocked: seq<Achievement>)
      returns (unlocked': seq<Achievement>)
    modifies doc
    ensures var u := UnlockFirst(Unlocking(old(doc.achievements), unlocked), id, now);
            doc.State() == old(doc.State()).(achievements := u.achievements) && unlocked' == u.unlocked
  {
    unlocked' := unlocked;
    var found := FindFirst(doc.achievements, id);
    if found.Some? && !doc.achievements[found.value].unlocked {
      var a := doc.achievements[found.value].(unlocked := true, unlockedAt := Some(now));
      doc.achievements := doc.achievements[found.value := a];
      unlocked' := unlocked + [a];
    }
  }

  /** The progress-record part of `completeLesson`, applied to a loaded document. */
  method ApplyCompletion(doc: ProgressDocument, lesson: Lesson, score: int, now: int, categoryCount: nat)
      returns (unlocked: seq<Achievement>)
    modifies doc
    ensures var c := CompletionUpdate(old(doc.State()), lesson, score, now, categoryCount);
            doc.State() == c.progress && unlocked == c.unlocked
  {
    ghost var p := doc.State();
    doc.lessonsCompleted := doc.lessonsCompleted + 1;
    doc.practiceMinutes := doc.practiceMinutes + lesson.estimatedTime;
    var oldTotal := doc.fluencyScore * (doc.lessonsCompleted - 1);
    doc.fluencyScore := (2 * (oldTotal + score) + doc.lessonsCompleted) / (2 * doc.lessonsCompleted);
    ghost var p1 := doc.State();
    assert p1 == CountLesson(p, lesson, score);
    if DayNumber(doc.streak.lastPracticeDate) != DayNumber(now) {
      doc.AdvanceStreak(now);
      doc.CountWeeklyDay(now);
    }
    ghost var p2 := doc.State();
    assert p2 == PracticeDay(p1, now);
    unlocked := [];
    ghost var u := Unlocking(doc.achievements, []);
    if score >= 95 {
      unlocked := UnlockOn(doc, "4", now, unlocked);
      u := UnlockFirst(u, "4", now);
    }
    var cat := CategoryAchievement(lesson.category);
    if cat.Some? && categoryCount >= 5 {
      unlocked := UnlockOn(doc, cat.value, now, unlocked);
      u := UnlockFirst(u, cat.value, now);
    }
    if doc.practiceMinutes >= 600 {
      unlocked := UnlockOn(doc, "8", now, unlocked);
      u := UnlockFirst(u, "8", now);
    }
    assert u == Achieve(p2.achievements, lesson, score, p2.practiceMinutes, now, categoryCount);
    assert doc.State() == p2.(achievements := u.achievements);
  }
}

=== FILE: lessons_context.dfy ===
/**
 * The front end's lessons context: the lesson list it holds, the derived "recent" and
 * "recommended" lists, and the handlers that start and complete a lesson and change the
 * weekly goal, each replacing the held state once the server has answered.
 * Dates are milliseconds since the epoch.
 */
module LessonsContext {
  import opened Wrappers
  import opened ProgressController

  /** A lesson as the front end holds it (the display-only fields are left out). */
  datatype Card = Card(id: string, title: string, category: string, difficulty: string,
                       estimatedTime: int, progress: int, score: Option<int>, completedAt: Option<int>)

  // ---------------------------------------------------------------------------------
  // Filtering
  // ---------------------------------------------------------------------------------

  /** `lessons.filter(keep)`: the kept lessons, each as often as before, in their order. */
  function Where(s: seq<Card>, keep: Card -> bool): (r: seq<Card>)
    ensures |r| <= |s|
    ensures forall i :: 0 <= i < |r| ==> keep(r[i])
    ensures forall x :: multiset(r)[x] == if keep(x) then multiset(s)[x] else 0
    ensures (forall i :: 0 <= i < |s| ==> keep(s[i])) ==> r == s
  {
    if s == [] then []
    else
      assert s == [s[0]] + s[1..];
      var rest := Where(s[1..], keep);
      if keep(s[0]) then [s[0]] + rest else rest
  }

  predicate IsStarted(c: Card) { c.progress > 0 }

  predicate NotStarted(c: Card) { c.progress == 0 }

  // ---------------------------------------------------------------------------------
  // The order of the recent lessons
  // ---------------------------------------------------------------------------------

  /**
   * The comparator of `recentLessons`: completed lessons first, the latest completion
   * first; the others by progress, highest first. Negative puts `a` first.
   */
  function Compare(a: Card, b: Card): int {
    match (a.completedAt, b.completedAt)
    case (Some(ta), Some(tb)) => tb - ta
    case (Some(_), None) => -1
    case (None, Some(_)) => 1
    case (None, None) => b.progress - a.progress
  }

  /** `a` may come before `b`. */
  predicate Before(a: Card, b: Card) { Compare(a, b) <= 0 }

  /** The comparator is consistent: swapping its arguments negates it. */
  lemma CompareAntisymmetric(a: Card, b: Card)
    ensures Compare(a, b) == -Compare(b, a)
  {
  }

  lemma BeforeTotal(a: Card, b: Card)
    ensures Before(a, b) || Before(b, a)
  {
  }

  lemma BeforeTransitive(a: Card, b: Card, c: Card)
    requires Before(a, b) && Before(b, c)
    ensures Before(a, c)
  {
  }

  predicate Sorted(s: seq<Card>) {
    forall i, j :: 0 <= i < j < |s| ==> Before(s[i], s[j])
  }

  /** Insert `x` before the first element it may precede. */
  function Insert(x: Card, s: seq<Card>): (r: seq<Card>)
    ensures |r| == |s| + 1
    ensures multiset(r) == multiset(s) + multiset{x}
  {
    if s == [] || Before(x, s[0]) then [x] + s
    else
      assert s == [s[0]] + s[1..];
      [s[0]] + Insert(x, s[1..])
  }

  lemma {:induction false} InsertSorted(x: Card, s: seq<Card>)
    requires Sorted(s)
    ensures Sorted(Insert(x, s))
  {
    var r := Insert(x, s);
    if s == [] {
    } else if Before(x, s[0]) {
      forall j | 0 < j < |r| ensures Before(x, r[j]) {
        if j > 1 { BeforeTransitive(x, s[0], s[j - 1]); }
      }
    } else {
      BeforeTotal(x, s[0]);
      var t := Insert(x, s[1..]);
      InsertSorted(x, s[1..]);
      assert r == [s[0]] + t;
      forall k | 0 <= k < |t| ensures Before(s[0], t[k]) {
        assert t[k] in multiset(t);
        assert t[k] == x || t[k] in multiset(s[1..]);
        if t[k] != x {
          assert t[k] in s[1..];
        }
      }
    }
  }

  /**
   * The stable sort of the recent lessons: the result is ordered by `Before` and holds the
   * same lessons, each as often.
   */
  function Sort(s: seq<Card>): (r: seq<Card>)
    ensures Sorted(r)
    ensures multiset(r) == multiset(s)
    ensures |r| == |s|
  {
    if s == [] then []
    else
      assert s == [s[0]] + s[1..];
      var t := Sort(s[1..]);
      InsertSorted(s[0], t);
      Insert(s[0], t)
  }

  /** The lessons the comparator ties with `c`: it returns 0 for them. */
  function TiedWith(c: Card): Card -> bool { (x: Card) => Compare(x, c) == 0 }

  /**
   * Inserting `x` puts it ahead of every lesson it ties with, so within any tie class `x`
   * comes first and the others keep their order.
   */
  lemma {:induction false} InsertKeepsTies(x: Card, t: seq<Card>, c: Card)
    ensures Where(Insert(x, t), TiedWith(c)) ==
              (if Compare(x, c) == 0 then [x] + Where(t, TiedWith(c)) else Where(t, TiedWith(c)))
  {
    var tied := TiedWith(c);
    if t == [] || Before(x, t[0]) {
      assert ([x] + t)[0] == x && ([x] + t)[1..] == t;
    } else {
      var r := Insert(x, t);
      InsertKeepsTies(x, t[1..], c);
      assert r[0] == t[0] && r[1..] == Insert(x, t[1..]);
      assert !(Compare(x, c) == 0 && Compare(t[0], c) == 0);
    }
  }

  /**
   * The sort is stable, as `Array.prototype.sort` is: lessons the comparator ties keep the
   * order they had in the input.
   */
  lemma {:induction false} SortStable(s: seq<Card>, c: Card)
    ensures Where(Sort(s), TiedWith(c)) == Where(s, TiedWith(c))
  {
    if s != [] {
      SortStable(s[1..], c);
      InsertKeepsTies(s[0], Sort(s[1..]), c);
    }
  }

  function Min(a: int, b: int): int { if a <= b then a else b }

  /** `recentLessons`: the started lessons, in `Before` order, at most five. */
  function RecentLessons(lessons: seq<Card>): seq<Card> {
    var sorted := Sort(Where(lessons, IsStarted));
    sorted[..Min(5, |sorted|)]
  }

  /** In a sorted list, completed lessons come before the others. */
  lemma SortedCompletedFirst(s: seq<Card>)
    requires Sorted(s)
    ensures forall i, j :: 0 <= i < j < |s| && s[j].completedAt.Some? ==> s[i].completedAt.Some?
  {
    forall i, j | 0 <= i < j < |s| && s[j].completedAt.Some? ensures s[i].completedAt.Some? {
      assert Before(s[i], s[j]);
    }
  }

  /** What a prefix of a sorted list leaves out comes after everything it keeps. */
  lemma PrefixBeforeRest(s: seq<Card>, n: nat)
    requires Sorted(s) && n <= |s|
    ensures forall x :: multiset(s[..n])[x] < multiset(s)[x] ==> forall i :: 0 <= i < n ==> Before(s[i], x)
  {
    var rest := s[n..];
    assert s == s[..n] + rest;
    assert multiset(s) == multiset(s[..n]) + multiset(rest);
    forall x | multiset(s[..n])[x] < multiset(s)[x]
      ensures forall i :: 0 <= i < n ==> Before(s[i], x)
    {
      assert x in multiset(rest);
      assert x in rest;
      var k :| 0 <= k < |rest| && rest[k] == x;
      assert s[n + k] == x;
    }
  }

  /** Every element of a prefix of `s` counts no more often than in `s`. */
  lemma PrefixSubMultiset(s: seq<Card>, n: nat)
    requires n <= |s|
    ensures multiset(s[..n]) <= multiset(s)
  {
    assert s == s[..n] + s[n..];
  }

  /**
   * The recent lessons are started lessons of the list, at most five (fewer only when fewer
   * are started), completed ones before the others and ordered among themselves; a started
   * lesson left out comes after every one shown.
   */
  lemma RecentLessonsSpec(lessons: seq<Card>)
    ensures |RecentLessons(lessons)| == Min(5, |Where(lessons, IsStarted)|)
    ensures forall i :: 0 <= i < |RecentLessons(lessons)| ==>
              RecentLessons(lessons)[i].progress > 0 && RecentLessons(lessons)[i] in lessons
    ensures Sorted(RecentLessons(lessons))
    ensures var r := RecentLessons(lessons);
            forall i, j :: 0 <= i < j < |r| && r[j].completedAt.Some? ==> r[i].completedAt.Some?
    ensures var r := RecentLessons(lessons);
            forall x :: multiset(r)[x] < multiset(Where(lessons, IsStarted))[x] ==>
              forall i :: 0 <= i < |r| ==> Before(r[i], x)
  {
    var started := Where(lessons, IsStarted);
    var sorted := Sort(started);
    var n := Min(5, |sorted|);
    var r := sorted[..n];
    assert r == RecentLessons(lessons);
    PrefixSubMultiset(sorted, n);
    forall i | 0 <= i < |r| ensures r[i].progress > 0 && r[i] in lessons {
      assert r[i] in multiset(r);
      assert r[i] in multiset(started);
      assert r[i] in multiset(lessons);
    }
    SortedCompletedFirst(r);
    PrefixBeforeRest(sorted, n);
  }

  /**
   * `recommendedLessons`: up to three unstarted lessons, taken from `shuffled`, the random
   * reordering of the unstarted lessons.
   */
  function RecommendedLessons(lessons: seq<Card>, shuffled: seq<Card>): (r: seq<Card>)
    requires multiset(shuffled) == multiset(Where(lessons, NotStarted))
    ensures |r| == Min(3, |Where(lessons, NotStarted)|)
    ensures forall i :: 0 <= i < |r| ==> r[i].progress == 0 && r[i] in lessons
  {
    var r := shuffled[..Min(3, |shuffled|)];
    assert |shuffled| == |Where(lessons, NotStarted)| by {
      assert |multiset(shuffled)| == |shuffled|;
    }
    assert forall i :: 0 <= i < |r| ==> r[i] in multiset(Where(lessons, NotStarted)) by {
      forall i | 0 <= i < |r| ensures r[i] in multiset(Where(lessons, NotStarted)) {
        assert r[i] == shuffled[i];
        assert r[i] in multiset(shuffled);
      }
    }
    r
  }

  // ---------------------------------------------------------------------------------
  // The list updates
  // ---------------------------------------------------------------------------------

  /** The `startLesson` map: the lessons with that id take the server's progress. */
  function StartedIn(lessons: seq<Card>, id: string, progress: int): (r: seq<Card>)
    ensures |r| == |lessons|
    ensures forall i :: 0 <= i < |r| && lessons[i].id != id ==> r[i] == lessons[i]
    ensures forall i :: 0 <= i < |r| && lessons[i].id == id ==> r[i] == lessons[i].(progress := progress)
  {
    seq(|lessons|, i requires 0 <= i < |lessons| =>
      if lessons[i].id == id then lessons[i].(progress := progress) else lessons[i])
  }

  /** The `completeLesson` map: the lessons with that id become complete with the score. */
  function CompletedIn(lessons: seq<Card>, id: string, score: int, now: int): (r: seq<Card>)
    ensures |r| == |lessons|
    ensures forall i :: 0 <= i < |r| && lessons[i].id != id ==> r[i] == lessons[i]
    ensures forall i :: 0 <= i < |r| && lessons[i].id == id ==>
              r[i] == lessons[i].(progress := 100, score := Some(score), completedAt := Some(now))
  {
    seq(|lessons|, i requires 0 <= i < |lessons| =>
      if lessons[i].id == id
      then lessons[i].(progress := 100, score := Some(score), completedAt := Some(now))
      else lessons[i])
  }

  /** Completing a lesson overrides whatever progress starting it had set. */
  lemma CompleteOverridesStart(lessons: seq<Card>, id: string, progress: int, score: int, now: int)
    ensures CompletedIn(StartedIn(lessons, id, progress), id, score, now) == CompletedIn(lessons, id, score, now)
  {
  }

  /**
   * A completed lesson is never recommended again, and it sorts before every lesson that is
   * not completed.
   */
  lemma CompletedLeavesRecommended(lessons: seq<Card>, id: string, score: int, now: int)
    ensures var after := CompletedIn(lessons, id, score, now);
            && (forall x :: x in Where(after, NotStarted) ==> x.id != id)
            && (forall i, j ::
                  (0 <= i < |after| && 0 <= j < |after| && after[i].id == id && after[j].completedAt.None?) ==>
                  Before(after[i], after[j]) && !Before(after[j], after[i]))
  {
    var after := CompletedIn(lessons, id, score, now);
    forall x | x in Where(after, NotStarted) ensures x.id != id {
      assert x in multiset(Where(after, NotStarted));
      assert x in multiset(after);
      var i :| 0 <= i < |after| && after[i] == x;
    }
  }

  // ---------------------------------------------------------------------------------
  // The held state
  // ---------------------------------------------------------------------------------

  const MinWeeklyTarget := 1
  const MaxWeeklyTarget := 7

  /** The context's state: the lessons and the user's progress. */
  class LessonsStore {
    var lessons: seq<Card>
    var userProgress: Progress

    constructor (lessons: seq<Card>, userProgress: Progress)
      ensures this.lessons == lessons && this.userProgress == userProgress
    {
      this.lessons := lessons;
      this.userProgress := userProgress;
    }

    /**
     * `startLesson`; `reply` is the progress the server sent back, or `None` when the call
     * failed, which leaves the state as it was.
     */
    method StartLesson(id: string, reply: Option<int>)
      modifies this
      ensures reply.Some? ==> lessons == StartedIn(old(lessons), id, reply.value)
      ensures reply.None? ==> lessons == old(lessons)
      ensures userProgress == old(userProgress)
    {
      if reply.Some? {
        lessons := StartedIn(lessons, id, reply.value);
      }
    }

    /**
     * `completeLesson`; `reply` is the progress record the server sent back, or `None` when
     * the call failed, which leaves the state as it was.
     */
    method CompleteLesson(id: string, score: int, now: int, reply: Option<Progress>)
      modifies this
      ensures reply.Some? ==> lessons == CompletedIn(old(lessons), id, score, now) && userProgress == reply.value
      ensures reply.None? ==> lessons == old(lessons) && userProgress == old(userProgress)
    {
      if reply.Some? {
        lessons := CompletedIn(lessons, id, score, now);
        userProgress := reply.value;
      }
    }

    /**
     * `updateWeeklyGoal`: a target outside 1..7 is rejected with nothing changed; otherwise
     * only the target changes at once, and when the server refuses (`serverOk` false) the
     * progress is replaced by the reloaded one.
     */
    method UpdateWeeklyGoal(target: int, serverOk: bool, reloaded: Progress) returns (accepted: bool)
      modifies this
      ensures lessons == old(lessons)
      ensures target < MinWeeklyTarget || target > MaxWeeklyTarget ==> !accepted && userProgress == old(userProgress)
      ensures MinWeeklyTarget <= target <= MaxWeeklyTarget && serverOk ==>
                accepted && userProgress == old(userProgress).(weeklyGoal := old(userProgress).weeklyGoal.(target := target))
      ensures MinWeeklyTarget <= target <= MaxWeeklyTarget && !serverOk ==> !accepted && userProgress == reloaded
    {
      if target < MinWeeklyTarget || target > MaxWeeklyTarget {
        return false;
      }
      userProgress := userProgress.(weeklyGoal := userProgress.weeklyGoal.(target := target));
      if serverOk {
        accepted := true;
      } else {
        userProgress := reloaded;
        accepted := false;
      }
    }
  }
}

=== FILE: lessons_tab.dfy ===
/**
 * The dashboard's lessons tab: the category and level filter over all lessons, the labels
 * of the filter options and the colour of a progress bar.
 */
module LessonsTab {
  import opened Wrappers
  import opened LessonsContext

  const All := "all"

  const Categories: seq<string> := ["all", "grammar", "vocabulary", "conversation", "reading", "writing", "listening"]

  const Levels: seq<string> := ["all", "beginner", "intermediate", "advanced"]

  // ---------------------------------------------------------------------------------
  // The filter
  // ---------------------------------------------------------------------------------

  /** A lesson passes the selection: each of category and level is `'all'` or matches. */
  predicate Selected(c: Card, category: string, level: string) {
    (category == All || c.category == category) && (level == All || c.difficulty == level)
  }

  function ByCategory(category: string): Card -> bool { (c: Card) => c.category == category }

  function ByLevel(level: string): Card -> bool { (c: Card) => c.difficulty == level }

  /** The filter effect: by category unless `'all'`, then by level unless `'all'`. */
  function FilterLessons(all: seq<Card>, category: string, level: string): (r: seq<Card>)
    ensures category == All && level == All ==> r == all
    ensures forall i :: 0 <= i < |r| ==> Selected(r[i], category, level)
    ensures forall x :: multiset(r)[x] == if Selected(x, category, level) then multiset(all)[x] else 0
  {
    var byCategory := if category != All then Where(all, ByCategory(category)) else all;
    if level != All then Where(byCategory, ByLevel(level)) else byCategory
  }

  /** `b` holds the elements of `a` in the same order, possibly with others between. */
  predicate IsSubsequence(a: seq<Card>, b: seq<Card>)
    decreases |b|
  {
    if a == [] then true
    else if b == [] then false
    else if a[0] == b[0] then IsSubsequence(a[1..], b[1..])
    else IsSubsequence(a, b[1..])
  }

  lemma {:induction false} WhereIsSubsequence(s: seq<Card>, keep: Card -> bool)
    ensures IsSubsequence(Where(s, keep), s)
  {
    if s != [] {
      var rest := Where(s[1..], keep);
      WhereIsSubsequence(s[1..], keep);
      if !keep(s[0]) && rest != [] {
        assert keep(rest[0]);
      }
    }
  }

  /** Two filters in a row are one filter by both conditions. */
  lemma {:induction false} WhereTwice(s: seq<Card>, p: Card -> bool, q: Card -> bool, both: Card -> bool)
    requires forall x :: both(x) == (p(x) && q(x))
    ensures Where(Where(s, p), q) == Where(s, both)
  {
    if s != [] {
      WhereTwice(s[1..], p, q, both);
    }
  }

  /** The filtered list keeps the order of all lessons. */
  lemma FilterKeepsOrder(all: seq<Card>, category: string, level: string)
    ensures IsSubsequence(FilterLessons(all, category, level), all)
  {
    var sel := (c: Card) => Selected(c, category, level);
    if category != All && level != All {
      WhereTwice(all, ByCategory(category), ByLevel(level), sel);
      WhereIsSubsequence(all, sel);
    } else if category != All {
      WhereIsSubsequence(all, ByCategory(category));
    } else if level != All {
      WhereIsSubsequence(all, ByLevel(level));
    } else {
      SubsequenceOfItself(all);
    }
  }

  lemma {:induction false} SubsequenceOfItself(s: seq<Card>)
    ensures IsSubsequence(s, s)
  {
    if s != [] {
      SubsequenceOfItself(s[1..]);
    }
  }

  /** `getLessonProgress`: a missing progress counts as 0. */
  function LessonProgress(progress: Option<int>): (p: int)
    ensures progress.None? ==> p == 0
    ensures progress.Some? ==> p == progress.value
  {
    if progress.Some? then progress.value else 0
  }

  // ---------------------------------------------------------------------------------
  // Labels and colours
  // ---------------------------------------------------------------------------------

  predicate IsLower(c: char) { 'a' <= c <= 'z' }

  /** `toUpperCase` on one character, for ASCII letters. */
  function Upper(c: char): (u: char)
    ensures IsLower(c) ==> 'A' <= u <= 'Z' && u as int == c as int - 32
    ensures !IsLower(c) ==> u == c
  {
    if IsLower(c) then (c as int - 32) as char else c
  }

  /**
   * The option label: the fixed text for `'all'`, otherwise the option with its first
   * character upper-cased and the rest kept.
   */
  function Label(option: string, allLabel: string): (r: string)
    ensures option == All ==> r == allLabel
    ensures option != All ==> |r| == |option|
    ensures option != All && option != [] ==> r[0] == Upper(option[0]) && r[1..] == option[1..]
  {
    if option == All then allLabel
    else if option == [] then []
    else [Upper(option[0])] + option[1..]
  }

  function CategoryLabel(category: string): string { Label(category, "All Categories") }

  function LevelLabel(level: string): string { Label(level, "All Levels") }

  /** Options that start with a lower-case letter keep distinct labels. */
  lemma LabelInjective(x: string, y: string, allLabel: string)
    requires x != All && y != All && x != [] && y != [] && IsLower(x[0]) && IsLower(y[0])
    ensures Label(x, allLabel) == Label(y, allLabel) ==> x == y
  {
    var lx, ly := Label(x, allLabel), Label(y, allLabel);
    if lx == ly {
      assert lx[0] == ly[0] && lx[1..] == ly[1..];
      assert x == [x[0]] + x[1..] && y == [y[0]] + y[1..];
    }
  }

  /** The offered categories and levels have pairwise distinct labels. */
  lemma OptionLabelsDistinct()
    ensures forall i, j :: 0 <= i < j < |Categories| ==> CategoryLabel(Categories[i]) != CategoryLabel(Categories[j])
    ensures forall i, j :: 0 <= i < j < |Levels| ==> LevelLabel(Levels[i]) != LevelLabel(Levels[j])
  {
    forall i, j | 0 <= i < j < |Categories|
      ensures CategoryLabel(Categories[i]) != CategoryLabel(Categories[j])
    {
      if i == 0 {
        assert |CategoryLabel(Categories[j])| == |Categories[j]| < |"All Categories"|;
      } else {
        LabelInjective(Categories[i], Categories[j], "All Categories");
      }
    }
    forall i, j | 0 <= i < j < |Levels| ensures LevelLabel(Levels[i]) != LevelLabel(Levels[j]) {
      if i == 0 {
        assert |LevelLabel(Levels[j])| == |Levels[j]| != |"All Levels"|;
      } else {
        LabelInjective(Levels[i], Levels[j], "All Levels");
      }
    }
  }

  const Red := "bg-red-500"
  const Yellow := "bg-yellow-500"
  const Green := "bg-green-500"

  /** `getProgressColor`: red below 33, yellow below 66, green from 66 on. */
  function ProgressColor(progress: int): (c: string)
    ensures c == Red <==> progress < 33
    ensures c == Yellow <==> 33 <= progress < 66
    ensures c == Green <==> progress >= 66
  {
    if progress < 33 then Red else if progress < 66 then Yellow else Green
  }

  function ColorRank(c: string): nat { if c == Red then 0 else if c == Yellow then 1 else 2 }

  /** More progress never shows a colour lower on the red-yellow-green scale. */
  lemma ProgressColorMonotone(a: int, b: int)
    requires a <= b
    ensures ColorRank(ProgressColor(a)) <= ColorRank(ProgressColor(b))
  {
  }

  /** A lesson whose progress is missing shows the red bar. */
  lemma MissingProgressIsRed()
    ensures ProgressColor(LessonProgress(None)) == Red
  {
  }
}

=== FILE: progress.dfy ===
/**
 * The progress controller: the weekly-reset rule, the streak and weekly-goal bookkeeping of a
 * practice day, the streak achievements, and the three handlers that read and update a
 * user's progress record.
 */
module ProgressController {
  import opened Wrappers
  import opened Clock

  // ---------------------------------------------------------------------------------
  // The progress record
  // ---------------------------------------------------------------------------------

  datatype Kind = StreakKind | CompletionKind | ScoreKind | PracticeKind

  /** An achievement; its name, description and colour are never read or written here. */
  datatype Achievement = Achievement(id: string, kind: Kind, unlocked: bool, unlockedAt: Option<int>)

  /** `lastResetDate` is optional in the schema's type. */
  datatype WeeklyGoal = WeeklyGoal(current: int, target: int, lastResetDate: Option<int>)

  datatype Streak = Streak(current: int, longest: int, lastPracticeDate: int)

  datatype Progress = Progress(lessonsCompleted: nat, practiceMinutes: int, fluencyScore: int,
                               weeklyGoal: WeeklyGoal, streak: Streak, achievements: seq<Achievement>)

  /** An HTTP reply: its status and, for a refusal, the message. */
  datatype Reply = Reply(status: nat, message: string)

  /** A handler's reply and the user's progress record afterwards (`None`: there is none). */
  datatype Handled = Handled(reply: Reply, store: Option<Progress>)

  const Ok := Reply(200, "")

  // ---------------------------------------------------------------------------------
  // Weekly reset
  // ---------------------------------------------------------------------------------

  /**
   * `shouldResetWeeklyGoal(lastResetDate)` as written: seven days or more have elapsed, or
   * today's ISO weekday is smaller than the weekday of the last reset.
   */
  predicate ShouldResetWeeklyGoal(last: int, now: int) {
    now - last >= 7 * DayMs || IsoWeekday(now) < IsoWeekday(last)
  }

  /** What the rule is meant to say: `now` lies in another Monday-to-Sunday week than `last`. */
  predicate WeeklyResetDue(last: int, now: int) {
    WeekNumber(now) != WeekNumber(last)
  }

  /** The instant the Monday-to-Sunday week of `t` begins. */
  function WeekStart(t: int): (s: int)
    ensures s <= t < s + 7 * DayMs
  {
    var d := DayNumber(t);
    assert d * DayMs <= t < (d + 1) * DayMs;
    (7 * WeekNumber(t) - 3) * DayMs
  }

  lemma WeekNumberMonotone(a: int, b: int)
    requires a <= b
    ensures DayNumber(a) <= DayNumber(b) && WeekNumber(a) <= WeekNumber(b)
  {
  }

  /** A reset is due exactly when the last reset happened before the start of the current week. */
  lemma ResetDueIffBeforeWeekStart(last: int, now: int)
    requires last <= now
    ensures WeeklyResetDue(last, now) <==> last < WeekStart(now)
  {
    WeekNumberMonotone(last, now);
    var _ := WeekStart(last);
    if WeekNumber(last) != WeekNumber(now) {
      assert WeekStart(last) + 7 * DayMs <= WeekStart(now);
    }
  }

  /** Whenever the rule as written resets, a new week has indeed begun. */
  lemma ShouldResetImpliesDue(last: int, now: int)
    requires last <= now && ShouldResetWeeklyGoal(last, now)
    ensures WeeklyResetDue(last, now)
  {
    WeekNumberMonotone(last, now);
    DayInWeek(last);
    DayInWeek(now);
  }

  /**
   * The rule as written misses exactly one case: the new week began, the weekday is the same
   * as that of the last reset, and less than seven full days have elapsed. That is, the two
   * instants fall seven calendar days apart with the later one earlier in its day.
   */
  lemma {:induction false} ShouldResetMissesOnlySameWeekday(last: int, now: int)
    requires last <= now
    ensures WeeklyResetDue(last, now) && !ShouldResetWeeklyGoal(last, now) <==>
              DayNumber(now) == DayNumber(last) + 7 && now - last < 7 * DayMs
  {
    WeekNumberMonotone(last, now);
    DayInWeek(last);
    DayInWeek(now);
    var dl := DayNumber(last);
    var dn := DayNumber(now);
    assert dl * DayMs <= last < (dl + 1) * DayMs;
    assert dn * DayMs <= now < (dn + 1) * DayMs;
    if now - last < 7 * DayMs {
      assert dn < dl + 8;
    }
  }

  /** Monday 5 January 1970, 23:00 to Monday 12 January 1970, 01:00: a new week, and no reset. */
  lemma ShouldResetMissesMonday()
    ensures var last := 4 * DayMs + 23 * 3600000;
            var now := 11 * DayMs + 3600000;
            IsoWeekday(last) == 1 && IsoWeekday(now) == 1 &&
            WeeklyResetDue(last, now) && !ShouldResetWeeklyGoal(last, now)
  {
  }

  // ---------------------------------------------------------------------------------
  // Streak
  // ---------------------------------------------------------------------------------

  /**
   * The streak on a practice day that is not the day of the last practice, as written: the
   * day after it extends the streak and raises `longest` to it; any other day restarts the
   * streak at 1 and leaves `longest` alone.
   */
  function NextStreakAsWritten(s: Streak, now: int): (r: Streak)
    ensures DayBefore(s.lastPracticeDate, now) ==> r.current == s.current + 1
    ensures DayBefore(s.lastPracticeDate, now) ==> r.longest == (if r.current > s.longest then r.current else s.longest)
    ensures !DayBefore(s.lastPracticeDate, now) ==> r.current == 1 && r.longest == s.longest
    ensures r.lastPracticeDate == now
  {
    if DayBefore(s.lastPracticeDate, now) then
      var c := s.current + 1;
      Streak(c, if c > s.longest then c else s.longest, now)
    else Streak(1, s.longest, now)
  }

  /** A record created with the schema defaults (streak 0, longest 0) breaks `current <= longest`. */
  lemma GapStreakExceedsLongest()
    ensures var r := NextStreakAsWritten(Streak(0, 0, 0), 2 * DayMs); r.current == 1 && r.longest == 0
  {
  }

  /** `longest` is never below `current`. */
  predicate StreakValid(s: Streak) {
    0 <= s.current <= s.longest
  }

  /** The streak rule with `longest` kept at least `current` on a restart, too. */
  function NextStreak(s: Streak, now: int): (r: Streak)
    ensures DayBefore(s.lastPracticeDate, now) ==> r.current == s.current + 1
    ensures !DayBefore(s.lastPracticeDate, now) ==> r.current == 1
    ensures r.longest == (if r.current > s.longest then r.current else s.longest)
    ensures r.lastPracticeDate == now
  {
    if DayBefore(s.lastPracticeDate, now) then
      var c := s.current + 1;
      Streak(c, if c > s.longest then c else s.longest, now)
    else Streak(1, if 1 > s.longest then 1 else s.longest, now)
  }

  /** The corrected rule keeps the invariant, and differs from the code only where it breaks. */
  lemma NextStreakKeepsValid(s: Streak, now: int)
    ensures StreakValid(s) ==> StreakValid(NextStreak(s, now))
    ensures s.longest >= 1 ==> NextStreak(s, now) == NextStreakAsWritten(s, now)
  {
  }

  // ---------------------------------------------------------------------------------
  // Weekly counter
  // ---------------------------------------------------------------------------------

  /**
   * The weekly counter on a practice day that is not the day of the last practice: without a
   * last reset, or when `shouldResetWeeklyGoal` says so, it becomes 1 and the reset is
   * stamped; otherwise it grows by one, capped at 7. The target never changes.
   */
  function CountPracticeDay(w: WeeklyGoal, now: int): (r: WeeklyGoal)
    ensures r.target == w.target
    ensures r.current <= 7
    ensures w.current >= 0 ==> 1 <= r.current
    ensures w.lastResetDate.None? || ShouldResetWeeklyGoal(w.lastResetDate.value, now) ==>
              r.current == 1 && r.lastResetDate == Some(now)
    ensures w.lastResetDate.Some? && !ShouldResetWeeklyGoal(w.lastResetDate.value, now) ==>
              r.lastResetDate == w.lastResetDate && r.current == (if w.current + 1 > 7 then 7 else w.current + 1)
  {
    match w.lastResetDate
    case None => w.(lastResetDate := Some(now), current := 1)
    case Some(last) =>
      if ShouldResetWeeklyGoal(last, now) then w.(current := 1, lastResetDate := Some(now))
      else w.(current := if w.current + 1 > 7 then 7 else w.current + 1)
  }

  /**
   * The counter restarts only in a new week: a practice that resets a stamped counter comes
   * after the start of the week of `now`, later than the last reset. The converse fails on the
   * missed Monday (`ShouldResetMissesMonday`).
   */
  lemma CountRestartsOnlyInNewWeek(w: WeeklyGoal, now: int)
    requires w.lastResetDate.Some? && w.lastResetDate.value <= now
    ensures var r := CountPracticeDay(w, now);
            r.lastResetDate != w.lastResetDate ==> w.lastResetDate.value < WeekStart(now)
  {
    var last := w.lastResetDate.value;
    if ShouldResetWeeklyGoal(last, now) {
      ShouldResetImpliesDue(last, now);
      ResetDueIffBeforeWeekStart(last, now);
    }
  }

  /** Within one week the counter never passes 7, however many practice days are recorded. */
  lemma {:induction false} WeeklyCounterBounded(w: WeeklyGoal, days: seq<int>)
    requires 0 <= w.current <= 7
    ensures 0 <= CountDays(w, days).current <= 7
    ensures CountDays(w, days).target == w.target
    decreases |days|
  {
    if days != [] {
      WeeklyCounterBounded(w, days[..|days| - 1]);
    }
  }

  function CountDays(w: WeeklyGoal, days: seq<int>): WeeklyGoal
    decreases |days|
  {
    if days == [] then w else CountPracticeDay(CountDays(w, days[..|days| - 1]), days[|days| - 1])
  }

  // ---------------------------------------------------------------------------------
  // Streak achievements
  // ---------------------------------------------------------------------------------

  /** The streak length achievements `'1'`, `'2'` and `'3'` ask for. */
  function StreakThreshold(id: string): Option<int> {
    if id == "1" then Some(3)
    else if id == "2" then Some(7)
    else if id == "3" then Some(30)
    else None
  }

  /** A locked streak achievement whose threshold the streak has reached. */
  predicate Qualifies(a: Achievement, current: int) {
    a.kind == StreakKind && !a.unlocked && StreakThreshold(a.id).Some? && current >= StreakThreshold(a.id).value
  }

  function UnlockIfQualifies(a: Achievement, current: int, now: int): Achievement {
    if Qualifies(a, current) then a.(unlocked := true, unlockedAt := Some(now)) else a
  }

  /**
   * The streak-achievement loop: every qualifying achievement is unlocked and stamped; an
   * achievement already unlocked is never modified, and every other one is left alone.
   */
  function UnlockStreak(achs: seq<Achievement>, current: int, now: int): (r: seq<Achievement>)
    ensures |r| == |achs|
    ensures forall i :: 0 <= i < |achs| ==> r[i].id == achs[i].id && r[i].kind == achs[i].kind
    ensures forall i :: 0 <= i < |achs| && achs[i].unlocked ==> r[i] == achs[i]
    ensures forall i :: 0 <= i < |achs| ==> (r[i].unlocked <==> achs[i].unlocked || Qualifies(achs[i], current))
    ensures forall i :: 0 <= i < |achs| && !Qualifies(achs[i], current) ==> r[i] == achs[i]
    ensures forall i :: 0 <= i < |achs| && Qualifies(achs[i], current) ==>
              r[i] == achs[i].(unlocked := true, unlockedAt := Some(now))
  {
    seq(|achs|, i requires 0 <= i < |achs| => UnlockIfQualifies(achs[i], current, now))
  }

  /** With a streak of 30 or more, every streak achievement `'1'`–`'3'` ends up unlocked. */
  lemma LongStreakUnlocksAll(achs: seq<Achievement>, current: int, now: int, i: int)
    requires current >= 30 && 0 <= i < |achs|
    requires achs[i].kind == StreakKind && achs[i].id in ["1", "2", "3"]
    ensures UnlockStreak(achs, current, now)[i].unlocked
  {
    assert achs[i].id == "1" || achs[i].id == "2" || achs[i].id == "3";
  }

  // ---------------------------------------------------------------------------------
  // A practice day on an existing record
  // ---------------------------------------------------------------------------------

  /**
   * `recordDailyPractice` on an existing record: the minutes are added; unless the last
   * practice was on the same calendar day, the streak moves on (with the streak achievements
   * on a consecutive day), the weekly counter counts the day and the practice date is stamped.
   */
  function PracticeUpdate(p: Progress, minutes: int, now: int): Progress {
    var p1 := p.(practiceMinutes := p.practiceMinutes + minutes);
    if SameDay(p.streak.lastPracticeDate, now) then p1
    else
      var s := NextStreakAsWritten(p.streak, now);
      var achs := if DayBefore(p.streak.lastPracticeDate, now) then UnlockStreak(p.achievements, s.current, now)
                  else p.achievements;
      p1.(streak := s, achievements := achs, weeklyGoal := CountPracticeDay(p.weeklyGoal, now))
  }

  /** A second practice on the same calendar day only adds its minutes. */
  lemma SameDayOnlyAddsMinutes(p: Progress, minutes: int, now: int)
    requires SameDay(p.streak.lastPracticeDate, now)
    ensures PracticeUpdate(p, minutes, now) == p.(practiceMinutes := p.practiceMinutes + minutes)
  {
  }

  /**
   * On another day: the minutes are added, the streak grows by one on the next day and
   * restarts at 1 otherwise; `longest` is raised to the grown streak on the next day and kept
   * on any other day; the practice date becomes `now`, and lessons and fluency are untouched.
   */
  lemma NewDayUpdate(p: Progress, minutes: int, now: int)
    requires !SameDay(p.streak.lastPracticeDate, now)
    ensures var r := PracticeUpdate(p, minutes, now);
            var next := DayBefore(p.streak.lastPracticeDate, now);
            r.practiceMinutes == p.practiceMinutes + minutes &&
            r.streak == NextStreakAsWritten(p.streak, now) &&
            r.streak.current == (if next then p.streak.current + 1 else 1) &&
            (!next ==> r.streak.longest == p.streak.longest) &&
            r.streak.lastPracticeDate == now &&
            r.weeklyGoal == CountPracticeDay(p.weeklyGoal, now) &&
            r.lessonsCompleted == p.lessonsCompleted && r.fluencyScore == p.fluencyScore
  {
  }

  /** Practice never locks an achievement, and on a gap day no achievement changes. */
  lemma PracticeKeepsAchievements(p: Progress, minutes: int, now: int)
    ensures var r := PracticeUpdate(p, minutes, now);
            |r.achievements| == |p.achievements| &&
            (forall i :: 0 <= i < |p.achievements| && p.achievements[i].unlocked ==> r.achievements[i] == p.achievements[i]) &&
            (!DayBefore(p.streak.lastPracticeDate, now) ==> r.achievements == p.achievements)
  {
  }

  /**
   * What the code as written keeps of a streak: `current` is at most `longest`, or it is the
   * 1 of a restart that left a `longest` of 0 behind.
   */
  predicate StreakBounded(s: Streak) {
    0 <= s.longest && 0 <= s.current && (s.current <= s.longest || s.current == 1)
  }

  /** The record's invariants under the code as written: a bounded streak and a weekly counter within 0..7. */
  predicate ProgressValid(p: Progress) {
    StreakBounded(p.streak) && 0 <= p.weeklyGoal.current <= 7
  }

  /**
   * A practice keeps the record's invariants. It keeps `current <= longest` too once
   * `longest` is at least 1, but not on a record whose `longest` is still 0
   * (`DefaultRecordThenGapDay`).
   */
  lemma PracticeKeepsValid(p: Progress, minutes: int, now: int)
    requires ProgressValid(p)
    ensures ProgressValid(PracticeUpdate(p, minutes, now))
    ensures StreakValid(p.streak) && p.streak.longest >= 1 ==> StreakValid(PracticeUpdate(p, minutes, now).streak)
  {
  }

  // ---------------------------------------------------------------------------------
  // Handlers
  // ---------------------------------------------------------------------------------

  /** The record `getUserProgress` creates; `defaults` stands for `mockAchievements`. */
  function DefaultProgress(now: int, defaults: seq<Achievement>): Progress {
    Progress(0, 0, 0, WeeklyGoal(0, 5, Some(now)), Streak(0, 0, now), defaults)
  }

  /** The `else` branch of `getUserProgress`: stamp a missing reset date, or reset when due. */
  function Refreshed(p: Progress, now: int): (r: Progress)
    ensures r.weeklyGoal.target == p.weeklyGoal.target && r.streak == p.streak
    ensures r.practiceMinutes == p.practiceMinutes && r.achievements == p.achievements
    ensures r.lessonsCompleted == p.lessonsCompleted && r.fluencyScore == p.fluencyScore
    ensures p.weeklyGoal.lastResetDate.None? ==>
              r.weeklyGoal == p.weeklyGoal.(lastResetDate := Some(now))
  {
    match p.weeklyGoal.lastResetDate
    case None => p.(weeklyGoal := p.weeklyGoal.(lastResetDate := Some(now)))
    case Some(last) =>
      if ShouldResetWeeklyGoal(last, now) then p.(weeklyGoal := p.weeklyGoal.(current := 0, lastResetDate := Some(now)))
      else p
  }

  /**
   * `getUserProgress`: create the default record when there is none (counters 0, weekly
   * goal 0 of 5); otherwise zero the weekly counter when a reset is due.
   */
  function GetUserProgress(store: Option<Progress>, now: int, defaults: seq<Achievement>): (r: Handled)
    ensures r.reply == Ok && r.store.Some?
    ensures store.None? ==> r.store == Some(DefaultProgress(now, defaults))
    ensures store.Some? ==> r.store == Some(Refreshed(store.value, now))
  {
    match store
    case None => Handled(Ok, Some(DefaultProgress(now, defaults)))
    case Some(p) => Handled(Ok, Some(Refreshed(p, now)))
  }

  /**
   * Reading progress zeroes the counter exactly when `shouldResetWeeklyGoal` holds, and then a
   * new week has indeed begun since the last reset; otherwise the record is read unchanged.
   */
  lemma ReadResetsOnNewWeek(p: Progress, now: int, defaults: seq<Achievement>)
    requires p.weeklyGoal.lastResetDate.Some?
    ensures var last := p.weeklyGoal.lastResetDate.value;
            var r := GetUserProgress(Some(p), now, defaults).store.value;
            (ShouldResetWeeklyGoal(last, now) ==>
               r.weeklyGoal.current == 0 && r.weeklyGoal.lastResetDate == Some(now)) &&
            (ShouldResetWeeklyGoal(last, now) && last <= now ==> WeeklyResetDue(last, now)) &&
            (!ShouldResetWeeklyGoal(last, now) ==> r == p)
  {
    var last := p.weeklyGoal.lastResetDate.value;
    if ShouldResetWeeklyGoal(last, now) && last <= now {
      ShouldResetImpliesDue(last, now);
    }
  }

  /** Example: the counter read on Monday 01:00 after a reset the Monday before at 23:00 is not reset. */
  lemma ReadMissesMonday(p: Progress, defaults: seq<Achievement>)
    requires p.weeklyGoal.lastResetDate == Some(4 * DayMs + 23 * 3600000)
    ensures var now := 11 * DayMs + 3600000;
            WeeklyResetDue(p.weeklyGoal.lastResetDate.value, now) &&
            GetUserProgress(Some(p), now, defaults).store == Some(p)
  {
    ShouldResetMissesMonday();
  }

  /** Reading twice at the same instant reads the same record. */
  lemma ReadIsIdempotent(store: Option<Progress>, now: int, defaults: seq<Achievement>)
    ensures var once := GetUserProgress(store, now, defaults);
            GetUserProgress(once.store, now, defaults) == once
  {
  }

  const TargetMessage := "Weekly goal target must be between 1 and 7"

  /** `!target || target < 1 || target > 7`. */
  predicate TargetRejected(target: Option<int>) {
    target.None? || target.value < 1 || target.value > 7
  }

  /**
   * `updateWeeklyGoal`: refuse a target outside 1..7 with 400; create a record with the
   * schema defaults when there is none; otherwise change only the target.
   */
  function UpdateWeeklyGoal(store: Option<Progress>, target: Option<int>, now: int, defaults: seq<Achievement>): (r: Handled)
    ensures TargetRejected(target) ==> r == Handled(Reply(400, TargetMessage), store)
    ensures !TargetRejected(target) ==> r.reply == Ok && r.store.Some? && r.store.value.weeklyGoal.target == target.value
    ensures !TargetRejected(target) && store.Some? ==>
              r.store == Some(store.value.(weeklyGoal := store.value.weeklyGoal.(target := target.value)))
    ensures !TargetRejected(target) && store.None? ==>
              r.store == Some(Progress(0, 0, 0, WeeklyGoal(0, target.value, Some(now)), Streak(0, 0, now), defaults))
  {
    if TargetRejected(target) then Handled(Reply(400, TargetMessage), store)
    else match store
      case None =>
        Handled(Ok, Some(Progress(0, 0, 0, WeeklyGoal(0, target.value, Some(now)), Streak(0, 0, now), defaults)))
      case Some(p) => Handled(Ok, Some(p.(weeklyGoal := p.weeklyGoal.(target := target.value))))
  }

  const MinutesMessage := "Practice minutes must be at least 1"

  /**
   * `recordDailyPractice`: refuse missing minutes or fewer than 1 with 400; create a record
   * with the day counted (weekly 1 of 5, streak 1) when there is none; otherwise apply the
   * practice day.
   */
  function RecordDailyPractice(store: Option<Progress>, minutes: Option<int>, now: int,
                               defaults: seq<Achievement>): (r: Handled)
    ensures minutes.None? || minutes.value < 1 ==> r == Handled(Reply(400, MinutesMessage), store)
    ensures minutes.Some? && minutes.value >= 1 ==> r.reply == Ok && r.store.Some?
    ensures minutes.Some? && minutes.value >= 1 && store.Some? ==>
              r.store.value.practiceMinutes == store.value.practiceMinutes + minutes.value
    ensures minutes.Some? && minutes.value >= 1 && store.Some? ==>
              r.store == Some(PracticeUpdate(store.value, minutes.value, now))
    ensures minutes.Some? && minutes.value >= 1 && store.None? ==>
              var q := r.store.value;
              q.practiceMinutes == minutes.value && q.lessonsCompleted == 0 &&
              q.weeklyGoal == WeeklyGoal(1, 5, Some(now)) && q.streak == Streak(1, 1, now)
  {
    if minutes.None? || minutes.value < 1 then Handled(Reply(400, MinutesMessage), store)
    else match store
      case None =>
        Handled(Ok, Some(Progress(0, minutes.value, 0, WeeklyGoal(1, 5, Some(now)), Streak(1, 1, now), defaults)))
      case Some(p) => Handled(Ok, Some(PracticeUpdate(p, minutes.value, now)))
  }

  /**
   * Recording practice keeps the record's invariants, also on a freshly created record, whose
   * streak 1 of 1 has `current <= longest`.
   */
  lemma RecordKeepsValid(store: Option<Progress>, minutes: Option<int>, now: int, defaults: seq<Achievement>)
    requires store.Some? ==> ProgressValid(store.value)
    ensures var r := RecordDailyPractice(store, minutes, now, defaults);
            r.store.Some? ==> ProgressValid(r.store.value)
    ensures var r := RecordDailyPractice(store, minutes, now, defaults);
            store.None? && r.store.Some? ==> StreakValid(r.store.value.streak)
  {
    if store.Some? && minutes.Some? && minutes.value >= 1 {
      PracticeKeepsValid(store.value, minutes.value, now);
    }
  }

  /**
   * The record `getUserProgress` creates (streak 0, longest 0), then a practice two days
   * later: the streak restarts at 1 and `longest` stays 0.
   */
  lemma DefaultRecordThenGapDay(created: int, minutes: int, defaults: seq<Achievement>)
    requires minutes >= 1
    ensures var p := GetUserProgress(None, created, defaults).store;
            var r := RecordDailyPractice(p, Some(minutes), created + 2 * DayMs, defaults).store.value;
            r.streak.current == 1 && r.streak.longest == 0 && !StreakValid(r.streak)
  {
    var now := created + 2 * DayMs;
    assert DayNumber(now) == DayNumber(created) + 2;
  }

  // ---------------------------------------------------------------------------------
  // The record as a document updated in place
  // ---------------------------------------------------------------------------------

  /** A loaded `UserProgress` document; the handlers assign its fields and then save it. */
  class ProgressDocument {
    var lessonsCompleted: nat
    var practiceMinutes: int
    var fluencyScore: int
    var weeklyGoal: WeeklyGoal
    var streak: Streak
    var achievements: seq<Achievement>

    function State(): Progress
      reads this
    {
      Progress(lessonsCompleted, practiceMinutes, fluencyScore, weeklyGoal, streak, achievements)
    }

    constructor (p: Progress)
      ensures State() == p
    {
      lessonsCompleted := p.lessonsCompleted;
      practiceMinutes := p.practiceMinutes;
      fluencyScore := p.fluencyScore;
      weeklyGoal := p.weeklyGoal;
      streak := p.streak;
      achievements := p.achievements;
    }

    /** The `for` loop over the locked streak achievements. */
    method UnlockStreakAchievements(now: int)
      modifies this
      ensures State() == old(State()).(achievements := UnlockStreak(old(achievements), streak.current, now))
    {
      var i := 0;
      while i < |achievements|
        invariant 0 <= i <= |achievements| == |old(achievements)|
        invariant forall j :: 0 <= j < i ==> achievements[j] == UnlockIfQualifies(old(achievements)[j], streak.current, now)
        invariant achievements[i..] == old(achievements)[i..]
        invariant State() == old(State()).(achievements := achievements)
        decreases |achievements| - i
      {
        var a := achievements[i];
        if a.kind == StreakKind && !a.unlocked {
          if (a.id == "1" && streak.current >= 3) || (a.id == "2" && streak.current >= 7) ||
             (a.id == "3" && streak.current >= 30) {
            achievements := achievements[i := a.(unlocked := true, unlockedAt := Some(now))];
          }
        }
        i := i + 1;
      }
      assert achievements == UnlockStreak(old(achievements), streak.current, now);
    }

    /** The streak branch of a practice day that is not the day of the last practice. */
    method AdvanceStreak(now: int)
      modifies this
      ensures State() == old(State()).(streak := NextStreakAsWritten(old(streak), now))
    {
      if DayNumber(streak.lastPracticeDate) == DayNumber(now) - 1 {
        streak := streak.(current := streak.current + 1);
        if streak.current > streak.longest {
          streak := streak.(longest := streak.current);
        }
      } else {
        streak := streak.(current := 1);
      }
      streak := streak.(lastPracticeDate := now);
    }

    /** The weekly-counter branch of a practice day that is not the day of the last practice. */
    method CountWeeklyDay(now: int)
      modifies this
      ensures State() == old(State()).(weeklyGoal := CountPracticeDay(old(weeklyGoal), now))
    {
      if weeklyGoal.lastResetDate.None? {
        weeklyGoal := weeklyGoal.(lastResetDate := Some(now), current := 1);
      } else if ShouldResetWeeklyGoal(weeklyGoal.lastResetDate.value, now) {
        weeklyGoal := weeklyGoal.(current := 1, lastResetDate := Some(now));
      } else {
        weeklyGoal := weeklyGoal.(current := weeklyGoal.current + 1);
        if weeklyGoal.current > 7 {
          weeklyGoal := weeklyGoal.(current := 7);
        }
      }
    }

    /** `recordDailyPractice` on an existing document. */
    method RecordPractice(minutes: int, now: int)
      modifies this
      ensures State() == PracticeUpdate(old(State()), minutes, now)
    {
      practiceMinutes := practiceMinutes + minutes;
      if DayNumber(streak.lastPracticeDate) != DayNumber(now) {
        var consecutive := DayNumber(streak.lastPracticeDate) == DayNumber(now) - 1;
        AdvanceStreak(now);
        if consecutive {
          UnlockStreakAchievements(now);
        }
        CountWeeklyDay(now);
      }
    }

    /** The `else` branch of `getUserProgress`. */
    method Refresh(now: int)
      modifies this
      ensures State() == Refreshed(old(State()), now)
    {
      if weeklyGoal.lastResetDate.None? {
        weeklyGoal := weeklyGoal.(lastResetDate := Some(now));
      } else if ShouldResetWeeklyGoal(weeklyGoal.lastResetDate.value, now) {
        weeklyGoal := weeklyGoal.(current := 0, lastResetDate := Some(now));
      }
    }

    /** The `else` branch of `updateWeeklyGoal`. */
    method SetWeeklyTarget(target: int)
      modifies this
      ensures State() == old(State()).(weeklyGoal := old(weeklyGoal).(target := target))
    {
      weeklyGoal := weeklyGoal.(target := target);
    }
  }
}

=== FILE: recognition.dfy ===
/**
 * The chat component's handling of the speech recogniser: the guarded start and stop, the
 * classification of recognition errors, the collection of transcripts from a result event,
 * and the call-mode status line.
 */
module Recognition {

  // ---------------------------------------------------------------------------------
  // Guarded start and stop
  // ---------------------------------------------------------------------------------

  /**
   * The recogniser as the component sees it: whether one was created (`recognitionRef.current`),
   * the `recognitionRunningRef` flag, and how many times `start()`/`stop()` were called on it.
   */
  datatype Engine = Engine(present: bool, running: bool, starts: nat, stops: nat)

  datatype Started = Started(engine: Engine, started: bool)

  /**
   * `safeStartRecognition()`; `throws` says whether the engine's `start()` throws. Without a
   * recogniser, or while it runs, nothing is called and the answer is false.
   */
  function GuardedStart(e: Engine, throws: bool): (r: Started)
    ensures !e.present || e.running ==> r == Started(e, false)
    ensures r.started <==> e.present && !e.running && !throws
    ensures r.engine.running <==> e.running || r.started
    ensures r.engine.present == e.present && r.engine.stops == e.stops
    ensures r.engine.starts == e.starts + (if e.present && !e.running then 1 else 0)
  {
    if !e.present then Started(e, false)
    else if e.running then Started(e, false)
    else if throws then Started(e.(starts := e.starts + 1, running := false), false)
    else Started(e.(starts := e.starts + 1, running := true), true)
  }

  /**
   * `safeStopRecognition()`; `throws` says whether the engine's `stop()` throws, after which
   * the flag is reset all the same. Without a recogniser, or when it is not running, nothing
   * is called.
   */
  function GuardedStop(e: Engine, throws: bool): (r: Engine)
    ensures !e.present || !e.running ==> r == e
    ensures e.present && e.running ==> r == e.(running := false, stops := e.stops + 1)
  {
    if !e.present then e
    else if !e.running then e
    // the flag is cleared whether or not `stop()` throws
    else e.(stops := e.stops + 1, running := false)
  }

  /** A start that succeeded makes a second start a no-op that answers false. */
  lemma StartTwiceIsStartOnce(e: Engine, throws1: bool, throws2: bool)
    requires GuardedStart(e, throws1).started
    ensures GuardedStart(GuardedStart(e, throws1).engine, throws2) == Started(GuardedStart(e, throws1).engine, false)
  {
  }

  /** Stopping twice has the effect of stopping once, whatever either `stop()` call does. */
  lemma StopTwiceIsStopOnce(e: Engine, throws1: bool, throws2: bool)
    ensures GuardedStop(GuardedStop(e, throws1), throws2) == GuardedStop(e, throws1)
  {
  }

  /** After a start attempt, a stop leaves the recogniser not running. */
  lemma StopAfterStart(e: Engine, throws1: bool, throws2: bool)
    requires e.present
    ensures !GuardedStop(GuardedStart(e, throws1).engine, throws2).running
  {
  }

  // ---------------------------------------------------------------------------------
  // Recognition errors
  // ---------------------------------------------------------------------------------

  /** The error codes after which the component gives up on recognition. */
  const FatalErrors: seq<string> := ["not-allowed", "service-not-allowed", "bad-grammar", "language-not-supported"]

  datatype ErrorClass = Fatal | Transient | Unknown

  function Classify(error: string): ErrorClass {
    if error in FatalErrors then Fatal
    else if error == "aborted" || error == "no-speech" then Transient
    else Unknown
  }

  /** The component state the recognition `onerror` handler reads and writes. */
  datatype Listening = Listening(listening: bool, callMode: bool, running: bool, restartScheduled: bool)

  /**
   * `recognition.onerror`: the running flag always drops. A fatal error switches listening
   * and call mode off; `aborted` and `no-speech` schedule a restart when the component is
   * listening in call mode, and otherwise switch listening off; any other error switches
   * listening off.
   */
  function OnRecognitionError(s: Listening, error: string): (r: Listening)
    ensures !r.running
    ensures r.callMode == (s.callMode && Classify(error) != Fatal)
    ensures r.restartScheduled == (s.restartScheduled ||
                                   (Classify(error) == Transient && s.listening && s.callMode))
    ensures r.listening == (Classify(error) == Transient && s.listening && s.callMode)
  {
    match Classify(error)
    case Fatal => s.(running := false, listening := false, callMode := false)
    case Transient =>
      if s.listening && s.callMode then s.(running := false, restartScheduled := true)
      else s.(running := false, listening := false)
    case Unknown => s.(running := false, listening := false)
  }

  /** The four fatal codes, and only they, end the call. */
  lemma FatalErrorsEndCall(s: Listening, error: string)
    requires s.callMode
    ensures !OnRecognitionError(s, error).callMode <==>
              error == "not-allowed" || error == "service-not-allowed" ||
              error == "bad-grammar" || error == "language-not-supported"
  {
  }

  /** An error is never followed by listening outside call mode. */
  lemma ErrorNeverListensOutsideCall(s: Listening, error: string)
    ensures var r := OnRecognitionError(s, error); r.listening ==> r.callMode && r.restartScheduled
  {
  }

  // ---------------------------------------------------------------------------------
  // Result events
  // ---------------------------------------------------------------------------------

  /** One entry of `event.results`: its first alternative's transcript and whether it is final. */
  datatype SpeechResult = SpeechResult(transcript: string, isFinal: bool)

  /** The transcripts of the final results, in order. */
  function FinalText(results: seq<SpeechResult>): string
    decreases |results|
  {
    if results == [] then ""
    else
      var last := results[|results| - 1];
      FinalText(results[..|results| - 1]) + (if last.isFinal then last.transcript else "")
  }

  /** The transcripts of the results that are not final, in order. */
  function InterimText(results: seq<SpeechResult>): string
    decreases |results|
  {
    if results == [] then ""
    else
      var last := results[|results| - 1];
      InterimText(results[..|results| - 1]) + (if last.isFinal then "" else last.transcript)
  }

  /** The results whose `isFinal` is `final`, in their order. */
  function Select(results: seq<SpeechResult>, final: bool): (r: seq<SpeechResult>)
    ensures forall i :: 0 <= i < |r| ==> r[i].isFinal == final
    decreases |results|
  {
    if results == [] then []
    else
      var last := results[|results| - 1];
      Select(results[..|results| - 1], final) + (if last.isFinal == final then [last] else [])
  }

  /** The transcripts of some results, concatenated in order. */
  function Transcripts(results: seq<SpeechResult>): string
    decreases |results|
  {
    if results == [] then "" else Transcripts(results[..|results| - 1]) + results[|results| - 1].transcript
  }

  /**
   * Every transcript lands in exactly one of the two texts, in order: the final text is the
   * transcripts of the final results and the interim text those of the others; the two
   * selections split the results, and their lengths add up.
   */
  lemma TextsPartition(results: seq<SpeechResult>)
    ensures FinalText(results) == Transcripts(Select(results, true))
    ensures InterimText(results) == Transcripts(Select(results, false))
    ensures multiset(Select(results, true)) + multiset(Select(results, false)) == multiset(results)
    ensures |FinalText(results)| + |InterimText(results)| == TotalLength(results)
  {
    FinalInOrder(results);
    InterimInOrder(results);
    SelectionsSplit(results);
    TextLengths(results);
  }

  lemma {:induction false} FinalInOrder(results: seq<SpeechResult>)
    ensures FinalText(results) == Transcripts(Select(results, true))
    decreases |results|
  {
    if results != [] {
      var init := results[..|results| - 1];
      var last := results[|results| - 1];
      FinalInOrder(init);
      if last.isFinal {
        assert FinalText(results) == FinalText(init) + last.transcript;
        assert Select(results, true) == Select(init, true) + [last];
        TranscriptsSnoc(Select(init, true), last);
      } else {
        assert FinalText(results) == FinalText(init) + "";
        assert Select(results, true) == Select(init, true) + [];
        assert Select(init, true) + [] == Select(init, true);
      }
    }
  }

  lemma {:induction false} InterimInOrder(results: seq<SpeechResult>)
    ensures InterimText(results) == Transcripts(Select(results, false))
    decreases |results|
  {
    if results != [] {
      var init := results[..|results| - 1];
      var last := results[|results| - 1];
      InterimInOrder(init);
      if !last.isFinal {
        assert InterimText(results) == InterimText(init) + last.transcript;
        assert Select(results, false) == Select(init, false) + [last];
        TranscriptsSnoc(Select(init, false), last);
      } else {
        assert InterimText(results) == InterimText(init) + "";
        assert Select(results, false) == Select(init, false) + [];
        assert Select(init, false) + [] == Select(init, false);
      }
    }
  }

  lemma {:induction false} SelectionsSplit(results: seq<SpeechResult>)
    ensures multiset(Select(results, true)) + multiset(Select(results, false)) == multiset(results)
    decreases |results|
  {
    if results != [] {
      var init := results[..|results| - 1];
      var last := results[|results| - 1];
      SelectionsSplit(init);
      assert results == init + [last];
    }
  }

  lemma {:induction false} TextLengths(results: seq<SpeechResult>)
    ensures |FinalText(results)| + |InterimText(results)| == TotalLength(results)
    decreases |results|
  {
    if results != [] {
      TextLengths(results[..|results| - 1]);
    }
  }

  lemma TranscriptsSnoc(rs: seq<SpeechResult>, r: SpeechResult)
    ensures Transcripts(rs + [r]) == Transcripts(rs) + r.transcript
  {
    var all := rs + [r];
    assert all[..|all| - 1] == rs && all[|all| - 1] == r;
  }

  function TotalLength(results: seq<SpeechResult>): nat
    decreases |results|
  {
    if results == [] then 0 else TotalLength(results[..|results| - 1]) + |results[|results| - 1].transcript|
  }

  /**
   * The loop of `recognition.onresult`: walk `event.results` from `resultIndex`, adding each
   * transcript to the final or the interim text.
   */
  method CollectTranscripts(results: seq<SpeechResult>, resultIndex: nat) returns (final: string, interim: string)
    ensures resultIndex < |results| ==>
              final == FinalText(results[resultIndex..]) && interim == InterimText(results[resultIndex..])
    ensures resultIndex >= |results| ==> final == "" && interim == ""
  {
    final := "";
    interim := "";
    var i := resultIndex;
    while i < |results|
      invariant resultIndex < |results| ==> resultIndex <= i <= |results|
      invariant resultIndex < |results| ==>
                  final == FinalText(results[resultIndex..i]) && interim == InterimText(results[resultIndex..i])
      invariant resultIndex >= |results| ==> final == "" && interim == ""
      decreases |results| - i
    {
      assert results[resultIndex..i + 1][..i - resultIndex] == results[resultIndex..i];
      if results[i].isFinal {
        final := final + results[i].transcript;
      } else {
        interim := interim + results[i].transcript;
      }
      i := i + 1;
    }
    if resultIndex < |results| {
      assert results[resultIndex..i] == results[resultIndex..];
    }
  }

  /** The speech shown and accumulated in call mode. */
  datatype Transcript = Transcript(detected: string, visible: string, interim: string)

  /**
   * The state updates of `recognition.onresult` for the collected texts. When both texts are
   * non-empty the later updates win: the interim transcript is cleared and the visible text
   * is the new detected speech followed by the interim text.
   */
  function ShowResult(s: Transcript, final: string, interim: string): (r: Transcript)
    ensures final == "" && interim == "" ==> r == s
    ensures final == "" ==> r.detected == s.detected
    ensures final != "" ==> r.detected == s.detected + " " + final && r.interim == ""
    ensures final != "" || interim != "" ==> r.visible == r.detected + " " + interim
    ensures final == "" && interim != "" ==> r.interim == interim
  {
    var s1 := if interim != "" then s.(interim := interim, visible := s.detected + " " + interim) else s;
    if final != "" then
      var updated := s.detected + " " + final;
      s1.(detected := updated, visible := updated + " " + interim, interim := "")
    else s1
  }

  /** Accumulated speech only ever grows, by the final transcripts of each event. */
  lemma {:induction false} DetectedGrows(s: Transcript, events: seq<seq<SpeechResult>>)
    ensures s.detected <= ApplyResults(s, events).detected
    decreases |events|
  {
    if events != [] {
      var init := events[..|events| - 1];
      DetectedGrows(s, init);
      var prev := ApplyResults(s, init);
      var e := events[|events| - 1];
      var r := ShowResult(prev, FinalText(e), InterimText(e));
      assert prev.detected <= r.detected;
    }
  }

  /** A sequence of result events, each with `resultIndex` 0. */
  function ApplyResults(s: Transcript, events: seq<seq<SpeechResult>>): Transcript
    decreases |events|
  {
    if events == [] then s
    else
      var e := events[|events| - 1];
      ShowResult(ApplyResults(s, events[..|events| - 1]), FinalText(e), InterimText(e))
  }

  // ---------------------------------------------------------------------------------
  // Status line
  // ---------------------------------------------------------------------------------

  datatype Status = Status(listening: bool, speaking: bool, pendingRestart: bool, processing: bool)

  /** `getCallStatusMessage()`: the first flag set, in priority order, picks the message. */
  function CallStatusMessage(s: Status): (m: string)
    ensures m == "Listening..." <==> s.listening
    ensures m == "Speaking..." <==> !s.listening && s.speaking
    ensures m == "Preparing to listen..." <==> !s.listening && !s.speaking && s.pendingRestart
    ensures m == "Processing..." <==> !s.listening && !s.speaking && !s.pendingRestart && s.processing
    ensures m == "Call Active" <==> !s.listening && !s.speaking && !s.pendingRestart && !s.processing
  {
    if s.listening then "Listening..."
    else if s.speaking then "Speaking..."
    else if s.pendingRestart then "Preparing to listen..."
    else if s.processing then "Processing..."
    else "Call Active"
  }

  // ---------------------------------------------------------------------------------
  // The component's recognition state
  // ---------------------------------------------------------------------------------

  /** The refs and state the recognition callbacks update. */
  class RecognitionControl {
    var present: bool
    var running: bool
    var starts: nat
    var stops: nat
    var listening: bool
    var callMode: bool
    var restartScheduled: bool
    var detected: string
    var visible: string
    var interim: string

    function EngineState(): Engine
      reads this
    {
      Engine(present, running, starts, stops)
    }

    function ListeningState(): Listening
      reads this
    {
      Listening(listening, callMode, running, restartScheduled)
    }

    function TranscriptState(): Transcript
      reads this
    {
      Transcript(detected, visible, interim)
    }

    constructor (present: bool)
      ensures EngineState() == Engine(present, false, 0, 0)
      ensures ListeningState() == Listening(false, false, false, false)
      ensures TranscriptState() == Transcript("", "", "")
    {
      this.present := present;
      running := false;
      starts := 0;
      stops := 0;
      listening := false;
      callMode := false;
      restartScheduled := false;
      detected := "";
      visible := "";
      interim := "";
    }

    /** `safeStartRecognition()`. */
    method SafeStart(throws: bool) returns (started: bool)
      modifies this
      ensures Started(EngineState(), started) == GuardedStart(old(EngineState()), throws)
      ensures ListeningState() == old(ListeningState()).(running := running)
      ensures TranscriptState() == old(TranscriptState())
    {
      if !present {
        return false;
      }
      if running {
        return false;
      }
      starts := starts + 1;
      if throws {
        running := false;
        return false;
      }
      running := true;
      return true;
    }

    /** `safeStopRecognition()`. */
    method SafeStop(throws: bool)
      modifies this
      ensures EngineState() == GuardedStop(old(EngineState()), throws)
      ensures ListeningState() == old(ListeningState()).(running := running)
      ensures TranscriptState() == old(TranscriptState())
    {
      if !present {
        return;
      }
      if !running {
        return;
      }
      stops := stops + 1;
      running := false;
    }

    /** `recognition.onerror`. */
    method OnError(error: string)
      modifies this
      ensures ListeningState() == OnRecognitionError(old(ListeningState()), error)
      ensures EngineState() == old(EngineState()).(running := false)
      ensures TranscriptState() == old(TranscriptState())
    {
      running := false;
      if error in FatalErrors {
        listening := false;
        callMode := false;
      } else if error == "aborted" || error == "no-speech" {
        if listening && callMode {
          restartScheduled := true;
        } else {
          listening := false;
        }
      } else {
        listening := false;
      }
    }

    /** `recognition.onresult`. */
    method OnResult(results: seq<SpeechResult>, resultIndex: nat)
      modifies this
      ensures resultIndex < |results| ==>
                TranscriptState() == ShowResult(old(TranscriptState()),
                                                FinalText(results[resultIndex..]), InterimText(results[resultIndex..]))
      ensures resultIndex >= |results| ==> TranscriptState() == old(TranscriptState())
      ensures EngineState() == old(EngineState()) && ListeningState() == old(ListeningState())
    {
      var final, interimText := CollectTranscripts(results, resultIndex);
      if interimText != "" {
        interim := interimText;
        visible := detected + " " + interimText;
      }
      if final != "" {
        var updated := detected + " " + final;
        detected := updated;
        visible := updated + " " + interimText;
        interim := "";
      }
    }
  }
}

=== FILE: relay.dfy ===
/**
 * The server side of the AI response stream (`backend/src/routes/api/ai.ts`):
 * prompt submission, the stream request guard, the discovery loop that waits for the
 * generator to link a response to the prompt, and the 500 ms polling loop that relays
 * an append-only token array to the client as Server-Sent Events.
 *
 * Each interval tick and each discovery poll is one atomic step; the current time and
 * what the database returns are parameters.
 */
module StreamRelay {
  import opened Wrappers
  import opened Events

  // ---------------------------------------------------------------------------------
  // Constants of the relay
  // ---------------------------------------------------------------------------------

  /** Discovery gives up after this many unsuccessful polls (20 x 500 ms). */
  const MaxAttempts: nat := 20
  /** A missing response record is waited for this long (ms) after it was first missed. */
  const AbsenceLimitMs: int := 5000
  /** The stream ends after this long (ms) without forwarding a token. */
  const InactivityLimitMs: int := 60000

  const PromptNotFound := "Error: Prompt not found after multiple attempts."
  const NoResponseGenerated := "Error: No response generated within the time limit."
  const InvalidResponseId := "Error: Invalid response ID format."
  const ResponseNotFound := "Error: Response not found after waiting."
  const InactivityTimeout := "Error: Stream timed out due to inactivity."
  const StreamServerError := "Error: Stream encountered a server error."

  // ---------------------------------------------------------------------------------
  // POST /prompt
  // ---------------------------------------------------------------------------------

  /** The document inserted into the `prompts` collection. */
  datatype PromptRecord = PromptRecord(userId: string, message: string, createdAt: int,
                                       processed: bool, processing: bool)

  /** The JSON reply of POST /prompt. */
  datatype PromptReply = PromptReply(status: nat, success: bool, promptId: Option<string>,
                                     error: Option<string>)

  /** The reply, how many reconnects were tried, and what was inserted. */
  datatype PromptOutcome = PromptOutcome(reply: PromptReply, reconnects: nat,
                                         inserted: Option<PromptRecord>)

  /** JavaScript truthiness of an optional string: absent and `''` are falsy. */
  predicate Truthy(s: Option<string>) {
    s.Some? && s.value != ""
  }

  /**
   * POST /prompt. `dbReady` says whether the module-level database handle is set;
   * `reconnectOk` is what the single reconnect attempt returns; `insertOk` is false when
   * `insertOne` throws; `newId` is the id the database assigns.
   */
  function SubmitPrompt(message: Option<string>, userId: Option<string>, dbReady: bool,
                        reconnectOk: bool, insertOk: bool, newId: string, now: int): (r: PromptOutcome)
    // a falsy message is refused before anything else happens
    ensures r.reply.status == 400 <==> !Truthy(message)
    // exactly one reconnect is tried, and only when the handle is missing
    ensures r.reconnects == (if Truthy(message) && !dbReady then 1 else 0)
    ensures r.reply.status == 503 <==> Truthy(message) && !dbReady && !reconnectOk
    // a record is stored exactly when the reply is 201, and it is the unprocessed prompt
    ensures r.inserted.Some? <==> r.reply.status == 201
    ensures r.reply.success <==> r.reply.status == 201
    ensures r.reply.status == 201 ==>
              r.reply.promptId == Some(newId) &&
              r.inserted == Some(PromptRecord(if Truthy(userId) then userId.value else "anonymous",
                                              message.value, now, false, false))
    ensures r.reply.status in {201, 400, 500, 503}
  {
    if !Truthy(message) then
      PromptOutcome(PromptReply(400, false, None, Some("Message is required")), 0, None)
    else if !dbReady && !reconnectOk then
      PromptOutcome(PromptReply(503, false, None, Some("AI service unavailable")), 1, None)
    else
      var reconnects := if dbReady then 0 else 1;
      if !insertOk then
        PromptOutcome(PromptReply(500, false, None, Some("Server error")), reconnects, None)
      else
        var user := if Truthy(userId) then userId.value else "anonymous";
        var record := PromptRecord(user, message.value, now, false, false);
        PromptOutcome(PromptReply(201, true, Some(newId), None), reconnects, Some(record))
  }

  // ---------------------------------------------------------------------------------
  // GET /stream/:promptId — the guard before the event stream is opened
  // ---------------------------------------------------------------------------------

  /** Either a plain JSON error reply, or the event-stream headers are sent. */
  datatype StreamStart = JsonError(status: nat, error: string) | EventStreamOpened

  /**
   * `promptIdValid` is the verdict of the ObjectId format check on the path parameter.
   */
  function OpenStream(promptIdValid: bool, dbReady: bool, reconnectOk: bool): (r: StreamStart)
    // a malformed id is answered with JSON 400 and no event-stream header
    ensures !promptIdValid ==> r == JsonError(400, "Invalid prompt ID format")
    // the event stream opens exactly when the id is well formed and a database handle exists
    ensures r.EventStreamOpened? <==> promptIdValid && (dbReady || reconnectOk)
  {
    if !promptIdValid then JsonError(400, "Invalid prompt ID format")
    else if !dbReady && !reconnectOk then JsonError(503, "AI service unavailable")
    else EventStreamOpened
  }

  // ---------------------------------------------------------------------------------
  // Discovery: wait until the generator links a response to the prompt
  // ---------------------------------------------------------------------------------

  /** What one `findOne` on the prompts collection shows. */
  datatype PromptLookup =
    | PromptMissing
    | AwaitingResponse
    | Linked(responseId: string, wellFormed: bool)

  /** How discovery ends, and after how many polls. */
  datatype Discovery = Found(responseId: string, polls: nat) | Failed(message: string, polls: nat)

  /** The message written when the attempt budget runs out on a lookup of this kind. */
  function GiveUpMessage(l: PromptLookup): string {
    if l.PromptMissing? then PromptNotFound else NoResponseGenerated
  }

  /**
   * The outcome of discovery when `attempts` polls have failed so far; `lookups(i)` is what
   * the i-th poll (counting from 0) sees.
   */
  function DiscoverFrom(lookups: nat -> PromptLookup, attempts: nat): Discovery
    requires attempts < MaxAttempts
    decreases MaxAttempts - attempts
  {
    match lookups(attempts)
    case Linked(id, ok) =>
      if ok then Found(id, attempts + 1) else Failed(InvalidResponseId, attempts + 1)
    case _ =>
      if attempts + 1 >= MaxAttempts then Failed(GiveUpMessage(lookups(attempts)), attempts + 1)
      else DiscoverFrom(lookups, attempts + 1)
  }

  /** No poll before `n` found a linked prompt. */
  predicate Unlinked(lookups: nat -> PromptLookup, n: nat) {
    forall i :: 0 <= i < n ==> !lookups(i).Linked?
  }

  /**
   * Discovery is bounded: it polls at most `MaxAttempts` times; it finds the response id of
   * the first linked prompt when that link is well formed; it fails at once on a malformed
   * link; and it gives up at exactly `MaxAttempts` polls with the message of the last poll.
   */
  lemma {:induction false} DiscoveryOutcome(lookups: nat -> PromptLookup, attempts: nat)
    requires attempts < MaxAttempts
    requires Unlinked(lookups, attempts)
    ensures var d := DiscoverFrom(lookups, attempts);
            attempts < d.polls <= MaxAttempts &&
            Unlinked(lookups, d.polls - 1) &&
            (d.Found? <==> lookups(d.polls - 1).Linked? && lookups(d.polls - 1).wellFormed) &&
            (d.Found? ==> d.responseId == lookups(d.polls - 1).responseId) &&
            (d.Failed? && d.polls < MaxAttempts ==> d.message == InvalidResponseId) &&
            (d.Failed? && !lookups(d.polls - 1).Linked? ==>
               d.polls == MaxAttempts && d.message == GiveUpMessage(lookups(MaxAttempts - 1)))
    decreases MaxAttempts - attempts
  {
    if !lookups(attempts).Linked? && attempts + 1 < MaxAttempts {
      DiscoveryOutcome(lookups, attempts + 1);
    }
  }

  /** When no poll ever sees a link, exactly `MaxAttempts` polls are made and discovery fails. */
  lemma NeverLinkedTimesOut(lookups: nat -> PromptLookup)
    requires Unlinked(lookups, MaxAttempts)
    ensures DiscoverFrom(lookups, 0) == Failed(GiveUpMessage(lookups(MaxAttempts - 1)), MaxAttempts)
  {
    DiscoveryOutcome(lookups, 0);
  }

  /**
   * The discovery `while` loop. It returns how discovery ended and the events it wrote:
   * exactly one error event when it fails, none when it finds the response id.
   */
  method Discover(lookups: nat -> PromptLookup) returns (d: Discovery, written: seq<Event>)
    ensures d == DiscoverFrom(lookups, 0)
    ensures written == if d.Failed? then [Error(d.message)] else []
  {
    var responseId: Option<string> := None;
    var findPromptAttempts: nat := 0;
    written := [];
    while responseId.None? && findPromptAttempts < MaxAttempts
      invariant findPromptAttempts < MaxAttempts
      invariant responseId.None? ==> DiscoverFrom(lookups, findPromptAttempts) == DiscoverFrom(lookups, 0)
      invariant responseId.Some? ==>
                  DiscoverFrom(lookups, 0) == Found(responseId.value, findPromptAttempts + 1)
      invariant written == []
      decreases MaxAttempts - findPromptAttempts, if responseId.None? then 1 else 0
    {
      var prompt := lookups(findPromptAttempts);
      match prompt {
        case PromptMissing =>
          findPromptAttempts := findPromptAttempts + 1;
          if findPromptAttempts >= MaxAttempts {
            d := Failed(PromptNotFound, findPromptAttempts);
            written := [Error(PromptNotFound)];
            return;
          }
        case Linked(id, wellFormed) =>
          if !wellFormed {
            d := Failed(InvalidResponseId, findPromptAttempts + 1);
            written := [Error(InvalidResponseId)];
            return;
          }
          responseId := Some(id);
        case AwaitingResponse =>
          findPromptAttempts := findPromptAttempts + 1;
          if findPromptAttempts >= MaxAttempts {
            d := Failed(NoResponseGenerated, findPromptAttempts);
            written := [Error(NoResponseGenerated)];
            return;
          }
      }
    }
    // The loop leaves only with a response id (the invariant keeps the attempt count below
    // the bound), so the source's "Failed to get response ID" branch cannot run.
    d := Found(responseId.value, findPromptAttempts + 1);
  }

  // ---------------------------------------------------------------------------------
  // The polling loop
  // ---------------------------------------------------------------------------------

  /** The response document as read by one tick: `tokens` may be missing. */
  datatype ResponseRecord = ResponseRecord(tokens: Option<seq<string>>, complete: bool)

  /** What one tick's `findOne` on the responses collection does. */
  datatype Lookup = Threw | Absent | Present(record: ResponseRecord)

  /**
   * The state of one stream: the closure variables `previousLength` and `lastUpdate`,
   * the `startTime` stamped on the interval (0 while unset, as the source tests it for
   * falsiness), whether the interval is still set, whether `res.end()` was called, the
   * events the client received, and writes attempted after the response had ended.
   */
  datatype Session = Session(previousLength: nat, lastUpdate: int, startTime: int,
                             polling: bool, ended: bool,
                             delivered: seq<Event>, lateWrites: seq<Event>)

  /** The session right after discovery: `lastUpdate` is the time streaming starts. */
  function Start(now: int): Session {
    Session(0, now, 0, true, false, [], [])
  }

  /** `res.write`: reaches the client only while the response has not ended. */
  function Write(s: Session, e: Event): Session {
    if s.ended then s.(lateWrites := s.lateWrites + [e]) else s.(delivered := s.delivered + [e])
  }

  /** `clearInterval`, one write, then `res.end()`. */
  function Finish(s: Session, e: Event): Session {
    Write(s.(polling := false), e).(ended := true)
  }

  /** The number of tokens in the record, when it has a token array. */
  predicate HasMoreTokens(s: Session, rec: ResponseRecord) {
    rec.tokens.Some? && |rec.tokens.value| > s.previousLength
  }

  /** The first half of a tick on a present record: forward the unsent suffix, if any. */
  function SendNew(s: Session, now: int, rec: ResponseRecord): Session {
    if HasMoreTokens(s, rec) then
      var tokens := rec.tokens.value;
      Write(s, Tokens(tokens[s.previousLength..], !rec.complete, |tokens|))
        .(previousLength := |tokens|, lastUpdate := now)
    else s
  }

  /** The completion test: complete, a token array, and every token of it forwarded. */
  predicate CompletionDue(s: Session, rec: ResponseRecord) {
    rec.complete && rec.tokens.Some? && s.previousLength >= |rec.tokens.value|
  }

  /**
   * One interval tick. A cleared interval never fires again. The completion branch does
   * not return, so the inactivity test still runs after it, as in the source.
   */
  function Step(s: Session, now: int, lookup: Lookup): Session {
    if !s.polling then s
    else
      match lookup
      case Threw => Finish(s, Error(StreamServerError))
      case Absent =>
        var s1 := if s.startTime == 0 then s.(startTime := now) else s;
        if now - s1.startTime > AbsenceLimitMs then Finish(s1, Error(ResponseNotFound)) else s1
      case Present(rec) =>
        var s1 := SendNew(s, now, rec);
        var s2 := if CompletionDue(s1, rec) then Finish(s1, Complete(|rec.tokens.value|)) else s1;
        if now - s2.lastUpdate > InactivityLimitMs then Finish(s2, Error(InactivityTimeout)) else s2
  }

  /** A tick of the timer: its time and what its lookup returned. */
  datatype Tick = Tick(now: int, lookup: Lookup)

  /** The session after a sequence of ticks. */
  function Run(s: Session, ticks: seq<Tick>): Session
    decreases |ticks|
  {
    if ticks == [] then s else Run(Step(s, ticks[0].now, ticks[0].lookup), ticks[1..])
  }

  /** The client disconnected: the interval is cleared. */
  function ClientClosed(s: Session): Session {
    s.(polling := false)
  }

  // ---------------------------------------------------------------------------------
  // Properties of one tick
  // ---------------------------------------------------------------------------------

  /**
   * A tick that reads a token array longer than `previousLength` forwards exactly the unsent
   * suffix, with `partial = !complete` and `totalTokens` the length read, and then sets
   * `previousLength` to that length; otherwise `previousLength` is unchanged. So
   * `previousLength` never decreases and never exceeds the longest array read.
   */
  lemma TickForwardsSuffix(s: Session, now: int, rec: ResponseRecord)
    requires s.polling && !s.ended
    ensures var s' := Step(s, now, Present(rec));
            if HasMoreTokens(s, rec) then
              var ts := rec.tokens.value;
              s'.previousLength == |ts| &&
              |s'.delivered| > |s.delivered| &&
              s'.delivered[..|s.delivered| + 1] ==
                s.delivered + [Tokens(ts[s.previousLength..], !rec.complete, |ts|)]
            else
              s'.previousLength == s.previousLength && s'.delivered[..|s.delivered|] == s.delivered
  {
  }

  /** Some event of the sequence is a completion event. */
  predicate HasCompletion(events: seq<Event>) {
    exists i :: 0 <= i < |events| && events[i].Complete?
  }

  /**
   * On a polling stream, a tick delivers a completion event exactly when the record it reads
   * is complete and has a token array. Its own send runs first, so by then every token of the
   * array has been forwarded: the completion is never delivered ahead of a token, and the
   * "complete but tokens unsent" wait can only happen for a record without a token array.
   */
  lemma CompletionOnlyAfterAllTokens(s: Session, now: int, lookup: Lookup)
    requires s.polling && !s.ended
    ensures var s' := Step(s, now, lookup);
            |s'.delivered| >= |s.delivered| &&
            (HasCompletion(s'.delivered[|s.delivered|..]) <==>
               lookup.Present? && lookup.record.complete && lookup.record.tokens.Some?)
    ensures lookup.Present? && lookup.record.complete && lookup.record.tokens.Some? ==>
              Step(s, now, lookup).previousLength >= |lookup.record.tokens.value|
  {
    var s' := Step(s, now, lookup);
    match lookup
    case Threw =>
      assert s'.delivered[|s.delivered|..] == [Error(StreamServerError)];
    case Absent =>
      var s1 := if s.startTime == 0 then s.(startTime := now) else s;
      if now - s1.startTime > AbsenceLimitMs {
        assert s'.delivered[|s.delivered|..] == [Error(ResponseNotFound)];
      } else {
        assert s'.delivered[|s.delivered|..] == [];
      }
    case Present(rec) =>
      PresentCompletion(s, now, rec);
  }

  /** The `Present` case of `CompletionOnlyAfterAllTokens`. */
  lemma PresentCompletion(s: Session, now: int, rec: ResponseRecord)
    requires s.polling && !s.ended
    ensures var s' := Step(s, now, Present(rec));
            |s'.delivered| >= |s.delivered| &&
            (HasCompletion(s'.delivered[|s.delivered|..]) <==> rec.complete && rec.tokens.Some?)
    ensures rec.complete && rec.tokens.Some? ==> Step(s, now, Present(rec)).previousLength >= |rec.tokens.value|
  {
    var s' := Step(s, now, Present(rec));
    var s1 := SendNew(s, now, rec);
    var sent := if HasMoreTokens(s, rec) then [Tokens(rec.tokens.value[s.previousLength..], !rec.complete, |rec.tokens.value|)] else [];
    assert s1.delivered == s.delivered + sent && !s1.ended && s1.polling;
    var done := if CompletionDue(s1, rec) then [Complete(|rec.tokens.value|)] else [];
    var s2 := if CompletionDue(s1, rec) then Finish(s1, Complete(|rec.tokens.value|)) else s1;
    assert s2.delivered == s.delivered + sent + done;
    var late := if now - s2.lastUpdate > InactivityLimitMs && !s2.ended then [Error(InactivityTimeout)] else [];
    assert s'.delivered == s.delivered + sent + done + late;
    assert s'.delivered[|s.delivered|..] == sent + done + late;
    assert CompletionDue(s1, rec) <==> rec.complete && rec.tokens.Some?;
    CompletionInMiddle(sent, done, late);
    if done != [] {
      assert done[0].Complete?;
    }
  }

  /** Around a middle part, batches and errors add no completion event. */
  lemma CompletionInMiddle(sent: seq<Event>, done: seq<Event>, late: seq<Event>)
    requires forall i :: 0 <= i < |sent| ==> !sent[i].Complete?
    requires forall i :: 0 <= i < |late| ==> !late[i].Complete?
    ensures HasCompletion(sent + done + late) <==> HasCompletion(done)
  {
    var all := sent + done + late;
    if HasCompletion(all) {
      var i :| 0 <= i < |all| && all[i].Complete?;
      assert done[i - |sent|] == all[i];
    }
    if HasCompletion(done) {
      var j :| 0 <= j < |done| && done[j].Complete?;
      assert all[|sent| + j] == done[j];
    }
  }

  /**
   * The absence clock: the first tick that misses the record stamps `startTime`, a later miss
   * never moves it, and the stream fails with "Response not found after waiting" exactly on a
   * miss more than 5000 ms after the stamp.
   */
  lemma AbsenceTimeout(s: Session, now: int)
    requires s.polling && !s.ended
    ensures var s' := Step(s, now, Absent);
            var stamp := if s.startTime == 0 then now else s.startTime;
            s'.startTime == stamp &&
            s'.previousLength == s.previousLength &&
            (s'.delivered == s.delivered + [Error(ResponseNotFound)] <==> now - stamp > AbsenceLimitMs) &&
            (now - stamp <= AbsenceLimitMs ==> s' == s.(startTime := stamp))
  {
  }

  /**
   * The inactivity clock: a tick that forwards tokens restarts it; any other tick on a present
   * record ends the stream with "Stream timed out due to inactivity" when more than 60000 ms
   * have passed since `lastUpdate`.
   */
  lemma InactivityTimeoutRule(s: Session, now: int, rec: ResponseRecord)
    requires s.polling && !s.ended
    ensures var s' := Step(s, now, Present(rec));
            (HasMoreTokens(s, rec) ==>
               s'.lastUpdate == now && s'.lateWrites == s.lateWrites &&
               Error(InactivityTimeout) !in s'.delivered[|s.delivered|..]) &&
            (!HasMoreTokens(s, rec) && now - s.lastUpdate > InactivityLimitMs ==>
               !s'.polling && s'.ended &&
               Error(InactivityTimeout) in s'.delivered[|s.delivered|..] + s'.lateWrites)
  {
    var s' := Step(s, now, Present(rec));
    var s1 := SendNew(s, now, rec);
    var s2 := if CompletionDue(s1, rec) then Finish(s1, Complete(|rec.tokens.value|)) else s1;
    assert s2.lastUpdate == s1.lastUpdate;
    if HasMoreTokens(s, rec) {
      var ts := rec.tokens.value;
      var sent := [Tokens(ts[s.previousLength..], !rec.complete, |ts|)];
      var done := if CompletionDue(s1, rec) then [Complete(|ts|)] else [];
      assert s'.delivered == s.delivered + sent + done;
      assert s'.delivered[|s.delivered|..] == sent + done;
    } else if now - s.lastUpdate > InactivityLimitMs {
      if s2.ended {
        assert s'.lateWrites == s2.lateWrites + [Error(InactivityTimeout)];
      } else {
        assert s'.delivered == s2.delivered + [Error(InactivityTimeout)];
        assert s'.delivered[|s.delivered|..] == s2.delivered[|s.delivered|..] + [Error(InactivityTimeout)];
      }
    }
  }

  // ---------------------------------------------------------------------------------
  // Properties of whole streams
  // ---------------------------------------------------------------------------------

  /** Only the last delivered event may be terminal. */
  predicate TerminalLast(events: seq<Event>) {
    forall i :: 0 <= i < |events| - 1 ==> !IsTerminal(events[i])
  }

  /**
   * The invariant every reachable session keeps: while polling the response has not ended; the
   * client receives at most one terminal event and nothing after it; a delivered completion
   * never announces more tokens than were forwarded; `previousLength` counts exactly the tokens
   * the client received.
   */
  predicate Valid(s: Session) {
    (s.polling ==> !s.ended) &&
    TerminalLast(s.delivered) &&
    (|s.delivered| > 0 && IsTerminal(s.delivered[|s.delivered| - 1]) ==> s.ended && !s.polling) &&
    (|s.delivered| > 0 && s.delivered[|s.delivered| - 1].Complete? ==>
       s.delivered[|s.delivered| - 1].totalTokens <= s.previousLength) &&
    (!s.ended ==> s.lateWrites == []) &&
    |Forwarded(s.delivered)| == s.previousLength
  }

  lemma {:induction false} ForwardedAppend(events: seq<Event>, e: Event)
    ensures Forwarded(events + [e]) == Forwarded(events) + (if e.Tokens? then e.tokens else [])
  {
    assert (events + [e])[..|events + [e]| - 1] == events;
  }

  /** Ending the stream with one terminal event keeps the invariant. */
  lemma FinishValid(s: Session, e: Event)
    requires Valid(s) && IsTerminal(e)
    requires !s.ended ==> s.polling
    requires e.Complete? ==> e.totalTokens <= s.previousLength
    ensures Valid(Finish(s, e))
    ensures Finish(s, e).previousLength == s.previousLength
    ensures Forwarded(Finish(s, e).delivered) == Forwarded(s.delivered)
  {
    if !s.ended {
      ForwardedAppend(s.delivered, e);
    }
  }

  /** Forwarding new tokens keeps the invariant and leaves the stream polling. */
  lemma SendNewValid(s: Session, now: int, rec: ResponseRecord)
    requires Valid(s) && s.polling
    ensures var s1 := SendNew(s, now, rec);
            Valid(s1) && s1.polling && !s1.ended &&
            s1.previousLength >= s.previousLength &&
            (rec.tokens.Some? ==> s1.previousLength >= |rec.tokens.value|)
  {
    if HasMoreTokens(s, rec) {
      var ts := rec.tokens.value;
      ForwardedAppend(s.delivered, Tokens(ts[s.previousLength..], !rec.complete, |ts|));
    }
  }

  /** One tick keeps the invariant. */
  lemma {:induction false} StepValid(s: Session, now: int, lookup: Lookup)
    requires Valid(s)
    ensures Valid(Step(s, now, lookup))
  {
    if s.polling {
      match lookup
      case Threw =>
        FinishValid(s, Error(StreamServerError));
      case Absent =>
        var s1 := if s.startTime == 0 then s.(startTime := now) else s;
        if now - s1.startTime > AbsenceLimitMs {
          FinishValid(s1, Error(ResponseNotFound));
        }
      case Present(rec) =>
        var s1 := SendNew(s, now, rec);
        SendNewValid(s, now, rec);
        var s2 := if CompletionDue(s1, rec) then Finish(s1, Complete(|rec.tokens.value|)) else s1;
        if CompletionDue(s1, rec) {
          FinishValid(s1, Complete(|rec.tokens.value|));
        }
        if now - s2.lastUpdate > InactivityLimitMs {
          FinishValid(s2, Error(InactivityTimeout));
        }
    }
  }

  /**
   * Every session reached from a valid one by ticks is valid: the client receives at most one
   * terminal event and nothing after it, and `previousLength` counts exactly the tokens the
   * client received.
   */
  lemma {:induction false} RunValid(s: Session, ticks: seq<Tick>)
    requires Valid(s)
    ensures Valid(Run(s, ticks))
    decreases |ticks|
  {
    if ticks != [] {
      StepValid(s, ticks[0].now, ticks[0].lookup);
      RunValid(Step(s, ticks[0].now, ticks[0].lookup), ticks[1..]);
    }
  }

  /** A stream from its start never delivers a second terminal event, whatever the ticks see. */
  lemma AtMostOneTerminal(now: int, ticks: seq<Tick>)
    ensures var d := Run(Start(now), ticks).delivered;
            forall i, j :: 0 <= i < j < |d| ==> !(IsTerminal(d[i]) && IsTerminal(d[j]))
  {
    assert Valid(Start(now));
    RunValid(Start(now), ticks);
  }

  /** `previousLength` never decreases over any run. */
  lemma {:induction false} RunMonotone(s: Session, ticks: seq<Tick>)
    ensures Run(s, ticks).previousLength >= s.previousLength
    decreases |ticks|
  {
    if ticks != [] {
      var s1 := Step(s, ticks[0].now, ticks[0].lookup);
      if s.polling && ticks[0].lookup.Present? {
        var rec := ticks[0].lookup.record;
        var sn := SendNew(s, ticks[0].now, rec);
        var s2 := if CompletionDue(sn, rec) then Finish(sn, Complete(|rec.tokens.value|)) else sn;
        assert s2.previousLength == sn.previousLength >= s.previousLength;
      }
      assert s1.previousLength >= s.previousLength;
      RunMonotone(s1, ticks[1..]);
    }
  }

  /** After a disconnect no tick runs: the session, and so the client's view, never changes. */
  lemma {:induction false} NothingAfterDisconnect(s: Session, ticks: seq<Tick>)
    ensures Run(ClientClosed(s), ticks) == ClientClosed(s)
    decreases |ticks|
  {
    if ticks != [] {
      NothingAfterDisconnect(s, ticks[1..]);
    }
  }

  /** The token arrays read by a run never shrink and never rewrite a token. */
  predicate AppendOnly(seen: seq<string>, ticks: seq<Tick>)
    decreases |ticks|
  {
    ticks == [] ||
    (var l := ticks[0].lookup;
     if l.Present? && l.record.tokens.Some? then
       seen <= l.record.tokens.value && AppendOnly(l.record.tokens.value, ticks[1..])
     else AppendOnly(seen, ticks[1..]))
  }

  /** The last token array read by a run (`seen` when none is read). */
  function LastSeen(seen: seq<string>, ticks: seq<Tick>): seq<string>
    decreases |ticks|
  {
    if ticks == [] then seen
    else
      var l := ticks[0].lookup;
      LastSeen(if l.Present? && l.record.tokens.Some? then l.record.tokens.value else seen, ticks[1..])
  }

  /** One tick on an append-only record forwards exactly the tokens not yet forwarded. */
  lemma StepForwards(s: Session, seen: seq<string>, now: int, lookup: Lookup)
    requires Valid(s) && Forwarded(s.delivered) <= seen
    requires s.polling ==> Forwarded(s.delivered) == seen
    requires lookup.Present? && lookup.record.tokens.Some? ==> seen <= lookup.record.tokens.value
    ensures var s' := Step(s, now, lookup);
            var seen' := if lookup.Present? && lookup.record.tokens.Some? then lookup.record.tokens.value else seen;
            Forwarded(s'.delivered) <= seen' &&
            (s'.polling ==> Forwarded(s'.delivered) == seen')
  {
    if s.polling {
      match lookup
      case Threw =>
        FinishValid(s, Error(StreamServerError));
      case Absent =>
        var s1 := if s.startTime == 0 then s.(startTime := now) else s;
        if now - s1.startTime > AbsenceLimitMs {
          FinishValid(s1, Error(ResponseNotFound));
        }
      case Present(rec) =>
        var s1 := SendNew(s, now, rec);
        SendNewValid(s, now, rec);
        SendNewForwards(s, now, rec, seen);
        var s2 := if CompletionDue(s1, rec) then Finish(s1, Complete(|rec.tokens.value|)) else s1;
        if CompletionDue(s1, rec) {
          FinishValid(s1, Complete(|rec.tokens.value|));
        }
        if now - s2.lastUpdate > InactivityLimitMs {
          FinishValid(s2, Error(InactivityTimeout));
        }
    }
  }

  /** A send leaves the forwarded tokens equal to the array read, when there is one. */
  lemma SendNewForwards(s: Session, now: int, rec: ResponseRecord, seen: seq<string>)
    requires Valid(s) && s.polling && Forwarded(s.delivered) == seen
    requires rec.tokens.Some? ==> seen <= rec.tokens.value
    ensures Forwarded(SendNew(s, now, rec).delivered) == if rec.tokens.Some? then rec.tokens.value else seen
  {
    if HasMoreTokens(s, rec) {
      var ts := rec.tokens.value;
      ForwardedAppend(s.delivered, Tokens(ts[s.previousLength..], !rec.complete, |ts|));
      assert ts == ts[..s.previousLength] + ts[s.previousLength..];
    }
  }

  /**
   * When the record only grows, the client receives the record's tokens in order, each once:
   * the tokens carried by the delivered events are a prefix of the last array read, and all
   * of it while the stream is still polling.
   */
  lemma {:induction false} RunDeliversInOrder(s: Session, seen: seq<string>, ticks: seq<Tick>)
    requires Valid(s) && Forwarded(s.delivered) <= seen
    requires s.polling ==> Forwarded(s.delivered) == seen
    requires AppendOnly(seen, ticks)
    ensures var s' := Run(s, ticks);
            Forwarded(s'.delivered) <= LastSeen(seen, ticks) &&
            (s'.polling ==> Forwarded(s'.delivered) == LastSeen(seen, ticks))
    decreases |ticks|
  {
    if ticks != [] {
      var t := ticks[0];
      var s1 := Step(s, t.now, t.lookup);
      var seen1 := if t.lookup.Present? && t.lookup.record.tokens.Some? then t.lookup.record.tokens.value else seen;
      StepValid(s, t.now, t.lookup);
      StepForwards(s, seen, t.now, t.lookup);
      RunDeliversInOrder(s1, seen1, ticks[1..]);
    }
  }

  // ---------------------------------------------------------------------------------
  // Scenarios
  // ---------------------------------------------------------------------------------

  /**
   * A record that never appears: the first miss stamps the clock, and the first miss more than
   * 5 s later ends the stream with one error event.
   */
  lemma ResponseNeverAppears(t0: int)
    requires t0 > 0
    ensures Run(Start(t0), [Tick(t0 + 500, Absent), Tick(t0 + 5000, Absent), Tick(t0 + 5600, Absent)]).delivered
              == [Error(ResponseNotFound)]
  {
    var ticks := [Tick(t0 + 500, Absent), Tick(t0 + 5000, Absent), Tick(t0 + 5600, Absent)];
    var s1 := Step(Start(t0), t0 + 500, Absent);
    assert s1 == Start(t0).(startTime := t0 + 500);
    var s2 := Step(s1, t0 + 5000, Absent);
    assert s2 == s1;
    var s3 := Step(s2, t0 + 5600, Absent);
    assert s3.delivered == [Error(ResponseNotFound)] && !s3.polling;
    assert Run(Start(t0), ticks) == Run(s1, ticks[1..]);
    assert Run(s1, ticks[1..]) == Run(s2, ticks[2..]);
    assert Run(s2, ticks[2..]) == Run(s3, []);
  }

  /**
   * Tokens `["Hi"]` while incomplete, then `["Hi", " there"]` and complete: two batches and the
   * completion event, the last two on the same tick.
   */
  lemma TwoBatchesThenCompletion(t0: int)
    ensures Run(Start(t0), [Tick(t0 + 500, Present(ResponseRecord(Some(["Hi"]), false))),
                            Tick(t0 + 1000, Present(ResponseRecord(Some(["Hi", " there"]), true)))]).delivered
              == [Tokens(["Hi"], true, 1), Tokens([" there"], false, 2), Complete(2)]
  {
    var ticks := [Tick(t0 + 500, Present(ResponseRecord(Some(["Hi"]), false))),
                  Tick(t0 + 1000, Present(ResponseRecord(Some(["Hi", " there"]), true)))];
    var s1 := Step(Start(t0), t0 + 500, Present(ResponseRecord(Some(["Hi"]), false)));
    assert ["Hi"][0..] == ["Hi"];
    assert s1 == Session(1, t0 + 500, 0, true, false, [Tokens(["Hi"], true, 1)], []);
    assert ["Hi", " there"][1..] == [" there"];
    var s2 := Step(s1, t0 + 1000, Present(ResponseRecord(Some(["Hi", " there"]), true)));
    assert s2.delivered == [Tokens(["Hi"], true, 1), Tokens([" there"], false, 2), Complete(2)];
    assert Run(Start(t0), ticks) == Run(s1, ticks[1..]);
    assert Run(s1, ticks[1..]) == Run(s2, []);
  }

  /**
   * The completion branch does not return: when the record turns complete more than 60 s after
   * the last token was forwarded, the tick writes the completion event and then, after
   * `res.end()`, the inactivity error.
   */
  lemma SecondTerminalWriteAfterEnd(t0: int)
    ensures var s := Run(Start(t0), [Tick(t0 + 500, Present(ResponseRecord(Some(["Hi"]), false))),
                                     Tick(t0 + 61000, Present(ResponseRecord(Some(["Hi"]), true)))]);
            s.delivered == [Tokens(["Hi"], true, 1), Complete(1)] &&
            s.lateWrites == [Error(InactivityTimeout)]
  {
    var ticks := [Tick(t0 + 500, Present(ResponseRecord(Some(["Hi"]), false))),
                  Tick(t0 + 61000, Present(ResponseRecord(Some(["Hi"]), true)))];
    var s1 := Step(Start(t0), t0 + 500, Present(ResponseRecord(Some(["Hi"]), false)));
    assert ["Hi"][0..] == ["Hi"];
    assert s1 == Session(1, t0 + 500, 0, true, false, [Tokens(["Hi"], true, 1)], []);
    var s2 := Step(s1, t0 + 61000, Present(ResponseRecord(Some(["Hi"]), true)));
    assert s2.delivered == [Tokens(["Hi"], true, 1), Complete(1)];
    assert Run(Start(t0), ticks) == Run(s1, ticks[1..]);
    assert Run(s1, ticks[1..]) == Run(s2, []);
  }

  // ---------------------------------------------------------------------------------
  // The interval callback as an object
  // ---------------------------------------------------------------------------------

  /**
   * The stream after discovery: the closure variables of the `setInterval` callback, the
   * interval's `startTime` property and the written response.
   */
  class PollingLoop {
    const responseId: string
    var previousLength: nat
    var lastUpdate: int
    var startTime: int
    var polling: bool
    var ended: bool
    var delivered: seq<Event>
    var lateWrites: seq<Event>

    function State(): Session
      reads this
    {
      Session(previousLength, lastUpdate, startTime, polling, ended, delivered, lateWrites)
    }

    constructor (responseId: string, now: int)
      ensures State() == Start(now) && Valid(State())
      ensures this.responseId == responseId
    {
      this.responseId := responseId;
      previousLength := 0;
      lastUpdate := now;
      startTime := 0;
      polling := true;
      ended := false;
      delivered := [];
      lateWrites := [];
    }

    method WriteEvent(e: Event)
      modifies this
      ensures State() == Write(old(State()), e)
    {
      if ended {
        lateWrites := lateWrites + [e];
      } else {
        delivered := delivered + [e];
      }
    }

    method FinishWith(e: Event)
      modifies this
      ensures State() == Finish(old(State()), e)
    {
      polling := false;
      WriteEvent(e);
      ended := true;
    }

    /** The body of the interval callback, run once. */
    method Tick(now: int, lookup: Lookup)
      requires Valid(State())
      modifies this
      ensures State() == Step(old(State()), now, lookup)
      ensures Valid(State())
      ensures previousLength >= old(previousLength)
    {
      StepValid(State(), now, lookup);
      if !polling {
        return;
      }
      match lookup {
        case Threw =>
          FinishWith(Error(StreamServerError));
        case Absent =>
          if startTime == 0 {
            startTime := now;
          }
          if now - startTime > AbsenceLimitMs {
            FinishWith(Error(ResponseNotFound));
          }
        case Present(rec) =>
          ghost var s0 := State();
          if rec.tokens.Some? && |rec.tokens.value| > previousLength {
            var newTokens := rec.tokens.value[previousLength..];
            WriteEvent(Tokens(newTokens, !rec.complete, |rec.tokens.value|));
            previousLength := |rec.tokens.value|;
            lastUpdate := now;
          }
          assert State() == SendNew(s0, now, rec);
          if rec.complete && rec.tokens.Some? && previousLength >= |rec.tokens.value| {
            FinishWith(Complete(|rec.tokens.value|));
          }
          if now - lastUpdate > InactivityLimitMs {
            FinishWith(Error(InactivityTimeout));
          }
      }
    }

    /** `req.on('close')`: the interval is cleared. */
    method Disconnect()
      modifies this
      ensures State() == ClientClosed(old(State()))
      ensures Valid(old(State())) ==> Valid(State())
    {
      polling := false;
    }
  }
}

=== FILE: speech.dfy ===
/**
 * The speech side of the AI chat component: the sentence-boundary buffer that decides which
 * part of the streamed text is ready to be spoken, and the first-in first-out utterance queue
 * that hands one unit at a time to the speech engine.
 */
module SpeechBridge {
  import opened Wrappers
  import Events

  // ---------------------------------------------------------------------------------
  // Text helpers
  // ---------------------------------------------------------------------------------

  /** The characters JavaScript's `String.prototype.trim` removes. */
  predicate IsWhitespace(c: char) {
    ('\U{9}' <= c <= '\U{D}') || c == ' ' || c == '\U{A0}' || c == '\U{1680}' ||
    ('\U{2000}' <= c <= '\U{200A}') || c == '\U{2028}' || c == '\U{2029}' || c == '\U{202F}' ||
    c == '\U{205F}' || c == '\U{3000}' || c == '\U{FEFF}'
  }

  /** `!text.trim()`: the text is empty once surrounding whitespace is removed. */
  predicate IsBlank(text: string) {
    forall i :: 0 <= i < |text| ==> IsWhitespace(text[i])
  }

  /** The characters of the class `[.!?;]`. */
  predicate IsTerminator(c: char) {
    c == '.' || c == '!' || c == '?' || c == ';'
  }

  /** Length of the longest prefix without a terminator. */
  function PlainRun(s: string): (n: nat)
    ensures n <= |s|
  {
    if s == [] || IsTerminator(s[0]) then 0 else 1 + PlainRun(s[1..])
  }

  /** Length of the longest prefix made of terminators only. */
  function TerminatorRun(s: string): (n: nat)
    ensures n <= |s|
  {
    if s == [] || !IsTerminator(s[0]) then 0 else 1 + TerminatorRun(s[1..])
  }

  /** The runs are maximal: each stops at the end of the text or at a character of the other kind. */
  lemma {:induction false} RunsMaximal(s: string)
    ensures forall i :: 0 <= i < PlainRun(s) ==> !IsTerminator(s[i])
    ensures PlainRun(s) < |s| ==> IsTerminator(s[PlainRun(s)])
    ensures forall i :: 0 <= i < TerminatorRun(s) ==> IsTerminator(s[i])
    ensures TerminatorRun(s) < |s| ==> !IsTerminator(s[TerminatorRun(s)])
    decreases |s|
  {
    if s != [] {
      RunsMaximal(s[1..]);
    }
  }

  /** One match of `/[^.!?;]+[.!?;]+/`: a non-empty plain run, then a non-empty terminator run. */
  predicate IsSentence(m: string) {
    0 < PlainRun(m) < |m| && PlainRun(m) + TerminatorRun(m[PlainRun(m)..]) == |m|
  }

  /** Where the match starting at a plain first character ends. */
  function MatchEnd(s: string): nat {
    PlainRun(s) + TerminatorRun(s[PlainRun(s)..])
  }

  /**
   * `s.match(/[^.!?;]+[.!?;]+/g)`, with `[]` for the `null` of no match. Scanning from the
   * left, a terminator cannot start a match and is skipped; a plain run reaching the end of
   * the text cannot finish one; otherwise the greedy plain run and the greedy terminator run
   * after it form the next match.
   */
  function Sentences(s: string): seq<string>
    decreases |s|
  {
    if s == [] then []
    else if IsTerminator(s[0]) then Sentences(s[1..])
    else if PlainRun(s) == |s| then []
    else [s[..MatchEnd(s)]] + Sentences(s[MatchEnd(s)..])
  }

  /**
   * The text after the last match: what the buffer is meant to keep. Without a match the
   * whole text is kept.
   */
  function Rest(s: string): string
    decreases |s|
  {
    if s == [] then []
    else if IsTerminator(s[0]) then (if Sentences(s[1..]) == [] then s else Rest(s[1..]))
    else if PlainRun(s) == |s| then s
    else Rest(s[MatchEnd(s)..])
  }

  /** A match starting at a plain character ends past its plain run, before a plain character. */
  lemma MatchBounds(s: string)
    requires s != [] && !IsTerminator(s[0]) && PlainRun(s) < |s|
    ensures PlainRun(s) < MatchEnd(s) <= |s|
    ensures MatchEnd(s) < |s| ==> !IsTerminator(s[MatchEnd(s)])
  {
    var n := PlainRun(s);
    var t := s[n..];
    RunsMaximal(t);
    RunsMaximal(s);
    assert t[0] == s[n];
    assert MatchEnd(s) < |s| ==> t[TerminatorRun(t)] == s[MatchEnd(s)];
  }

  /** Every match is one sentence: a plain run closed by a terminator run. */
  lemma {:induction false} SentencesShape(s: string)
    ensures forall i :: 0 <= i < |Sentences(s)| ==> IsSentence(Sentences(s)[i])
    decreases |s|
  {
    if s == [] {
    } else if IsTerminator(s[0]) {
      SentencesShape(s[1..]);
    } else if PlainRun(s) < |s| {
      MatchBounds(s);
      FirstIsSentence(s);
      SentencesShape(s[MatchEnd(s)..]);
    }
  }

  lemma FirstIsSentence(s: string)
    requires s != [] && !IsTerminator(s[0]) && PlainRun(s) < |s|
    ensures MatchEnd(s) <= |s| && IsSentence(s[..MatchEnd(s)])
  {
    MatchBounds(s);
    var n := PlainRun(s);
    var end := MatchEnd(s);
    var m := s[..end];
    var tail := s[n..];
    var k := TerminatorRun(tail);
    assert end == n + k;
    PrefixPlainRun(s, n, end);
    assert m[n..] == tail[..k];
    PrefixTerminatorRun(tail, k);
    assert TerminatorRun(m[n..]) == k;
  }

  lemma {:induction false} PrefixPlainRun(s: string, n: nat, end: nat)
    requires n == PlainRun(s) && n < end <= |s|
    ensures PlainRun(s[..end]) == n
    decreases n
  {
    if n > 0 {
      assert s[..end][1..] == s[1..][..end - 1];
      PrefixPlainRun(s[1..], n - 1, end - 1);
    }
  }

  lemma {:induction false} PrefixTerminatorRun(s: string, k: nat)
    requires k == TerminatorRun(s)
    ensures TerminatorRun(s[..k]) == k
    decreases k
  {
    if k > 0 {
      assert s[..k][1..] == s[1..][..k - 1];
      PrefixTerminatorRun(s[1..], k - 1);
    }
  }

  /** JavaScript's `parts.join(' ')`. */
  function JoinSpace(parts: seq<string>): string {
    if parts == [] then ""
    else if |parts| == 1 then parts[0]
    else JoinSpace(parts[..|parts| - 1]) + " " + parts[|parts| - 1]
  }

  /** JavaScript's `s.substring(start)` for a non-negative start: empty past the end. */
  function Substring(s: string, start: nat): string {
    if start >= |s| then "" else s[start..]
  }

  // ---------------------------------------------------------------------------------
  // The sentence buffer
  // ---------------------------------------------------------------------------------

  /** What one call of `processTextForSpeech` leaves in the buffer and hands to `speakText`. */
  datatype Flush = Flush(buffer: string, spoken: Option<string>)

  /**
   * `processTextForSpeech(text, force)` as written. Call mode off or a blank increment leave
   * everything as it is, so the forced flushes with `''` never speak. Otherwise the increment
   * is appended to the buffer `b`. When `b` holds complete sentences, they are spoken joined
   * by spaces and the buffer keeps `b.substring(joined.length)`, which cuts by the length of
   * the joined text rather than at the end of the last sentence. Failing those, a forced flush
   * or a buffer longer than 100 characters speaks the whole buffer and empties it; otherwise
   * nothing is spoken and the buffer keeps `b`.
   */
  function ProcessTextAsWritten(callMode: bool, buffer: string, text: string, force: bool): (r: Flush)
    ensures !callMode || IsBlank(text) ==> r == Flush(buffer, None)
    ensures callMode && !IsBlank(text) ==>
              var b := buffer + text;
              var ms := Sentences(b);
              (ms != [] ==> r.spoken == Some(JoinSpace(ms)) && r.buffer == Substring(b, |JoinSpace(ms)|)) &&
              (ms == [] && (force || |b| > 100) ==> r == Flush("", Some(b))) &&
              (ms == [] && !force && |b| <= 100 ==> r == Flush(b, None))
  {
    if !callMode || IsBlank(text) then Flush(buffer, None)
    else
      var b := buffer + text;
      var ms := Sentences(b);
      if ms != [] then
        var joined := JoinSpace(ms);
        Flush(Substring(b, |joined|), Some(joined))
      else if force || |b| > 100 then Flush("", Some(b))
      else Flush(b, None)
  }

  /**
   * `processTextForSpeech(text, force)` keeping the text after the last complete sentence,
   * as the code means to. It differs from `ProcessTextAsWritten` only in the buffer it keeps
   * after speaking complete sentences: `Rest(b)`, the text after the last match.
   */
  function ProcessText(callMode: bool, buffer: string, text: string, force: bool): (r: Flush)
    ensures !callMode || IsBlank(text) ==> r == Flush(buffer, None)
    ensures callMode && !IsBlank(text) ==>
              var b := buffer + text;
              var ms := Sentences(b);
              (ms != [] ==> r.spoken == Some(JoinSpace(ms)) && r.buffer == Rest(b)) &&
              (ms == [] && (force || |b| > 100) ==> r == Flush("", Some(b))) &&
              (ms == [] && !force && |b| <= 100 ==> r == Flush(b, None))
    ensures r.spoken == ProcessTextAsWritten(callMode, buffer, text, force).spoken
    ensures r.spoken.None? ==> r.buffer == buffer || r.buffer == buffer + text
  {
    if !callMode || IsBlank(text) then Flush(buffer, None)
    else
      var b := buffer + text;
      var ms := Sentences(b);
      if ms != [] then Flush(Rest(b), Some(JoinSpace(ms)))
      else if force || |b| > 100 then Flush("", Some(b))
      else Flush(b, None)
  }

  // ---------------------------------------------------------------------------------
  // Properties of the matcher and of the buffer
  // ---------------------------------------------------------------------------------

  lemma SingleJoin(m: string)
    ensures Events.Join([m]) == m
  {
    assert [m][..0] == [];
  }

  /** A plain character starts a match when a terminator follows somewhere: one scan step. */
  lemma PlainStartStep(s: string)
    requires s != [] && !IsTerminator(s[0]) && PlainRun(s) < |s|
    ensures MatchEnd(s) <= |s|
    ensures Sentences(s) == [s[..MatchEnd(s)]] + Sentences(s[MatchEnd(s)..])
    ensures Rest(s) == Rest(s[MatchEnd(s)..])
  {
    MatchBounds(s);
  }

  /** A text starting with a plain character is its matches followed by what they leave. */
  lemma {:induction false} PlainStartCovered(s: string)
    requires s != [] && !IsTerminator(s[0])
    ensures s == Events.Join(Sentences(s)) + Rest(s)
    decreases |s|
  {
    if PlainRun(s) < |s| {
      MatchBounds(s);
      PlainStartStep(s);
      var end := MatchEnd(s);
      var m := s[..end];
      var r := s[end..];
      SingleJoin(m);
      if r == [] {
        assert Sentences(s) == [m] + [];
        assert s == m + Rest(s);
      } else {
        PlainStartCovered(r);
        Events.JoinAppend([m], Sentences(r));
        assert s == m + r;
      }
    }
  }

  /**
   * The matches cover the text exactly: apart from the terminators the scan skips at the
   * start, the text is the concatenated matches followed by the kept rest; without a match
   * the rest is the whole text.
   */
  lemma {:induction false} SentencesCover(s: string)
    ensures Sentences(s) == [] ==> Rest(s) == s
    ensures Sentences(s) != [] ==>
              s == s[..TerminatorRun(s)] + Events.Join(Sentences(s)) + Rest(s)
    decreases |s|
  {
    if s == [] {
    } else if IsTerminator(s[0]) {
      if Sentences(s[1..]) != [] {
        SentencesCover(s[1..]);
        SkipTerminator(s);
      }
    } else {
      PlainStartCovered(s);
      assert s[..0] == [];
    }
  }

  lemma SkipTerminator(s: string)
    requires s != [] && IsTerminator(s[0]) && Sentences(s[1..]) != []
    requires var t := s[1..]; t == t[..TerminatorRun(t)] + Events.Join(Sentences(t)) + Rest(t)
    ensures s == s[..TerminatorRun(s)] + Events.Join(Sentences(s)) + Rest(s)
  {
    TerminatorStep(s);
    var t := s[1..];
    ConsSplit(s, TerminatorRun(t), Events.Join(Sentences(t)), Rest(t));
  }

  /** Unfolding the matcher at a leading terminator that a match follows. */
  lemma TerminatorStep(s: string)
    requires s != [] && IsTerminator(s[0]) && Sentences(s[1..]) != []
    ensures Sentences(s) == Sentences(s[1..]) && Rest(s) == Rest(s[1..])
    ensures TerminatorRun(s) == 1 + TerminatorRun(s[1..])
  {
  }

  lemma ConsSplit(s: string, k: nat, j: string, r: string)
    requires s != [] && k <= |s| - 1 && s[1..] == s[1..][..k] + j + r
    ensures s == s[..1 + k] + j + r
  {
    assert s[..1 + k] == [s[0]] + s[1..][..k];
    assert s == [s[0]] + s[1..];
  }

  /** What remains after the corrected flush holds no complete sentence. */
  lemma {:induction false} NoSentenceInRest(s: string)
    ensures Sentences(Rest(s)) == []
    decreases |s|
  {
    if s == [] {
    } else if IsTerminator(s[0]) {
      if Sentences(s[1..]) != [] {
        NoSentenceInRest(s[1..]);
      }
    } else if PlainRun(s) < |s| {
      MatchBounds(s);
      NoSentenceInRest(s[MatchEnd(s)..]);
    }
  }

  /** The kept rest is a suffix of the text. */
  lemma {:induction false} RestIsSuffix(s: string)
    ensures |Rest(s)| <= |s| && Rest(s) == s[|s| - |Rest(s)|..]
    decreases |s|
  {
    if s == [] {
    } else if IsTerminator(s[0]) {
      RestIsSuffix(s[1..]);
    } else if PlainRun(s) < |s| {
      MatchBounds(s);
      RestIsSuffix(s[MatchEnd(s)..]);
    }
  }

  /**
   * The corrected flush keeps no sentence back and drops nothing: the kept buffer is a suffix
   * of buffer plus increment holding no complete sentence, everything before it was spoken
   * (apart from terminators with no sentence in front), and when nothing is spoken the buffer
   * is the old buffer plus the increment.
   */
  lemma ProcessTextKeepsTail(callMode: bool, buffer: string, text: string, force: bool)
    requires callMode && !IsBlank(text)
    ensures var r := ProcessText(callMode, buffer, text, force);
            var b := buffer + text;
            |r.buffer| <= |b| && r.buffer == b[|b| - |r.buffer|..] &&
            Sentences(r.buffer) == [] &&
            (r.spoken.None? ==> r.buffer == b) &&
            (Sentences(b) != [] ==> b == b[..TerminatorRun(b)] + Events.Join(Sentences(b)) + r.buffer)
  {
    var b := buffer + text;
    NoSentenceInRest(b);
    RestIsSuffix(b);
    SentencesCover(b);
  }

  /** Joining with spaces adds one character between each two pieces. */
  lemma {:induction false} JoinSpaceLength(parts: seq<string>)
    requires parts != []
    ensures |JoinSpace(parts)| == |Events.Join(parts)| + |parts| - 1
    decreases |parts|
  {
    if |parts| == 1 {
      SingleJoin(parts[0]);
    } else {
      JoinSpaceLength(parts[..|parts| - 1]);
    }
  }

  /**
   * With exactly one match, starting at the first character, the code as written keeps
   * exactly the text after that sentence, as the corrected flush does.
   */
  lemma OneSentenceAgrees(callMode: bool, buffer: string, text: string, force: bool)
    requires callMode && !IsBlank(text)
    requires var b := buffer + text; !IsTerminator(b[0]) && |Sentences(b)| == 1
    ensures ProcessTextAsWritten(callMode, buffer, text, force) == ProcessText(callMode, buffer, text, force)
  {
    var b := buffer + text;
    var m := Sentences(b)[0];
    PlainStartCovered(b);
    assert Sentences(b) == [m];
    SingleJoin(m);
    assert b == m + Rest(b);
    assert Substring(b, |m|) == Rest(b);
  }

  /**
   * The code as written drops text: for the buffer `"A.B.C"` the two sentences are spoken as
   * `"A. B."`, five characters, so the buffer keeps nothing and the unfinished sentence `"C"`
   * is lost; the corrected flush keeps `"C"`.
   */
  lemma AsWrittenDropsText()
    ensures ProcessTextAsWritten(true, "", "A.B.C", false) == Flush("", Some("A. B."))
    ensures ProcessText(true, "", "A.B.C", false) == Flush("C", Some("A. B."))
  {
    ExampleInput();
    ExampleMatches();
    ExampleJoined();
  }

  lemma ExampleInput()
    ensures "" + "A.B.C" == "A.B.C" && !IsBlank("A.B.C")
  {
    var s := "A.B.C";
    assert !IsWhitespace(s[0]);
  }

  lemma ExampleJoined()
    ensures JoinSpace(["A.", "B."]) == "A. B."
  {
    assert ["A.", "B."][..1] == ["A."];
  }

  lemma ExampleMatches()
    ensures Sentences("A.B.C") == ["A.", "B."] && Rest("A.B.C") == "C"
  {
    var s := "A.B.C";
    ExampleStep(s);
    assert s[..2] == "A." && s[2..] == "B.C";
    var t := "B.C";
    ExampleStep(t);
    assert t[..2] == "B." && t[2..] == "C";
    var u := "C";
    assert PlainRun(u[1..]) == 0;
    assert PlainRun(u) == 1;
  }

  /** A letter, a full stop and a letter: the first match is the first two characters. */
  lemma ExampleStep(s: string)
    requires |s| >= 3 && !IsTerminator(s[0]) && s[1] == '.' && !IsTerminator(s[2])
    ensures MatchEnd(s) == 2 && PlainRun(s) == 1
  {
    assert PlainRun(s[1..]) == 0;
    assert s[1..][1..] == s[2..];
    assert TerminatorRun(s[1..][1..]) == 0;
  }

  // ---------------------------------------------------------------------------------
  // The utterance queue
  // ---------------------------------------------------------------------------------

  /**
   * `speechQueueRef` (the waiting units, head first), `isSpeechProcessingRef`, the unit the
   * engine is speaking (the engine's `speaking` flag is `current.Some?`), the `isSpeaking`
   * state, two logs (every unit handed to the engine, and every unit shifted off the queue),
   * `hasUserInteractedRef` and the component's `promptText` prop.
   */
  datatype Speech = Speech(queue: seq<string>, processing: bool, current: Option<string>,
                           isSpeaking: bool, spoken: seq<string>, shifted: seq<string>,
                           interacted: bool, promptText: string)

  /** The `promptText` prop's default. */
  const DefaultPrompt := "Tell me about yourself."

  /** The speech state when the component mounts: nothing queued, no interaction yet. */
  function Fresh(promptText: string): Speech {
    Speech([], false, None, false, [], [], false, promptText)
  }

  /**
   * `startSpeaking()`: with an empty queue it only clears `isSpeaking`; while a unit is
   * processing it does nothing; otherwise it marks the queue busy and speaks the head.
   */
  function StartNext(q: Speech): (r: Speech)
    ensures r.queue == q.queue && r.shifted == q.shifted
    ensures q.queue != [] && !q.processing ==>
              r.processing && r.current == Some(q.queue[0]) && r.spoken == q.spoken + [q.queue[0]]
    ensures q.queue == [] || q.processing ==> r.spoken == q.spoken && r.current == q.current
  {
    if q.queue == [] || q.processing then
      if q.queue == [] then q.(isSpeaking := false) else q
    else
      q.(processing := true, isSpeaking := true, current := Some(q.queue[0]),
         spoken := q.spoken + [q.queue[0]])
  }

  /** Before the first interaction with the page, the prompt text itself is not spoken. */
  predicate Skipped(q: Speech, text: string) {
    !q.interacted && q.promptText != "" && text == q.promptText
  }

  /**
   * `speakText(text)`: a blank text, or the prompt text before the user has interacted, is
   * dropped; otherwise it joins the back of the queue, the queue is started when the engine
   * is silent, and `isSpeaking` is set.
   */
  function Enqueue(q: Speech, text: string): (r: Speech)
    ensures IsBlank(text) || Skipped(q, text) ==> r == q
    ensures !IsBlank(text) && !Skipped(q, text) ==>
              r.queue == q.queue + [text] && r.isSpeaking && r.shifted == q.shifted
    ensures r.interacted == q.interacted && r.promptText == q.promptText
  {
    if IsBlank(text) || Skipped(q, text) then q
    else
      var q1 := q.(queue := q.queue + [text]);
      var q2 := if q1.current.None? then StartNext(q1) else q1;
      q2.(isSpeaking := true)
  }

  /**
   * The `onend` or `onerror` callback of the unit being spoken (the two do the same to the
   * queue): the processing flag is cleared, one unit is shifted off the queue, and the next
   * one is started if any is left; otherwise `isSpeaking` is cleared.
   */
  function FinishUnit(q: Speech): (r: Speech)
    ensures q.queue != [] ==> r.shifted == q.shifted + [q.queue[0]] && r.queue == q.queue[1..]
    ensures q.queue == [] ==> r.shifted == q.shifted && r.queue == []
    ensures r.queue == [] ==> !r.isSpeaking && r.current.None? && !r.processing
    ensures r.queue != [] ==> r.processing && r.current == Some(r.queue[0])
  {
    var q1 := if q.queue == [] then q.(current := None, processing := false)
              else q.(current := None, processing := false, queue := q.queue[1..],
                      shifted := q.shifted + [q.queue[0]]);
    if q1.queue != [] then StartNext(q1) else q1.(isSpeaking := false)
  }

  /** The turn start's `speechQueueRef.current = []`: the processing flag is left as it is. */
  function Cleared(q: Speech): (r: Speech)
    ensures r.queue == [] && r.processing == q.processing && r.current == q.current
  {
    q.(queue := [])
  }

  /**
   * The queue discipline: a unit is processing exactly when the queue is non-empty, the unit
   * the engine speaks is the head of the queue, and `isSpeaking` tells whether anything is queued.
   */
  predicate QueueValid(q: Speech) {
    (q.processing <==> q.queue != []) &&
    (q.processing ==> q.current == Some(q.queue[0]) && q.spoken == q.shifted + [q.queue[0]]) &&
    (!q.processing ==> q.current.None? && q.spoken == q.shifted) &&
    (q.isSpeaking <==> q.queue != [])
  }

  /**
   * Calls into the queue: `speakText(text)`, the engine reporting the end of a unit, or the
   * first click, key press or touch on the page.
   */
  datatype SpeechOp = Say(text: string) | Ended | Interact

  /** The interaction listener: `hasUserInteractedRef.current = true`. */
  function Interacted(q: Speech): (r: Speech)
    ensures r.interacted && r.queue == q.queue && r.shifted == q.shifted
  {
    q.(interacted := true)
  }

  /** One call; an end report with nothing being spoken cannot happen and is ignored. */
  function Apply(q: Speech, op: SpeechOp): Speech {
    match op
    case Say(text) => Enqueue(q, text)
    case Ended => if q.current.Some? then FinishUnit(q) else q
    case Interact => Interacted(q)
  }

  function ApplyAll(q: Speech, ops: seq<SpeechOp>): Speech
    decreases |ops|
  {
    if ops == [] then q else ApplyAll(Apply(q, ops[0]), ops[1..])
  }

  /** Some call of the sequence is an interaction with the page. */
  predicate HasInteraction(ops: seq<SpeechOp>) {
    exists i :: 0 <= i < |ops| && ops[i].Interact?
  }

  /**
   * The texts of a sequence of calls that are meant to be spoken, in order: the non-blank
   * ones, except the prompt text while no interaction has come before it.
   */
  function Said(ops: seq<SpeechOp>, promptText: string): seq<string> {
    if ops == [] then []
    else
      var init := ops[..|ops| - 1];
      var rest := Said(init, promptText);
      match ops[|ops| - 1]
      case Say(text) =>
        if IsBlank(text) || (!HasInteraction(init) && promptText != "" && text == promptText) then rest
        else rest + [text]
      case Ended => rest
      case Interact => rest
  }

  lemma ApplyValid(q: Speech, op: SpeechOp)
    requires QueueValid(q)
    ensures QueueValid(Apply(q, op))
    ensures Apply(q, op).shifted + Apply(q, op).queue ==
              q.shifted + q.queue + (if op.Say? && !IsBlank(op.text) && !Skipped(q, op.text) then [op.text] else [])
    ensures Apply(q, op).interacted == (q.interacted || op.Interact?)
    ensures Apply(q, op).promptText == q.promptText
  {
    match op
    case Say(text) =>
    case Interact =>
    case Ended =>
      if q.current.Some? {
        assert q.queue != [];
        assert q.shifted + [q.queue[0]] + q.queue[1..] == q.shifted + q.queue;
      }
  }

  /**
   * The queue is first in, first out, with at most one unit in the engine: from the mounted
   * component, after any calls, the discipline holds, and the units shifted off followed by
   * those still waiting are exactly the texts given to `speakText` that are meant to be
   * spoken, in order; the engine was handed exactly the shifted units plus the head of the
   * queue, and the interaction flag records whether the page was interacted with.
   */
  lemma {:induction false} SpeechFifo(promptText: string, ops: seq<SpeechOp>)
    ensures var q := ApplyAll(Fresh(promptText), ops);
            QueueValid(q) && q.shifted + q.queue == Said(ops, promptText) &&
            q.interacted == HasInteraction(ops) && q.promptText == promptText
    decreases |ops|
  {
    if ops != [] {
      var init := ops[..|ops| - 1];
      var op := ops[|ops| - 1];
      SpeechFifo(promptText, init);
      ApplyAllSnoc(Fresh(promptText), init, op);
      assert init + [op] == ops;
      ApplyValid(ApplyAll(Fresh(promptText), init), op);
      InteractionSnoc(init, op);
    }
  }

  lemma InteractionSnoc(ops: seq<SpeechOp>, op: SpeechOp)
    ensures HasInteraction(ops + [op]) == (HasInteraction(ops) || op.Interact?)
  {
    var all := ops + [op];
    if HasInteraction(ops) {
      var i :| 0 <= i < |ops| && ops[i].Interact?;
      assert all[i] == ops[i];
    }
    if op.Interact? {
      assert all[|ops|] == op;
    }
    if HasInteraction(all) {
      var i :| 0 <= i < |all| && all[i].Interact?;
      if i < |ops| {
        assert ops[i] == all[i];
      }
    }
  }

  /**
   * The prompt text handed to `speakText` before any interaction is dropped; after an
   * interaction the same call queues it.
   */
  lemma PromptWaitsForInteraction(q: Speech)
    requires !q.interacted && !IsBlank(q.promptText)
    ensures Enqueue(q, q.promptText) == q
    ensures Enqueue(Interacted(q), q.promptText).queue == q.queue + [q.promptText]
  {
  }

  lemma {:induction false} ApplyAllSnoc(q: Speech, ops: seq<SpeechOp>, op: SpeechOp)
    ensures ApplyAll(q, ops + [op]) == Apply(ApplyAll(q, ops), op)
    decreases |ops|
  {
    if ops == [] {
      assert [] + [op] == [op];
    } else {
      assert (ops + [op])[1..] == ops[1..] + [op];
      ApplyAllSnoc(Apply(q, ops[0]), ops[1..], op);
    }
  }

  /**
   * Clearing the queue while a unit is playing breaks the discipline: the next text is queued
   * behind a busy flag, and the end of the old unit shifts it off without it ever being spoken.
   */
  lemma ClearWhileSpeakingSkipsUnit()
    ensures var q := Apply(Enqueue(Cleared(Enqueue(Fresh(DefaultPrompt), "One.")), "Two."), Ended);
            q.spoken == ["One."] && q.shifted == ["Two."] && q.queue == [] && !q.isSpeaking
  {
    var one := "One.";
    var two := "Two.";
    assert !IsBlank(one) by { assert !IsWhitespace(one[0]); }
    assert !IsBlank(two) by { assert !IsWhitespace(two[0]); }
    assert |one| != |DefaultPrompt| && |two| != |DefaultPrompt|;
  }

  // ---------------------------------------------------------------------------------
  // The queue as an object
  // ---------------------------------------------------------------------------------

  /** The component's speech refs and the engine's view of the unit it is speaking. */
  class SpeechQueue {
    var queue: seq<string>
    var processing: bool
    var current: Option<string>
    var isSpeaking: bool
    var spoken: seq<string>
    var shifted: seq<string>
    var interacted: bool
    const promptText: string

    function State(): Speech
      reads this
    {
      Speech(queue, processing, current, isSpeaking, spoken, shifted, interacted, promptText)
    }

    constructor (promptText: string)
      ensures State() == Fresh(promptText)
    {
      queue := [];
      processing := false;
      current := None;
      isSpeaking := false;
      spoken := [];
      shifted := [];
      interacted := false;
      this.promptText := promptText;
    }

    /** The page's first click, key press or touch. */
    method Interact()
      modifies this
      ensures State() == Interacted(old(State()))
    {
      interacted := true;
    }

    method StartSpeaking()
      modifies this
      ensures State() == StartNext(old(State()))
    {
      if queue == [] || processing {
        if queue == [] {
          isSpeaking := false;
        }
        return;
      }
      processing := true;
      isSpeaking := true;
      current := Some(queue[0]);
      spoken := spoken + [queue[0]];
    }

    method SpeakText(text: string)
      modifies this
      ensures State() == Enqueue(old(State()), text)
    {
      if IsBlank(text) {
        return;
      }
      if !interacted && promptText != "" && text == promptText {
        return;
      }
      queue := queue + [text];
      if current.None? {
        StartSpeaking();
      }
      isSpeaking := true;
    }

    /** The `onend`/`onerror` callback of the unit being spoken. */
    method UtteranceDone()
      modifies this
      ensures State() == FinishUnit(old(State()))
    {
      current := None;
      processing := false;
      if queue != [] {
        shifted := shifted + [queue[0]];
        queue := queue[1..];
      }
      if queue != [] {
        StartSpeaking();
      } else {
        isSpeaking := false;
      }
    }

    method ClearQueue()
      modifies this
      ensures State() == Cleared(old(State()))
    {
      queue := [];
    }
  }
}

=== FILE: wrappers.dfy ===
/** Optional values: the model's stand-in for JavaScript's `undefined`/`null`. */
module Wrappers {

  datatype Option<+T> = None | Some(value: T)
}
